=== FILE: README.md ===
# Catan board generation, packing and condition memo, in Dafny

This project models the board pipeline of a Python Catan environment written
for reinforcement learning, and proves properties of that model.

- **HexBoard** (`modeling/hex_board/board_maker.py`, `calculations.py`) checks
  a margin and a resolution. It sizes and centres an R x C grid of hexes with
  integer formulas. It walks the grid row by row and column by column, and
  grows three coordinate-keyed adjacency tables:
  - hex -> its corners;
  - intersection -> its edges and hexes;
  - path -> its two ends.
  Then it numbers the tiles: sorted hexes, then sorted intersections, then
  sorted paths.
- **make_default_board** (`modeling/catan/game_loading/default_board.py`)
  converts those tiles into game tiles. It then runs four passes over the
  tile list, in place:
  - hex environments from the `HEX_ENVS` table;
  - intersection environments from the neighbouring hexes;
  - path environments from the neighbouring intersections;
  - a rewrite of the connection lists of 18 trade (sea) hexes.
  The module also holds the dock orientations and their slot check.
- **randomize_chits_terrains** shuffles a terrain pile and a chit pile. It
  inserts a 0 chit at the desert's position and pairs the two piles.
- **BoardData** and **BuildingData** (`catan/gamedata/`) pack tiles and
  building descriptions into uint8 arrays. The packing pads ragged
  connection lists to one width, and `package_observation` hands the arrays
  out.
- **ConditionKeeper** (`modeling/catan/condition.py`) evaluates a tree of
  And / Or / Invert / AnyTrue conditions over booleans and boolean vectors.
  It caches each status under the condition's string identifier.

Each Python module is a Dafny module of the same name. The code that changes
state step by step is written as methods with loops:
- the placement loops that grow the tables;
- the indexing loop;
- the environment and sea passes over an `array` of tiles;
- `fill_connections` and `make_even_lengths`, on row objects padded in place;
- the keeper, a class whose field is its memo.

Every such method is proved against a specification function. Each pure
function carries a contract about its result. Lemmas then state what the
source promises about those functions.

Python semantics are written out where they matter:
- `//` is floor division;
- `int(x / y)` truncates towards zero;
- `list.index` finds the first occurrence;
- `zip` stops at the shorter list;
- `defaultdict(set)` reads a missing key as the empty set;
- dict unpacking `{**a, **b, **c}` lets the later table win;
- a numpy reduce of an empty list gives the identity.

Some behaviour of the code is easy to misread; the model follows the code:
- Each row of hexes is offset by `(hex_y % 2) * hex_size // 2`. `hex_y`
  advances by a multiple of 6 from row to row, so `hex_y % 2` is the same
  for every row and every row gets the same offset (see Findings).
- `validate_resolution` rejects only a 0 component and components that are
  not multiples of 8, so negative multiples of 8 pass.
- There is no check of the grid dimensions. A negative count of rows or
  columns gives an empty `range`, which the model writes as `Count`.
- The code's own checks raise `ValueError`, `IndexError` or `KeyError`, with
  the code's own messages. Python and numpy raise the rest, and the model uses
  their messages: `max()` of an empty list, and too few values to unpack.
- The uint8 array build at `catan/gamedata/board.py` lines 37-40 converts
  AutoNumber members, which are plain `Enum` members with no integer
  conversion, so numpy raises `TypeError` on every non-empty tile list (see
  Findings). The board arrays are modelled with the members' values, as
  evidently intended.

## Model

| member | source | states |
|---|---|---|
| Tools.AutoNumber | modeling/catan/tools.py:8-13 | a member's value is a position in its class's declaration order, holding that member, with no earlier occurrence of it |
| Tools.AutoNumberIsPosition | modeling/catan/tools.py:8-13 | in a class of distinct members, the member declared i-th gets value i (the number of members declared before it) |
| Tools.MaxLen | modeling/catan/tools.py:41 | `max(map(len, ...))` of a non-empty list: no row is longer, and some row has exactly that length |
| Tools.FirstEmpty | catan/gamedata/board.py:59-61 | the first row where `row[-1]` raises IndexError: every earlier row is non-empty, and the row found (if any) is empty |
| Tools.Padded | modeling/catan/tools.py:43-44 | a padded row has length max(w, its length), keeps the original row as a prefix, and every added entry is the original last entry |
| Tools.PaddedValuesComeFromRow | modeling/catan/tools.py:43-44 | padding never introduces a value the row did not already hold |
| Tools.AppendUntil | modeling/catan/tools.py:43-44 | the inner while loop leaves the row object holding the padded original row |
| Tools.PaddedThroughStep | modeling/catan/tools.py:42-44 | padding the row object at position t keeps every row object met so far padded and every other row original, even when one row object appears at several positions |
| Tools.PaddedAllRows | modeling/catan/tools.py:42-44 | once every position is handled, every row is exactly w wide, starts with its original entries and is filled with its last original entry |
| Tools.MakeEvenLengths | modeling/catan/tools.py:34-45 | ValueError on an empty list; otherwise it succeeds iff the widest width is 0 or no row is empty. On success it returns the caller's own row objects. The rows are padded in place up to the first empty row, where IndexError stops it |
| Tools.FlattenRowMajor | catan/gamedata/building_data.py:71 | in the row-major flattening of rows of width w, entry w*r + c is row r, column c |
| Tools.FlattenLength | catan/gamedata/building_data.py:71 | flattening n rows of width w gives w*n entries |
| Tools.ElementsWithinRange | modeling/catan/tools.py:52-59 | the result holds exactly the indices i with low <= a[i] < high, in strictly ascending order |
| CatanObjects.ResourceCodes | catan/catan_objects.py:4-9 | Brick..Ore are 0..4, and code r indexes Resource r in declaration order (the 5 cost columns) |
| CatanObjects.SpaceCodes | catan/catan_objects.py:20-24 | Hex 0, Intersection 1, Path 2, Null 3 |
| CatanObjects.EnvironmentCodes | catan/catan_objects.py:27-30 | Land 0, Sea 1, Coast 2, and code e indexes Environment e in declaration order |
| CatanObjects.TerrainCodes | catan/catan_objects.py:37-44 | NoTerrain 0 through Desert 6 |
| CatanObjects.TradeShipCodes | catan/catan_objects.py:47-54 | NoTradeShip 0 through AllShip 6 |
| CatanObjects.BuildingCodes | catan/catan_objects.py:57-61 | NoBuilding 0, Settlement 1, City 2, Road 3 |
| CatanObjects.BoardObject.Code | catan/catan_objects.py:33-61 | every board object's code is below 7, since each subclass numbers its own members from 0 |
| CatanObjects.ObjectCodesOverlap | catan/catan_objects.py:37-61 | Hill, BrickShip and Settlement all have code 1, and NoTerrain and NoBuilding both have code 0: object codes do not tell the subclasses apart |
| Calculations.CalcHexHeight | modeling/hex_board/calculations.py:4-6 | always a multiple of 8; for non-negative inputs it is the largest multiple of 8, h, with h * (3n + 1) <= 4 * pixel height |
| Calculations.CalcHexWidth | modeling/hex_board/calculations.py:9-11 | always a multiple of 8; for non-negative inputs it is the largest multiple of 8, w, with w * (2n + 1) <= 2 * pixel width |
| Calculations.CalcBufferWidth | modeling/hex_board/calculations.py:14-16 | the buffer b is the truncated quarter of D = 2 * pixel width - grid width: 4b <= D <= 4b + 3 when D >= 0, mirrored when D < 0. For an even hex width that fits, 2b <= free width <= 2b + 1 |
| Calculations.CalcBufferHeight | modeling/hex_board/calculations.py:19-21 | the same truncation in eighths for the height. For a hex height divisible by 4 that fits, 2b <= free height <= 2b + 1 |
| Calculations.BufferWidthNonNegative | modeling/hex_board/calculations.py:14-16 | a hex width no larger than calc_hex_width's leaves a non-negative left buffer |
| Calculations.BufferHeightNonNegative | modeling/hex_board/calculations.py:19-21 | a hex height no larger than calc_hex_height's leaves a non-negative top buffer |
| Calculations.GetPathType | modeling/hex_board/calculations.py:34-41 | always a path type. PathVertical iff the x's agree. Otherwise, when the y's differ, PathSlopedL iff y and x grow together between the ends; for a horizontal path, PathSlopedL iff the first end has the smaller x |
| Calculations.GetPathTypeSymmetric | modeling/hex_board/calculations.py:34-41 | swapping the two ends gives the same type unless the path is horizontal |
| Calculations.HorizontalPathTypeDependsOnOrder | modeling/hex_board/calculations.py:34-41 | the horizontal path between (0, 0) and (0, 1) is PathSlopedL one way round and PathSlopedR the other |
| BoardMaker.ValidateMargin | modeling/hex_board/board_maker.py:73-76 | passes iff 0 <= margin <= 50, else ValueError with the source's message |
| BoardMaker.ValidateResolution | modeling/hex_board/board_maker.py:67-71 | passes iff both components are non-zero multiples of 8, else ValueError with the source's message |
| BoardMaker.Validate | modeling/hex_board/board_maker.py:15-17 | passes iff both checks pass; the margin is checked first, so its message wins when both fail |
| BoardMaker.NegativeResolutionPasses | modeling/hex_board/board_maker.py:67-71 | (-16, 8) passes; (8, 12) fails with the resolution message; (0, 8) with margin 60 fails with the margin message |
| BoardMaker.HexSize | modeling/hex_board/board_maker.py:19-22 | the hex size is a multiple of 8, no larger than either candidate and equal to one of them (the minimum) |
| BoardMaker.LayoutOf | modeling/hex_board/board_maker.py:19-25 | the hex size is a multiple of 8, and for non-negative inputs both buffers are non-negative |
| BoardMaker.MinimumExists | modeling/hex_board/board_maker.py:49 | every non-empty set of (y, x) locations has a least member in tuple order |
| BoardMaker.SortedLocs | modeling/hex_board/board_maker.py:49 | `sorted` lists exactly the members of the set, once each |
| BoardMaker.SortedLocsAscending | modeling/hex_board/board_maker.py:49 | `sorted` lists them in strictly ascending (y, x) order |
| BoardMaker.IndexOf | modeling/hex_board/board_maker.py:63 | `list.index` gives a position holding the value, with no earlier occurrence |
| BoardMaker.MergedInOrder | modeling/hex_board/board_maker.py:49-63 | every connection in the merged tables is a key of some table, so `tile_index.index` never fails |
| BoardMaker.PathEnds | modeling/hex_board/board_maker.py:56 | unpacking a two-element set gives its two distinct members |
| BoardMaker.IndicesOf | modeling/hex_board/board_maker.py:63 | every connection index is below the tile count, and each connection's `index` is among them |
| BoardMaker.TileTypeAt | modeling/hex_board/board_maker.py:53-56 | Hex for a hex key; Intersection for an intersection key that is not a hex key; otherwise get_path_type of the path's two distinct ends |
| BoardMaker.MakeTile | modeling/hex_board/board_maker.py:52-65 | tile i has index i, location `tile_index[i]`, the type above, and connections that are the indices of its merged table entry, all below the tile count |
| BoardMaker.IndexedPrefixSnoc | modeling/hex_board/board_maker.py:58-65 | appending the tile for the next entry of tile_index keeps the tile list indexed |
| BoardMaker.IndexTiles | modeling/hex_board/board_maker.py:52-65 | the indexing loop builds one tile per entry of `tile_index`, each as MakeTile states |
| BoardMaker.HexBoard.constructor | modeling/hex_board/board_maker.py:13-65 | for parameters that pass validation, `tiles` is the given `tiles` argument, unchanged, followed by the indexed result of the placement loops on this board's layout |
| BoardMaker.AppendedIndexOffset | modeling/hex_board/board_maker.py:52-60 | with k tiles given, the new tile at position k + i carries index i, so every new tile's index is its position exactly when no tiles were given |
| BoardMaker.NewHexBoard | modeling/hex_board/board_maker.py:15-17 | ValueError exactly when validation fails, with its error; otherwise the built board, with the given tiles first |
| HexGeometry.YLocs | modeling/hex_board/board_maker.py:32 | nine candidate y coordinates |
| HexGeometry.XLocs | modeling/hex_board/board_maker.py:36 | five candidate x coordinates |
| HexGeometry.RowPlacements | modeling/hex_board/board_maker.py:34-45 | the column loop places hex c of a row at column c |
| HexGeometry.Placements | modeling/hex_board/board_maker.py:31-46 | n rows place n * (column count) hexes |
| HexGeometry.PlacementIndex | modeling/hex_board/board_maker.py:31-46 | placed hex k is the hex at row k div C, column k mod C |
| HexGeometry.PlaceHexInUnits | modeling/hex_board/board_maker.py:32-38 | for a hex size that is a multiple of 8, a hex's corners and edge midpoints are fixed lattice offsets from its centre, in units of hexSize/8 |
| HexGeometry.YLocsInUnits | modeling/hex_board/board_maker.py:32 | for a hex size that is a multiple of 8, the nine y candidates are the centre plus -4..4 units of hexSize/8 |
| HexGeometry.XLocsInUnits | modeling/hex_board/board_maker.py:36 | for a hex size that is a multiple of 8, the five x candidates are the centre plus -2..2 double units |
| HexGeometry.CornersInUnits | modeling/hex_board/board_maker.py:37 | a hex centred on lattice point (a, b) has exactly the lattice hex's six corners |
| HexGeometry.EdgesInUnits | modeling/hex_board/board_maker.py:38 | a hex centred on lattice point (a, b) has exactly the lattice hex's six edge midpoints |
| HexGeometry.RowInUnits | modeling/hex_board/board_maker.py:30-46 | row r is 6r units below the first, and every row starts at the same x, because `hex_y % 2` never changes |
| HexGeometry.PlacementInUnits | modeling/hex_board/board_maker.py:30-46 | the hex at (row, col) is the lattice hex centred at (6 row, 4 col) |
| HexGeometry.PtInjective | modeling/hex_board/board_maker.py:32-38 | for a non-zero hex size, distinct lattice points are distinct pixels |
| HexTables.TablesOfAppend | modeling/hex_board/board_maker.py:40-43 | placing one more hex runs its six corner steps on the tables so far |
| HexTables.PlacedHexIsPlacementAt | modeling/hex_board/board_maker.py:32-38 | the hex the loop places at (row, column) is the placement the model assigns to that row and column |
| HexTables.ColumnStep | modeling/hex_board/board_maker.py:35-45 | the six corner steps of the hex at (row, column) turn the tables of the earlier hexes into the tables including it |
| HexTables.HexKeysAfter | modeling/hex_board/board_maker.py:41 | after k corner steps, the hex keys are the old ones plus the centre (once k > 0) |
| HexTables.HexValuesAfter | modeling/hex_board/board_maker.py:41 | after k corner steps, the centre's entry has gained exactly corners 0..k-1 and no other entry changed |
| HexTables.IsecKeysAfter | modeling/hex_board/board_maker.py:42 | after k corner steps, the intersection keys are the old ones plus corners 0..k-1 |
| HexTables.IsecValuesAfter | modeling/hex_board/board_maker.py:42 | after k corner steps, corner i's entry has gained exactly its two edge midpoints and the centre |
| HexTables.PathKeysAfter | modeling/hex_board/board_maker.py:43 | after k corner steps, the path keys are the old ones plus midpoints 0..k-1 |
| HexTables.PathValuesAfter | modeling/hex_board/board_maker.py:43 | after k corner steps, every path written by this hex holds exactly the two corners of that step, and the others are as before |
| HexTables.PlaceCorners | modeling/hex_board/board_maker.py:40-43 | the innermost loop leaves the tables as the six corner steps of the hex define them |
| HexTables.PlaceColumn | modeling/hex_board/board_maker.py:35-45 | one pass of the column loop extends the tables by the hex at (row, column) |
| HexTables.PlaceRow | modeling/hex_board/board_maker.py:32-45 | one pass of the row loop extends the tables by every hex of the row, left to right |
| HexTables.BuildTables | modeling/hex_board/board_maker.py:28-46 | the placement loops produce the tables of all placed hexes, in placement order |
| HexTables.HexTableMeaning | modeling/hex_board/board_maker.py:41 | the hex table's keys are exactly the placed centres, and each entry holds exactly the corners of the hexes placed there |
| HexTables.HexKeysMeaning | modeling/hex_board/board_maker.py:41 | a centre is a hex key iff some placed hex has it |
| HexTables.HexValuesMeaning | modeling/hex_board/board_maker.py:41 | v is in a hex's entry iff v is a corner of a hex placed at that centre |
| HexTables.IsecKeysMeaning | modeling/hex_board/board_maker.py:42 | the intersection table's keys are exactly the corners of placed hexes |
| HexTables.IsecTableMeaning | modeling/hex_board/board_maker.py:42 | an intersection's entry holds exactly the two edge midpoints at that corner and the hex, over every hex having that corner (the table only grows) |
| HexTables.PathKeysMeaning | modeling/hex_board/board_maker.py:43 | the path table's keys are exactly the edge midpoints of placed hexes |
| HexTables.PathTableMeaning | modeling/hex_board/board_maker.py:43 | every path's entry is the two corners written by the last step that wrote that midpoint (plain assignment overwrites) |
| HexTables.TablesClosed | modeling/hex_board/board_maker.py:40-43 | every entry of every table is a key of the table of its kind |
| HexTables.HexEntriesAreIsecs | modeling/hex_board/board_maker.py:41-42 | every corner a hex lists is an intersection key |
| HexTables.IsecEntriesAreKeys | modeling/hex_board/board_maker.py:42 | everything an intersection lists is a hex key or a path key |
| HexTables.PathEntriesAreIsecs | modeling/hex_board/board_maker.py:42-43 | both ends a path lists are intersection keys |
| HexTables.HexCornersListHex | modeling/hex_board/board_maker.py:41-42 | an intersection a hex lists always lists that hex back |
| HexTables.IsecHexesListIsec | modeling/hex_board/board_maker.py:41-42 | an entry of an intersection that is not a path key is a hex that lists the intersection |
| HexTables.PathEndsListPath | modeling/hex_board/board_maker.py:42-43 | both ends of a path list the path, whichever hex wrote it last |
| HexTables.PathsHaveTwoEnds | modeling/hex_board/board_maker.py:43-56 | when no placed hex has two equal neighbouring corners, every path has exactly two ends |
| HexTables.EndsApart | modeling/hex_board/board_maker.py:43 | an edge of a hex whose neighbouring corners differ has exactly two ends |
| BoardLayout.BoardHexInUnits | modeling/hex_board/board_maker.py:30-46 | hex k of the board is the lattice hex at (6 row, 4 col) with k = row * C + col |
| BoardLayout.UnitHexKinds | modeling/hex_board/board_maker.py:35-38 | a board hex's centre, corners and edge midpoints are lattice points of the centre, corner and midpoint kinds |
| BoardLayout.KindsExclusive | modeling/hex_board/board_maker.py:32-38 | for a non-zero hex size, no pixel is both a centre and a corner, a centre and a midpoint, or a corner and a midpoint |
| BoardLayout.BoardKeyKinds | modeling/hex_board/board_maker.py:40-43 | every hex key is a centre point, every intersection key a corner point and every path key a midpoint |
| BoardLayout.HexKeyKinds | modeling/hex_board/board_maker.py:41 | every hex key is a centre point |
| BoardLayout.IsecKeyKinds | modeling/hex_board/board_maker.py:42 | every intersection key is a corner point |
| BoardLayout.PathKeyKinds | modeling/hex_board/board_maker.py:43 | every path key is a midpoint |
| BoardLayout.IsecOfPlacementIsCorner | modeling/hex_board/board_maker.py:38 | corner i of the k-th hex the loops place is a corner point of the lattice |
| BoardLayout.PathOfPlacementIsEdge | modeling/hex_board/board_maker.py:39 | edge midpoint i of the k-th hex the loops place is a midpoint of the lattice |
| BoardLayout.KeysDisjoint | modeling/hex_board/board_maker.py:48-50 | for a non-zero hex size, no pixel is a key of two tables, so each coordinate is one tile |
| BoardLayout.BoardPathsTwoEnds | modeling/hex_board/board_maker.py:43-56 | every path that is not also a hex has exactly two ends, so `get_path_type(*ends)` can unpack them |
| BoardLayout.SizedBoardPathsTwoEnds | modeling/hex_board/board_maker.py:43 | for a non-zero hex size, every path has exactly two ends |
| BoardLayout.ZeroSizePathsAreHexes | modeling/hex_board/board_maker.py:43-54 | for hex size 0 every path key is also a hex key, so the indexing loop types it Hex |
| BoardLayout.BoardCentresDistinct | modeling/hex_board/board_maker.py:35 | for a non-zero hex size, no two hexes of the board share a centre |
| BoardLayout.UnitHexCornersApart | modeling/hex_board/board_maker.py:37 | for a non-zero hex size, neighbouring corners of a hex are different pixels |
| BoardLayout.UnitHexCornersDistinct | modeling/hex_board/board_maker.py:37 | for a non-zero hex size, the six corners of a hex are six different pixels |
| BoardLayout.HexEntryIsCorners | modeling/hex_board/board_maker.py:41 | for a non-zero hex size, a hex's entry holds its own six corners and nothing else |
| BoardLayout.HexListsSixCorners | modeling/hex_board/board_maker.py:37-41 | every hex lists exactly its six corners, six different intersections |
| BoardLayout.HexIsecSymmetric | modeling/hex_board/board_maker.py:41-42 | a hex lists an intersection exactly when the intersection lists the hex |
| BoardLayout.BoardPathTypeOrderFree | modeling/hex_board/board_maker.py:43-56 | no path of the board is horizontal, so its type does not depend on the order the set yields its ends |
| BoardLayout.UnitEndsApartInY | modeling/hex_board/board_maker.py:37-43 | for a non-zero hex size, the two ends of an edge lie on different pixel rows |
| BoardLayout.SortedCornerOrder | modeling/hex_board/board_maker.py:37 | for a positive hex size, a hex's corners in (y, x) order are corners 0, 5, 1, 4, 2, 3 of the builder's clockwise numbering |
| BoardTiles.TileOrderGroups | modeling/hex_board/board_maker.py:48-49 | `tile_index` lists the hexes, then the intersections, then the paths, and contains every key |
| BoardTiles.ThreeRuns | modeling/hex_board/board_maker.py:49 | three runs that list three sets, concatenated: each run holds members of its own set, and every member is listed |
| BoardTiles.AscendingRuns | modeling/hex_board/board_maker.py:49 | three ascending runs, concatenated, stay ascending within each run |
| BoardTiles.TileOrderAscending | modeling/hex_board/board_maker.py:49 | within each group, `tile_index` is strictly ascending in (y, x) |
| BoardTiles.TileOrderDistinct | modeling/hex_board/board_maker.py:49 | with disjoint keys, `tile_index` has no repeats |
| BoardTiles.IndexOfDistinct | modeling/hex_board/board_maker.py:63 | in a list without repeats, the index of entry i is i |
| BoardTiles.TileKinds | modeling/hex_board/board_maker.py:52-62 | tile i has index i, sits at `tile_index[i]`, and is Hex, Intersection or a path type exactly as its key is in the hex, intersection or path table |
| BoardTiles.PathTileType | modeling/hex_board/board_maker.py:53-56 | a path tile's type is get_path_type of its two ends, when the order of the ends does not matter |
| BoardTiles.ConnectionMeaning | modeling/hex_board/board_maker.py:50-63 | j is a connection of tile i iff tile j's location is in tile i's merged table entry |
| BoardTiles.MergedOwnTable | modeling/hex_board/board_maker.py:50 | with disjoint keys, `{**hexes, **isecs, **paths}` gives each key its own table's entry |
| BoardTiles.HexTileAdjacency | modeling/hex_board/board_maker.py:41-63 | a hex tile lists tile j iff j is an intersection that lists the hex |
| BoardTiles.PathTileAdjacency | modeling/hex_board/board_maker.py:42-63 | every tile a path lists is an intersection that lists the path |
| BoardTiles.BoardTablesFacts | modeling/hex_board/board_maker.py:28-50 | on a board with a non-zero hex size the keys are disjoint, hex-intersection adjacency is symmetric, and a path's ends list it |
| BoardTiles.TileAdjacency | modeling/hex_board/board_maker.py:40-63 | on a board with a non-zero hex size: a hex tile lists tile j iff j is an intersection that lists the hex, and every tile a path lists is an intersection that lists the path back |
| BoardTiles.BoardPathTileType | modeling/hex_board/board_maker.py:53-56 | on a board with a non-zero hex size, a path tile has two ends, and its type is get_path_type of them in whichever order the set yields them |
| BoardTiles.AscendingLocsUnique | modeling/hex_board/board_maker.py:49 | two strictly ascending lists of pixels with the same members are equal, so `sorted` of a set has exactly one result |
| BoardTiles.CentresAscending | modeling/hex_board/board_maker.py:30-46 | with a positive hex size, a hex the loops place later has a strictly greater (y, x) centre |
| BoardTiles.SortedHexesInPlacementOrder | modeling/hex_board/board_maker.py:49 | with a positive hex size, the sorted hex keys are the centres in the order the loops place them, so hex tile k is the k-th hex placed |
| BoardTiles.PlacementAtIndex | modeling/hex_board/board_maker.py:31-35 | hex (row, col) is the (row * columns + col)-th hex the loops place |
| HexStagger.IsecPathAsymmetric | modeling/hex_board/board_maker.py:33-43 | as written, with two rows or more: the intersection 2 units below the first centre lists the midpoint 3 units below it, and that path does not list it back |
| HexStagger.FirstTwoRows | modeling/hex_board/board_maker.py:30-46 | as written, the first hexes of rows 0 and 1 are the lattice hexes at (0, 0) and (6, 0): directly above each other |
| HexStagger.UnitEdgeAt | modeling/hex_board/board_maker.py:38 | an edge midpoint of a lattice hex, read back as lattice units, is the hex's own midpoint offset |
| HexStagger.LastWriterOfSharedEdge | modeling/hex_board/board_maker.py:43 | below the first row, only edge 1 of the first hex of row 1 writes the midpoint at (3, 1) |
| HexStagger.StaggeredInUnits | modeling/hex_board/board_maker.py:33 | with the stagger by row parity, the hex at (row, col) is the lattice hex at (6 row, 4 col + 2 (row mod 2) + shift) |
| HexStagger.StaggeredHexInUnits | modeling/hex_board/board_maker.py:33 | with the stagger by row parity, hex k is the lattice hex at (6 row, 4 col + 2 (row mod 2) + shift) for its row and column |
| HexStagger.UnitEndsBySlope | modeling/hex_board/board_maker.py:37-43 | edge i of a lattice hex has slope class i mod 3, and its ends follow from its midpoint and that class |
| HexStagger.SharedEdgeSameSlope | modeling/hex_board/board_maker.py:33 | with the stagger by row parity, two hexes sharing an edge midpoint see that edge with the same slope class |
| HexStagger.CentreNotMidpoint | modeling/hex_board/board_maker.py:33 | with the stagger by row parity, no hex centre is another hex's edge midpoint, in lattice units |
| HexStagger.LatticeEndsAgree | modeling/hex_board/board_maker.py:33-43 | with the stagger by row parity, two hexes sharing an edge midpoint give it the same two ends |
| HexStagger.LatticeCentreOffEdges | modeling/hex_board/board_maker.py:33 | with the stagger by row parity and a non-zero hex size, no centre is an edge midpoint |
| HexStagger.StaggeredEdgesAgree | modeling/hex_board/board_maker.py:33-43 | with the stagger by row parity, hexes sharing an edge midpoint give it the same ends, and no centre is a midpoint |
| HexStagger.IsecPathSymmetricWhenEdgesAgree | modeling/hex_board/board_maker.py:42-43 | when shared midpoints get the same ends and no centre is a midpoint, an intersection lists a path iff the path lists it |
| HexStagger.CornerEndsItsEdges | modeling/hex_board/board_maker.py:42-43 | a corner of a hex is an end of each edge at that corner that the corner lists |
| HexStagger.IsecListedByPath | modeling/hex_board/board_maker.py:42-43 | when shared midpoints get the same ends and no centre is a midpoint, a path an intersection lists lists the intersection |
| HexStagger.StaggeredIsecPathSymmetric | modeling/hex_board/board_maker.py:33-43 | with the stagger by row parity, intersection-path adjacency is symmetric |
| DefaultBoard.SpaceOf | modeling/catan/game_loading/default_board.py:13-19 | TILE_TYPE_CONV: never Null. Hex iff Hex, Intersection iff Intersection, Path iff a path type |
| DefaultBoard.ObjectDefault | modeling/catan/game_loading/default_board.py:33-37 | NoTerrain for Hex, NoBuilding for Intersection and Path (code 0 either way), KeyError for Null |
| DefaultBoard.NewConvertedTile | modeling/catan/game_loading/default_board.py:79-90 | the given fields, chit 0, env Land and the default object; KeyError exactly for the Null space |
| DefaultBoard.SortedIndices | modeling/catan/game_loading/default_board.py:185 | `sorted` lists exactly the members of the set, once each |
| DefaultBoard.LeastExists | modeling/catan/game_loading/default_board.py:185 | every non-empty set of indices has a least member |
| DefaultBoard.Least | modeling/catan/game_loading/default_board.py:185 | the least member of a non-empty set of indices |
| DefaultBoard.SortedIndicesAscending | modeling/catan/game_loading/default_board.py:185 | `sorted` is strictly increasing |
| DefaultBoard.AscendingUnique | modeling/catan/game_loading/default_board.py:185 | two strictly increasing lists with the same members are equal |
| DefaultBoard.SortedOfAscending | modeling/catan/game_loading/default_board.py:185 | sorting the members of a strictly increasing list gives that list back |
| DefaultBoard.Convert | modeling/catan/game_loading/default_board.py:181-187 | a converted tile is a successful ConvertedTile of the tile's index, its space, its sorted connections and its location |
| DefaultBoard.UnitHexCompass | modeling/catan/game_loading/default_board.py:65-68 | for a positive hex size, corners 0..5 lie N, NE, SE, S, SW and NW of the centre |
| DefaultBoard.CornerIndicesAscending | modeling/catan/game_loading/default_board.py:185 | corners in (y, x) chain order have increasing tile indices |
| DefaultBoard.IsecIndexMonotone | modeling/catan/game_loading/default_board.py:185 | within the intersection group of tile_index, a smaller (y, x) intersection has a smaller index |
| DefaultBoard.CornerIndices | modeling/catan/game_loading/default_board.py:185 | the indices of a hex's corners, taken N, NW, NE, SW, SE, S |
| DefaultBoard.IndexChain | modeling/catan/game_loading/default_board.py:185 | indices that increase along the (y, x) chain of corners make that listing strictly ascending |
| DefaultBoard.SortedCorners | modeling/catan/game_loading/default_board.py:185 | the sorted set of a hex's corner indices is the list of the corners' indices in reading order |
| DefaultBoard.HexSlots | modeling/catan/game_loading/default_board.py:185 | a hex tile's sorted connections are its corners' indices in reading order |
| DefaultBoard.HexSlotsInReadingOrder | modeling/catan/game_loading/default_board.py:181-187 | on a board with a positive hex size, a hex tile's converted connections are the indices of its corners taken N, NW, NE, SW, SE, S, so slot 0 is the top corner and slot 5 the bottom |
| DefaultBoard.HexEnvsFlatShape | modeling/catan/game_loading/default_board.py:22-30 | the flattened HEX_ENVS has 49 entries, with row r at 7r..7r+6 |
| DefaultBoard.UpdateHexEnvironments | modeling/catan/game_loading/default_board.py:140-142 | tile i gets entry i of the flattened HEX_ENVS. The pass succeeds iff there are at least 49 tiles, else IndexError after the last tile |
| DefaultBoard.HexPass | modeling/catan/game_loading/default_board.py:140-142 | the hex pass after n tiles keeps the tile count |
| DefaultBoard.ConnectedEnvs | modeling/catan/game_loading/default_board.py:137-138 | e is listed iff some connected tile of the given space has env e |
| DefaultBoard.ConnectedEnvsFrame | modeling/catan/game_loading/default_board.py:137-138 | get_connected_envs reads only the spaces, and the envs of tiles of that space |
| DefaultBoard.IsecEnv | modeling/catan/game_loading/default_board.py:149-154 | Land iff no Sea; Sea iff Sea and no Land; Coast iff both |
| DefaultBoard.PathEnv | modeling/catan/game_loading/default_board.py:161-166 | Land iff some Land; Sea iff no Land and some Sea; Coast iff neither |
| DefaultBoard.FirstBad | modeling/catan/game_loading/default_board.py:145-148 | the first tile of the pass's space with a connection past the list: all earlier such tiles are in range |
| DefaultBoard.EnvPassStep | modeling/catan/game_loading/default_board.py:145-166 | step n finds tile n as it started. It classifies the tile against the tiles as the earlier steps left them when the tile is of the target space, and changes nothing otherwise |
| DefaultBoard.EnvPass | modeling/catan/game_loading/default_board.py:144-166 | an environment pass after n tiles keeps the tile count |
| DefaultBoard.IsecPass | modeling/catan/game_loading/default_board.py:144-154 | the intersection pass, classifying intersections by their hexes |
| DefaultBoard.PathPass | modeling/catan/game_loading/default_board.py:156-166 | the path pass, classifying paths by their intersections |
| DefaultBoard.ClassifyNext | modeling/catan/game_loading/default_board.py:145-166 | one loop pass: skips other spaces, classifies a target tile, or stops at the first tile with a connection past the list |
| DefaultBoard.UpdateEnvironments | modeling/catan/game_loading/default_board.py:144-166 | the shared loop ends with the pass applied up to the first bad tile; it succeeds iff there is none, else IndexError |
| DefaultBoard.UpdateIntersectionEnvironments | modeling/catan/game_loading/default_board.py:144-154 | the intersection pass, up to its first IndexError |
| DefaultBoard.UpdatePathEnvironments | modeling/catan/game_loading/default_board.py:156-166 | the path pass, up to its first IndexError |
| DefaultBoard.EnvPassFrame | modeling/catan/game_loading/default_board.py:144-166 | an environment pass changes only the env field, and changes no tile outside its target space |
| DefaultBoard.IsecPassMeaning | modeling/catan/game_loading/default_board.py:144-154 | after the pass, an intersection is Land iff no connected hex is Sea; Sea iff one is Sea and none is Land; Coast otherwise |
| DefaultBoard.PathPassMeaning | modeling/catan/game_loading/default_board.py:156-166 | after the pass, a path is Land iff a connected intersection is Land; Sea iff none is Land and one is Sea; Coast otherwise |
| DefaultBoard.TargetsOfGroups | modeling/catan/game_loading/default_board.py:169-170 | the nested loops visit tile k of group g as visit 3g + k, with the group's slots |
| DefaultBoard.SeaTargetsListed | modeling/catan/game_loading/default_board.py:69-76 | the visits over SEA_HEX_CONNECTIONS are the 18 listed tiles, in order, with their groups' slots |
| DefaultBoard.SeaTargetsShape | modeling/catan/game_loading/default_board.py:69-76 | 18 distinct trade hexes, each keeping two different slots of six |
| DefaultBoard.ListingShape | modeling/catan/game_loading/default_board.py:69-76 | the written-out visits are 18, for distinct tiles, each with two different slots below 6 |
| DefaultBoard.Pick | modeling/catan/game_loading/default_board.py:172 | `[c[k] for k in slots]`: entry m is c at slot m |
| DefaultBoard.FirstBadSea | modeling/catan/game_loading/default_board.py:171-172 | the first visit that raises IndexError: all earlier visits have their tile and both slots |
| DefaultBoard.FirstBadSeaAt | modeling/catan/game_loading/default_board.py:171-172 | a failing visit no later than the first failing one is the first failing one |
| DefaultBoard.VisitOf | modeling/catan/game_loading/default_board.py:170-172 | the first of the first n visits that concerns tile i, or n when none does |
| DefaultBoard.SeaPass | modeling/catan/game_loading/default_board.py:170-172 | the sea pass after n visits keeps the tile count |
| DefaultBoard.SeaPassUntouched | modeling/catan/game_loading/default_board.py:170-172 | with distinct tiles, a visit finds its tile as the pass started with it |
| DefaultBoard.SeaPassStep | modeling/catan/game_loading/default_board.py:170-172 | visit n rewrites its own tile's connections from that tile's original list, and no other tile |
| DefaultBoard.VisitTile | modeling/catan/game_loading/default_board.py:171-172 | one visit keeps the connections at its slots, or raises IndexError and changes nothing |
| DefaultBoard.VisitGroup | modeling/catan/game_loading/default_board.py:170-172 | the inner loop makes the group's three visits, stopping at the first IndexError |
| DefaultBoard.RewriteGroups | modeling/catan/game_loading/default_board.py:168-172 | the nested loops apply the visits up to the first IndexError, and succeed iff there is none |
| DefaultBoard.UpdateSeaConnections | modeling/catan/game_loading/default_board.py:168-172 | update_sea_connections over the 18 listed visits |
| DefaultBoard.SeaPassVisited | modeling/catan/game_loading/default_board.py:168-172 | after the pass, each listed hex holds exactly its original connections at its slots, in listed order, and nothing else of it changes |
| DefaultBoard.SeaPassUnvisited | modeling/catan/game_loading/default_board.py:168-172 | after the pass, every tile not listed is unchanged |
| DefaultBoard.ConvertAll | modeling/catan/game_loading/default_board.py:181-187 | tile_data has one converted tile per HexBoard tile, in order |
| DefaultBoard.RunPasses | modeling/catan/game_loading/default_board.py:189-192 | the four passes run in order, each on the result of the one before, up to the first IndexError |
| DefaultBoard.MakeBoard | modeling/catan/game_loading/default_board.py:174-194 | the result is the passes applied to the converted tiles of some tile list the HexBoard builds for these parameters. For a 7x7 grid of positive hex size the passes succeed and every hex sits at its place with its HEX_ENVS entry |
| DefaultBoard.ToArray | modeling/catan/game_loading/default_board.py:181-187 | a fresh list holding the converted tiles |
| DefaultBoard.MakeDefaultBoard | modeling/catan/game_loading/default_board.py:136-194 | the result is the passes over the converted tiles of the 7x7 HexBoard on 1920x1080 with margin 5; it raises nothing, hex (row, col) is tile 7 row + col at its place with HEX_ENVS[row][col], and every trade hex keeps two connections |
| DefaultBoard.DefaultResolutionFits | modeling/catan/game_loading/default_board.py:174-179 | the default screen passes validation with margin 5, HEX_ENVS is 7 rows of 7, and the grid's hexes have a positive size |
| DefaultBoard.DefaultLayoutSize | modeling/hex_board/board_maker.py:19-22 | on 1920x1080 with 7 rows and 7 columns the hex size is 192 |
| DefaultBoard.SevenBySevenSize | modeling/hex_board/board_maker.py:31-34 | a 7x7 grid of positive hex size places 49 hexes, 7 per row |
| DefaultBoard.SameButEnvInRange | modeling/catan/game_loading/default_board.py:144-166 | changing only envs keeps every connection in range |
| DefaultBoard.EnvPassKeeps | modeling/catan/game_loading/default_board.py:144-166 | an environment pass over all tiles changes only envs, and no tile outside its target space |
| DefaultBoard.EnvStagesSucceed | modeling/catan/game_loading/default_board.py:189-191 | on at least 49 tiles with connections in range, the hex, intersection and path passes raise nothing, change only envs, and a hex among the first 49 gets its flattened HEX_ENVS entry |
| DefaultBoard.PassesSucceed | modeling/catan/game_loading/default_board.py:189-192 | when in addition every visited trade tile has six connections, all four passes succeed; index, space and location never change; each visited tile keeps its connections at its slots and every other tile keeps its connections |
| DefaultBoard.PassedHex | modeling/catan/game_loading/default_board.py:189-192 | a hex tile among the first 49 ends with its index, space, location and flattened HEX_ENVS entry |
| DefaultBoard.SeaTargetsAmongHexes | modeling/catan/game_loading/default_board.py:69-76 | every trade hex in SEA_HEX_CONNECTIONS is one of the first 49 tiles |
| DefaultBoard.HexTileIsPlacedHex | modeling/hex_board/board_maker.py:49-63 | with a positive hex size, tile k for k below the hex count is a Hex tile with index k at the k-th placed centre and six connections |
| DefaultBoard.ConvertedInRange | modeling/catan/game_loading/default_board.py:181-187 | every connection of a converted tile is an index into tile_data |
| DefaultBoard.DefaultTilesReady | modeling/catan/game_loading/default_board.py:181-187 | the converted 7x7 board has at least 49 tiles, connections in range, and six connections on every tile the sea pass visits |
| DefaultBoard.SeaVisitsFindHexes | modeling/catan/game_loading/default_board.py:168-172 | on a 7x7 board every tile update_sea_connections visits is a hex with six connections |
| DefaultBoard.DefaultHexAt | modeling/catan/game_loading/default_board.py:140-142 | on a 7x7 board, after the passes tile 7 row + col is the hex placed at (row, col), with HEX_ENVS[row][col] |
| DefaultBoard.DefaultSeaAt | modeling/catan/game_loading/default_board.py:168-172 | on a 7x7 board, trade hex j is a hex whose six sorted corners are cut down to the two at its slots |
| DefaultBoard.DefaultBoardBuilds | modeling/catan/game_loading/default_board.py:174-194 | make_default_board's passes on its own HexBoard raise nothing; every hex of the 7x7 grid is at its place with its HEX_ENVS entry; every trade hex keeps the two corners at its slots |
| DefaultBoard.AllSlots | modeling/catan/game_loading/default_board.py:112 | `all(0 <= c < 6 ...)` holds iff every connection is a slot 0..5 |
| DefaultBoard.ValidateConnections | modeling/catan/game_loading/default_board.py:110-114 | passes iff every connection is in [0, 6), else ValueError with the source's message |
| DefaultBoard.DockOrientationsValid | modeling/catan/game_loading/default_board.py:93-108 | every DockOrientation member passes its own `__init__` check, and joins two different corners |
| ChitPiles.PileLength | modeling/catan/game_loading/default_board.py:210-211 | a pile built from counts holds as many items as the quantities add up to |
| ChitPiles.PileValues | modeling/catan/game_loading/default_board.py:210-211 | every item of a pile is the value of an entry with a positive quantity |
| ChitPiles.PileAt | modeling/catan/game_loading/default_board.py:210-211 | item i of a pile is one of the first entry's copies, or an item of the rest |
| ChitPiles.PileSplit | modeling/catan/game_loading/default_board.py:210-211 | a pile is the first entry's copies followed by the pile of the rest |
| ChitPiles.TerrainPileFacts | modeling/catan/game_loading/default_board.py:198-210 | 19 terrains; the tenth is a pasture, the last is the desert, and it is the only desert |
| ChitPiles.TerrainPileOf | modeling/catan/game_loading/default_board.py:198-210 | 19 terrains, the tenth a pasture, the last the desert, and exactly one desert |
| ChitPiles.ChitPileFacts | modeling/catan/game_loading/default_board.py:206-211 | 20 chits in 2..12, the tenth a 7 |
| ChitPiles.ChitPileOf | modeling/catan/game_loading/default_board.py:206-211 | 20 chits in 2..12, the tenth a 7 |
| ChitPiles.ShuffledFrom | modeling/catan/game_loading/default_board.py:212-213 | a shuffled pile has the same length and holds only values of the original pile |
| ChitPiles.Insert | modeling/catan/game_loading/default_board.py:214 | `list.insert`: one item longer, x at i, earlier items kept, later items shifted by one, and the multiset gains exactly x |
| ChitPiles.Zip | modeling/catan/game_loading/default_board.py:215 | pairs up to the shorter list, item by item |
| ChitPiles.FirstIndex | modeling/catan/game_loading/default_board.py:214 | `list.index`: a position holding x, with no earlier x |
| ChitPiles.FirstIndexAt | modeling/catan/game_loading/default_board.py:214 | the first position holding x is the one `list.index` finds |
| ChitPiles.PairedBeforeDesert | modeling/catan/game_loading/default_board.py:214-215 | before the desert, each terrain is paired with the chit at its own position |
| ChitPiles.ShuffledTerrains | modeling/catan/game_loading/default_board.py:210-212 | a shuffled terrain pile has 19 terrains, exactly one of them the desert |
| ChitPiles.PairedMeaning | modeling/catan/game_loading/default_board.py:214-215 | with one desert and no 0 chit in the pile: every terrain keeps its position, the desert and only the desert gets 0, and every other terrain gets a chit of the pile |
| ChitPiles.ZipPiles | modeling/catan/game_loading/default_board.py:215 | the zip loop visits exactly the zipped pairs, in order |
| ChitPiles.RandomizeChitsTerrains | modeling/catan/game_loading/default_board.py:209-216 | for any shuffle of the terrain pile and any chit pile of values in 2..12 with enough chits: 19 pairs, each terrain in its own position, the desert and only the desert paired with 0, every other terrain with a chit in 2..12 |
| ChitPiles.SevenIsPaired | modeling/catan/game_loading/default_board.py:206-215 | as written, unshuffled: the tenth terrain, a pasture, is paired with a 7. The 21 chits outnumber the 19 terrains, so two chits are never placed |
| ChitPiles.StandardPileFacts | modeling/catan/game_loading/default_board.py:206 | the standard pile has 18 chits in 2..12, none of them 7 |
| ChitPiles.StandardPileOf | modeling/catan/game_loading/default_board.py:206 | 18 chits, all in 2..12, none of them 7 |
| ChitPiles.PlacedChits | modeling/catan/game_loading/default_board.py:215 | the chits of the pairs, in order |
| ChitPiles.ShuffledStandardChits | modeling/catan/game_loading/default_board.py:213 | a shuffled standard pile has 18 chits in 2..12, none of them 7 |
| ChitPiles.PairsWithoutSeven | modeling/catan/game_loading/default_board.py:214-215 | 19 terrains with one desert and 18 chits without 0 or 7: every chit is placed exactly once plus the 0, the desert alone gets 0, and no terrain gets a 7 |
| ChitPiles.StandardPilePairsEveryChit | modeling/catan/game_loading/default_board.py:206-215 | with the standard 18-chit pile, the same holds for any shuffles of the two piles |
| ChitPiles.PlacedChitsOfPaired | modeling/catan/game_loading/default_board.py:214-215 | when the terrains outnumber the chits by one, the pairs place the whole pile plus the 0 chit and nothing else |
| Board.RowsOf | catan/gamedata/board.py:42 | `[tile.connections for tile in tile_data]` holds the tiles' own row objects, in order |
| Board.ExtendWithLast | catan/gamedata/board.py:60-61 | `row.extend([row[-1]] * n_missing)` leaves the row padded to w; a negative count adds nothing |
| Board.PadNext | catan/gamedata/board.py:59-61 | one loop pass pads row y in place and keeps the padded prefix invariant |
| Board.FillConnections | catan/gamedata/board.py:56-62 | ValueError on an empty list. Otherwise it succeeds iff no row is empty, and returns the same list. Rows are padded in place, through the first empty row where IndexError stops it |
| Board.CastRow | catan/gamedata/board.py:37-39 | a row converts to uint8 iff every entry is a plain int, keeping each value; a member first in the row raises TypeError naming its class |
| Board.CastRows | catan/gamedata/board.py:37-39 | the rows convert iff every entry of every row is a plain int, keeping the values in place; the first entry of the first row, if a member, raises TypeError naming its class |
| Board.UnpackColumns | catan/gamedata/board.py:37-40 | no rows: ValueError from the unpacking. Otherwise it succeeds iff every entry is a plain int, and column c holds entry c of every row; a member first raises TypeError |
| Board.MemberRows | catan/gamedata/board.py:38 | one row of four entries per tile, headed by the tile's Space member |
| Board.CodeRows | catan/gamedata/board.py:38 | one row of four plain ints per tile |
| Board.EnumRowsRaise | catan/gamedata/board.py:37-40 | as written, the array build raises TypeError naming Space on every non-empty tile list, and ValueError on an empty one |
| Board.CodeRowsUnpackOk | catan/gamedata/board.py:37-40 | built from the members' values, the array build fails exactly on an empty tile list |
| Board.CodeRowsUnpack | catan/gamedata/board.py:37-40 | built from the members' values, column 0 holds every tile's space code, column 1 its environment code, column 2 its object code and column 3 its chit |
| Board.BoardData.constructor | catan/gamedata/board.py:32-42 | column i of every array comes from tile i, as the members' values; every owner is 255, robber and last placement are the init arguments as given (0 by default), and the connections are the padded rows |
| Board.BoardData.PackageObservation | catan/gamedata/board.py:44-53 | exactly the five keys, no spaces or environments, robber and last placement as one-element arrays, and the player is not used |
| Board.PaddedRowsFit | catan/gamedata/board.py:58-61 | rows padded to the widest width are that wide, keep their prefix, and still fit in uint8 |
| Board.NewBoardData | catan/gamedata/board.py:32-42 | with the members' values in the arrays: no tiles raise the unpacking's ValueError before fill_connections runs; otherwise IndexError exactly when a tile has no connections. On success the arrays are built from the tiles, robber and last placement are the init arguments, and the tiles' own rows are padded to the widest width |
| Board.FillAndBuild | catan/gamedata/board.py:41-42 | on a non-empty tile list: IndexError exactly when a tile has no connections, else the arrays from the tiles and the tiles' own rows padded to the widest width |
| BuildingTables.CostRow | catan/gamedata/building_data.py:50-56 | column r is the listed cost of resource r, or 0 |
| BuildingTables.EnvRow | catan/gamedata/building_data.py:58-64 | column e is true iff e is a required environment |
| BuildingTables.MakeBuildingData | catan/gamedata/building_data.py:34-64 | one entry per building in input order for every array; costs per Resource (0 where none is listed); environment flags per Environment |
| BuildingTables.PackageObservation | catan/gamedata/building_data.py:66-75 | the six keys without `buildings`; costs raveled row-major to 5n entries with entry 5i + r = costs[i][r] |
| BuildingTables.PackagedCosts | catan/gamedata/building_data.py:50-71 | entry 5i + r of the packaged costs is what building i costs in resource r, or 0 |
| Conditions.Digits | modeling/catan/condition.py:32 | a non-empty string of decimal digits |
| Conditions.JoinTwo | modeling/catan/condition.py:68 | joining two identifiers puts the separator between them |
| Conditions.AndOf | modeling/catan/condition.py:66-68 | `a & b` is And of exactly [a, b], and its identifier is a's, `&`, then b's |
| Conditions.OrOf | modeling/catan/condition.py:78-80 | `a \| b` is Or of exactly [a, b], and its identifier is a's, `\|`, then b's |
| Conditions.InvertOf | modeling/catan/condition.py:90-92 | `~a` is Invert(a), and its identifier is `~` before a's repr |
| Conditions.Fold | modeling/catan/condition.py:71 | the and-fold is true iff all hold; the or-fold iff any holds |
| Conditions.Reduce | modeling/catan/condition.py:71 | the identity for no statuses, the fold for scalars, an element-wise fold for vectors of one width, and a ValueError exactly otherwise |
| Conditions.ScalarsOf | modeling/catan/condition.py:71 | the statuses as booleans, one per status, in order |
| Conditions.ColumnOf | modeling/catan/condition.py:71 | column k of vectors of one width, one entry per vector |
| Conditions.Not | modeling/catan/condition.py:95 | element-wise not, of the same shape |
| Conditions.NotNot | modeling/catan/condition.py:95 | inverting twice gives the status back |
| Conditions.AnyOf | modeling/catan/condition.py:59 | a scalar, true iff some element is true |
| Conditions.StatusOf | modeling/catan/condition.py:15-21 | a hit returns the stored status and leaves the memo alone; a miss returns the check's result and stores it under the key; old entries never change |
| Conditions.CheckOf | modeling/catan/condition.py:58-95 | the check of each class only ever adds memo entries, never changes one |
| Conditions.StatusesOf | modeling/catan/condition.py:71 | the children's statuses in order, one per child, only adding memo entries |
| Conditions.StatusesStopAtError | modeling/catan/condition.py:71 | the first child that fails makes the whole list fail, with the memo as it was then |
| Conditions.KeyedMemoIsTransparent | modeling/catan/condition.py:15-21 | with the memo keyed by the condition itself, every status is the condition's own value, and the memo stays correct |
| Conditions.GetStatusTransparent | modeling/catan/condition.py:15-21 | with an injective key and a memo that holds only true statuses, get_status gives the condition's own value and keeps the memo true |
| Conditions.CheckTransparent | modeling/catan/condition.py:58-95 | the same for check |
| Conditions.StatusesTransparent | modeling/catan/condition.py:71 | the same for the children's statuses |
| Conditions.IdentifierCollision | modeling/catan/condition.py:15-80 | `a \| (b & c)` and `(a \| b) & c` share an identifier: with A true and B, C false, the second is false, yet after the first the keeper returns true for it |
| Conditions.KeeperRunsFirst | modeling/catan/condition.py:15-83 | from an empty memo, the keeper gives `a \| (b & c)` the value true |
| Conditions.KeeperRunsSecondPart | modeling/catan/condition.py:15-71 | against the memo left by `a`, the keeper gives `b & c` the value false when B and C are false |
| Conditions.StatusesPair | modeling/catan/condition.py:71 | two children: the first's status, then the second's against the grown memo |
| Conditions.ReduceTwoScalars | modeling/catan/condition.py:71 | reducing two scalars applies the operator to them |
| Conditions.EvalTwo | modeling/catan/condition.py:70-83 | a two-child And/Or of scalar children is the operator applied to their values |
| Conditions.ConditionKeeper.constructor | modeling/catan/condition.py:12-13 | the memo starts empty |
| Conditions.ConditionKeeper.GetStatus | modeling/catan/condition.py:15-21 | the keeper's result and new memo are StatusOf keyed by identifier |
| Conditions.ConditionKeeper.Check | modeling/catan/condition.py:34-95 | the result and new memo are CheckOf keyed by identifier |
| Conditions.ConditionKeeper.Statuses | modeling/catan/condition.py:71 | the list comprehension's result and memo are StatusesOf keyed by identifier |

## Left out

- `random.shuffle` (default_board.py lines 212-213) is modelled as "any permutation": the shuffled piles are parameters whose multisets equal the built piles.
- `rand_wtd_index` (tools.py lines 16-31) is left out: it makes a random weighted pick.
- The `print` calls (condition.py line 20, default_board.py line 216, tiles.py line 36) are left out. They write to the console. The zip loop of `randomize_chits_terrains` is modelled as returning the pairs it would print.
- `calc_display_area` (calculations.py lines 24-31) is left out. It is never called, and it computes with the float `margin / 100`.
- `array_isinstance` and `conv_obj2attr` (tools.py lines 48-49) are left out: they are numpy vectorisations of Python reflection.
- `TileImage` (tiles.py lines 27-41) is left out: PIL image loading and recolouring. `TileType` and `TileInfo` of the same file are mirrored as datatypes.
- `catan/game_state.py` is not part of this model. It has dispatch through dictionaries of callables and no board logic.
- `modeling/catan/gamedata/__init__.py` is not part of this model. It merges observations from components whose source is not available.
- `TradeTileLoadout`, `TradeTile`, `TRADE_SHIP_TILES`, `TRADE_SHIP_PLACEMENTS` and the `Annotated` aliases (default_board.py lines 39-62, 117-131) are left out. They are a stub with no behaviour.
- DockOrientation's display strings (default_board.py lines 94-99, 108) are left out. Only the connection pairs and their check are modelled.
- `DevelopmentCard`, `Request`, `Event` and `DevelopmentEffect` (catan_objects.py lines 12-17, 64-99) are left out. No board or building code uses them.
- `BoardData.build_dists` (board.py line 31) is left out: it is declared but never assigned.
- `DEFAULT_SPACE`, `DEFAULT_ENV` and `ROBBER_START` (board.py lines 8-10) and `ROBBER_STARTS_ON` (default_board.py line 197) are declared as constants and used nowhere.
- The `__main__` blocks are left out.
- uint8 casts are not modelled as wrap-around. `Board.BoardData.constructor`, `Board.NewBoardData`, `BuildingTables.MakeBuildingData` and `Board.BoardData.PackageObservation` instead require every code, chit, index, cost, limit, yield, robber and last placement to be below 256. The default 7x7 board has more than 256 tiles, so its connection indices do not meet that requirement.
- The numpy `.T` unpacking and the `dtype=Building`/`dtype=Space` arrays are modelled as sequences of the members' numeric codes.
- `Board.BoardData.constructor` and `Board.NewBoardData` build the arrays from the members' AutoNumber values, the corrected half of the TypeError finding. As written, board.py raises `TypeError` there on every non-empty tile list, which `Board.EnumRowsRaise` states. The wording of numpy's TypeError message is not modelled, only the class it names.
- The leaf conditions' `check` methods are left out. The base class's `check` has no body, and the leaf subclasses are not part of the source. The model takes them as a function parameter from class name and value to status.
- `Conditions.Repr` assumes that a leaf class declares no dataclass field besides `value`. The repr of any other field is not modelled. AnyTrue, And, Or and Invert are modelled with their operands only. They cannot carry the `value` every Condition inherits, so the identifier and repr of a non-leaf condition with a `value` are not modelled.
- `Tools.ElementsWithinRange` models only a one-dimensional array. It returns the list of matching indices, where `np.where` returns a tuple holding one index array per dimension.
- The `.copy()` of `ConditionKeeper.get_status` (condition.py line 21) is not modelled. Statuses are values in the model, so aliasing between the memo and the caller is not captured. A `check` that returns a plain Python bool would make `.copy()` raise, and that case is not modelled either.
- HexBoard's `connections` tuple follows the iteration order of a Python set, which the source does not fix. `BoardMaker.MakeTile` and the tile lemmas model it as the set of indices. `DefaultBoard.Convert` then sorts it, as the source does.
- `DefaultBoard.MakeBoard` and `DefaultBoard.MakeDefaultBoard` state their result as the passes over some tile list the HexBoard builds. The tile list is unique up to the set order above. That order does not reach the converted tiles, because `Convert` sorts the connections, but the model does not prove that the converted list is unique. What is proved of the default board is stated by `DefaultBoard.DefaultBoardBuilds`: the passes succeed, each hex's place and environment, and the trade hexes' two kept corners. The environments of intersections and paths on the default board are characterised only through `DefaultBoard.IsecPassMeaning` and `DefaultBoard.PathPassMeaning`, not listed tile by tile.
- The `tiles` argument of HexBoard is a value in the model. In the source, `__post_init__` appends to the caller's own list object, so the caller also sees the new tiles; that aliasing is not captured. `DefaultBoard.MakeBoard` passes the empty default, as `make_default_board` does.
- Conditions.Reduce: for a list numpy cannot stack, the ValueError carries only the opening words of numpy's message, "setting an array element with a sequence". The rest of numpy's wording, which describes the array's shape, is not modelled.
- The padding routines take the rows as `Row` objects, so a row shared by two positions of the outer list is modelled. Other Python aliasing, such as a tile list holding the same tile twice, is not modelled.

## Findings

| source | as written | input that shows it | evidently intended | confidence | as-written member | corrected member |
|---|---|---|---|---|---|---|
| modeling/hex_board/board_maker.py:30-46 | `hex_x` is offset by `(hex_y % 2) * hex_size // 2`. `hex_y` starts at a multiple of 4 plus the top buffer and advances by `3 * hex_size // 4`, a multiple of 6, so every row gets the same offset. Hexes of neighbouring rows then sit directly above each other. The later row's plain assignment to `path_connections` replaces the ends of a shared midpoint with the other slope's ends | any board with two rows, one column and a non-zero hex size. The intersection 2 units below the first hex's centre lists the midpoint 3 units below it, and that path's entry does not list the intersection | odd rows (by row number) offset by half a hex, so rows interlock and intersection-path adjacency is symmetric | high (proved in the model; not executed) | HexStagger.IsecPathAsymmetric | HexStagger.StaggeredIsecPathSymmetric |
| modeling/catan/game_loading/default_board.py:206-215 | `CHITS` covers `range(2, 13)` with 7 included, which makes 20 chits. After the 0 is inserted there are 21 chits for 19 terrains, and `zip` silently drops the last two | the unshuffled piles pair the tenth terrain, a pasture, with a 7 | the standard 18-chit set without 7, so every chit is placed once and the desert alone gets 0 | high (proved in the model; not executed) | ChitPiles.SevenIsPaired | ChitPiles.StandardPilePairsEveryChit |
| catan/gamedata/board.py:37-40 | `np.array([[tile.space, tile.env, tile.object, tile.chit_value] ...], dtype=np.uint8)` converts AutoNumber members to uint8. AutoNumber subclasses plain `Enum`, which has no integer conversion, so numpy raises `TypeError` | any non-empty tile list, such as the output of `make_default_board`: the first entry is a `Space` member | the members' values in the arrays, so column i of each array holds tile i's codes | high (the Python and numpy semantics are modelled; not executed) | Board.EnumRowsRaise | Board.CodeRowsUnpack |
| modeling/catan/condition.py:15-80 | the memo is keyed by `identifier`, which joins child identifiers with `&` and `\|` without parentheses, so different trees share a key | `A \| (B & C)` then `(A \| B) & C` with A true and B, C false: both are "A\|B&C", and the keeper returns the first's true for the second, which evaluates to false | a key that tells different conditions apart (for instance the condition itself), under which the memo is transparent | high (proved in the model; not executed) | Conditions.IdentifierCollision | Conditions.KeyedMemoIsTransparent |

=== FILE: board.dfy ===
/**
 * catan/gamedata/board.py: the columnar board arrays built from a list of
 * tiles, the padding of the tiles' connection lists, and the observation
 * the board hands out. Every array has dtype uint8; the codes and indices
 * that go in are required to fit.
 */
module Board {
  import opened Wrappers
  import opened Tools
  import opened CatanObjects

  /** DEFAULT_SPACE, DEFAULT_ENV and ROBBER_START; the board code declares them without using them. */
  const DefaultSpace: Space := Null
  const DefaultEnv: Environment := Sea
  const RobberStart: Terrain := Desert

  /** What unpacking the transposed array of an empty tile list into four names raises. */
  const UnpackMessage := "not enough values to unpack (expected 4, got 0)"

  /**
   * One entry of the rows handed to `np.array(..., dtype=np.uint8)`: an
   * AutoNumber member, known by its class name and value, or a plain int.
   */
  datatype Cell = Member(className: string, code: nat) | Int(value: int)

  /** Every plain int among the entries fits in uint8. */
  predicate IntsFitU8(rows: seq<seq<Cell>>) {
    forall i, k :: 0 <= i < |rows| && 0 <= k < |rows[i]| && rows[i][k].Int? ==> 0 <= rows[i][k].value < 256
  }

  /**
   * Converting one row to uint8, entry by entry. AutoNumber is a plain Enum
   * with no integer conversion, so numpy raises TypeError at the first
   * member, naming its class.
   */
  function CastRow(row: seq<Cell>): (r: Result<seq<U8>>)
    requires forall k :: 0 <= k < |row| && row[k].Int? ==> 0 <= row[k].value < 256
    ensures r.Ok? <==> forall k :: 0 <= k < |row| ==> row[k].Int?
    ensures r.Ok? ==> |r.value| == |row| && forall k :: 0 <= k < |row| ==> r.value[k] as int == row[k].value
    ensures row != [] && row[0].Member? ==> r == Err(TypeError(row[0].className))
    ensures r.Err? ==> r.error.TypeError?
  {
    if row == [] then Ok([])
    else if row[0].Member? then Err(TypeError(row[0].className))
    else
      match CastRow(row[1..])
      case Err(e) => Err(e)
      case Ok(rest) => Ok([row[0].value as U8] + rest)
  }

  /** Converting the rows in order: the first entry that cannot be converted raises. */
  function CastRows(rows: seq<seq<Cell>>): (r: Result<seq<seq<U8>>>)
    requires IntsFitU8(rows)
    ensures r.Ok? <==> forall i, k :: 0 <= i < |rows| && 0 <= k < |rows[i]| ==> rows[i][k].Int?
    ensures r.Ok? ==> |r.value| == |rows| && forall i :: 0 <= i < |rows| ==>
      |r.value[i]| == |rows[i]| && forall k :: 0 <= k < |rows[i]| ==> r.value[i][k] as int == rows[i][k].value
    ensures rows != [] && rows[0] != [] && rows[0][0].Member? ==> r == Err(TypeError(rows[0][0].className))
    ensures r.Err? ==> r.error.TypeError?
  {
    if rows == [] then Ok([])
    else
      assert forall k :: 0 <= k < |rows[0]| && rows[0][k].Int? ==> 0 <= rows[0][k].value < 256;
      match CastRow(rows[0])
      case Err(e) => Err(e)
      case Ok(first) =>
        assert IntsFitU8(rows[1..]) by {
          forall i, k | 0 <= i < |rows[1..]| && 0 <= k < |rows[1..][i]| && rows[1..][i][k].Int?
            ensures 0 <= rows[1..][i][k].value < 256
          {
            assert rows[1..][i] == rows[i + 1];
          }
        }
        match CastRows(rows[1..])
        case Err(e) => Err(e)
        case Ok(rest) =>
          assert forall i :: 0 < i < |rows| ==> rows[1..][i - 1] == rows[i];
          Ok([first] + rest)
  }

  /**
   * `space, environment, objects, chit = np.array(rows, dtype=np.uint8).T`:
   * every entry converted, then the four columns unpacked. With no tiles
   * the array has nothing to unpack, which raises ValueError.
   */
  function UnpackColumns(rows: seq<seq<Cell>>): (r: Result<seq<seq<U8>>>)
    requires forall i :: 0 <= i < |rows| ==> |rows[i]| == 4
    requires IntsFitU8(rows)
    ensures rows == [] ==> r == Err(ValueError(UnpackMessage))
    ensures r.Ok? <==> rows != [] && forall i, k :: 0 <= i < |rows| && 0 <= k < 4 ==> rows[i][k].Int?
    ensures r.Ok? ==> |r.value| == 4 && forall c :: 0 <= c < 4 ==>
      |r.value[c]| == |rows| && forall i :: 0 <= i < |rows| ==> r.value[c][i] as int == rows[i][c].value
    ensures rows != [] && rows[0][0].Member? ==> r == Err(TypeError(rows[0][0].className))
  {
    match CastRows(rows)
    case Err(e) => Err(e)
    case Ok(a) =>
      if a == [] then Err(ValueError(UnpackMessage))
      else Ok(seq(4, c requires 0 <= c < 4 => seq(|a|, i requires 0 <= i < |a| => a[i][c])))
  }

  /** The class name board.py's object column holds: a subclass of CatanBoardObject. */
  function ObjectClass(o: BoardObject): string {
    match o
    case TerrainObject(_) => "Terrain"
    case ShipObject(_) => "TradeShip"
    case BuildingObject(_) => "Building"
  }

  /** `[tile.space, tile.env, tile.object, tile.chit_value]` as board.py writes it: three enum members and an int. */
  function MemberRows(tileData: seq<TileInfo>): (rows: seq<seq<Cell>>)
    ensures |rows| == |tileData|
    ensures forall i :: 0 <= i < |rows| ==> |rows[i]| == 4 && rows[i][0] == Member("Space", tileData[i].space.Code())
  {
    seq(|tileData|, i requires 0 <= i < |tileData| =>
      var t := tileData[i];
      [Member("Space", t.space.Code()), Member("Environment", t.env.Code()), Member(ObjectClass(t.obj), t.obj.Code()), Int(t.chitValue)])
  }

  /** The rows the arrays evidently want: the members' AutoNumber values and the chit. */
  function CodeRows(tileData: seq<TileInfo>): (rows: seq<seq<Cell>>)
    ensures |rows| == |tileData|
    ensures forall i :: 0 <= i < |rows| ==> |rows[i]| == 4 && forall k :: 0 <= k < 4 ==> rows[i][k].Int?
  {
    seq(|tileData|, i requires 0 <= i < |tileData| =>
      var t := tileData[i];
      [Int(t.space.Code()), Int(t.env.Code()), Int(t.obj.Code()), Int(t.chitValue)])
  }

  /**
   * As board.py is written, the array build never succeeds: an empty tile
   * list cannot be unpacked, and any other list holds a Space member that
   * numpy cannot convert to uint8.
   */
  lemma EnumRowsRaise(tileData: seq<TileInfo>)
    requires forall i :: 0 <= i < |tileData| ==> 0 <= tileData[i].chitValue < 256
    ensures IntsFitU8(MemberRows(tileData))
    ensures tileData == [] ==> UnpackColumns(MemberRows(tileData)) == Err(ValueError(UnpackMessage))
    ensures tileData != [] ==> UnpackColumns(MemberRows(tileData)) == Err(TypeError("Space"))
  {
    var rows := MemberRows(tileData);
    assert IntsFitU8(rows) by {
      forall i, k | 0 <= i < |rows| && 0 <= k < |rows[i]| && rows[i][k].Int?
        ensures 0 <= rows[i][k].value < 256
      {
        assert rows[i][3] == Int(tileData[i].chitValue);
        assert k == 0 || k == 1 || k == 2 || k == 3;
      }
    }
  }

  /** Built from the members' values, the array build fails exactly on an empty tile list. */
  lemma CodeRowsUnpackOk(tileData: seq<TileInfo>)
    requires forall i :: 0 <= i < |tileData| ==> 0 <= tileData[i].chitValue < 256
    ensures IntsFitU8(CodeRows(tileData))
    ensures UnpackColumns(CodeRows(tileData)).Ok? <==> tileData != []
  {
    var rows := CodeRows(tileData);
    assert IntsFitU8(rows) by {
      forall i, k | 0 <= i < |rows| && 0 <= k < |rows[i]| && rows[i][k].Int?
        ensures 0 <= rows[i][k].value < 256
      {
        assert rows[i][3] == Int(tileData[i].chitValue);
        assert k == 0 || k == 1 || k == 2 || k == 3;
      }
    }
  }

  /**
   * Built from the members' values, the array build succeeds on every
   * non-empty tile list, and column c of the result holds entry c of every
   * tile: the space, environment and object codes and the chit.
   */
  lemma CodeRowsUnpack(tileData: seq<TileInfo>)
    requires forall i :: 0 <= i < |tileData| ==> 0 <= tileData[i].chitValue < 256
    ensures IntsFitU8(CodeRows(tileData))
    ensures tileData != [] ==> UnpackColumns(CodeRows(tileData)).Ok?
    ensures tileData != [] ==> var cols := UnpackColumns(CodeRows(tileData)).value;
      |cols| == 4 && forall i :: 0 <= i < |tileData| ==>
        && cols[0][i] == tileData[i].space.Code() && cols[1][i] == tileData[i].env.Code()
        && cols[2][i] == tileData[i].obj.Code() && cols[3][i] == tileData[i].chitValue
  {
    var rows := CodeRows(tileData);
    assert forall i :: 0 <= i < |rows| ==> (rows[i] ==
      [Int(tileData[i].space.Code()), Int(tileData[i].env.Code()), Int(tileData[i].obj.Code()), Int(tileData[i].chitValue)]);
    assert IntsFitU8(rows) by {
      forall i, k | 0 <= i < |rows| && 0 <= k < |rows[i]| && rows[i][k].Int?
        ensures 0 <= rows[i][k].value < 256
      {
        assert k == 0 || k == 1 || k == 2 || k == 3;
      }
    }
    if tileData != [] {
      var cols := UnpackColumns(rows).value;
      forall i | 0 <= i < |tileData|
        ensures cols[0][i] == tileData[i].space.Code() && cols[1][i] == tileData[i].env.Code()
        ensures cols[2][i] == tileData[i].obj.Code() && cols[3][i] == tileData[i].chitValue
      {
        assert cols[0][i] as int == rows[i][0].value && cols[1][i] as int == rows[i][1].value;
        assert cols[2][i] as int == rows[i][2].value && cols[3][i] as int == rows[i][3].value;
      }
    }
  }

  /** -1 cast to uint8: the owner every tile starts with. */
  const NoOwner: U8 := 255

  /**
   * The TileInfo protocol. The connection list is a Row object: the board
   * pads the tile's own list, not a copy.
   */
  datatype TileInfo = TileInfo(space: Space, env: Environment, obj: BoardObject, chitValue: int, connections: Row)

  /** `[tile.connections for tile in tile_data]`: the tiles' own row objects. */
  function RowsOf(tileData: seq<TileInfo>): (rows: seq<Row>)
    ensures |rows| == |tileData|
    ensures forall i :: 0 <= i < |tileData| ==> rows[i] == tileData[i].connections
  {
    seq(|tileData|, i requires 0 <= i < |tileData| => tileData[i].connections)
  }

  /** Every value in every row fits in uint8. */
  ghost predicate RowsFitU8(ls: seq<seq<int>>) {
    forall j, k :: 0 <= j < |ls| && 0 <= k < |ls[j]| ==> 0 <= ls[j][k] < 256
  }

  /** `row.extend([row[-1]] * n_missing)` with n_missing = w - len(row); a negative count adds nothing. */
  method ExtendWithLast(row: Row, w: nat)
    requires |row.items| > 0
    modifies row
    ensures row.items == Padded(old(row.items), w)
  {
    var nMissing := w - |row.items|;
    var last := row.items[|row.items| - 1];
    row.items := row.items + seq(if nMissing > 0 then nMissing else 0, _ => last);
  }

  /**
   * fill_connections: pads each row, in place, with copies of its last
   * entry up to the widest row's width w, and returns the same outer list.
   * `row[-1]` is evaluated for every row, so the first empty row raises
   * IndexError even when nothing is missing from it; the rows before it
   * have already been padded. An empty outer list makes max() raise
   * ValueError.
   */
  method FillConnections(connectionList: seq<Row>) returns (r: Result<seq<Row>>)
    modifies set x | x in connectionList
    ensures connectionList == [] ==> r.Err? && r.error.ValueError?
    ensures connectionList != [] ==>
      var before := old(ItemsOf(connectionList));
      var stop := FirstEmpty(before);
      && (r.Ok? <==> stop == |connectionList|)
      && (r.Ok? ==> r.value == connectionList)
      && (r.Err? ==> r.error == IndexError)
      && PaddedThrough(connectionList, ItemsOf(connectionList), before, MaxLen(before), stop)
  {
    if connectionList == [] {
      return Err(ValueError("max() arg is an empty sequence"));
    }
    ghost var before := ItemsOf(connectionList);
    var w := MaxLen(ItemsOf(connectionList));
    PaddedThroughNone(connectionList, before, w);
    assert Coherent(connectionList, before);
    for y := 0 to |connectionList|
      invariant y <= FirstEmpty(before)
      invariant Coherent(connectionList, before)
      invariant PaddedThrough(connectionList, ItemsOf(connectionList), before, w, y)
    {
      if |connectionList[y].items| == 0 {
        assert before[y] == [];
        return Err(IndexError);
      }
      PadNext(connectionList, before, w, y);
    }
    assert FirstEmpty(before) == |connectionList|;
    return Ok(connectionList);
  }

  /** One step of fill_connections: pads row y, which is not empty, with copies of its last entry up to w. */
  method PadNext(connectionList: seq<Row>, ghost before: seq<seq<int>>, w: nat, y: nat)
    requires y < |connectionList| == |before|
    requires Coherent(connectionList, before)
    requires PaddedThrough(connectionList, ItemsOf(connectionList), before, w, y)
    requires |connectionList[y].items| > 0
    modifies connectionList[y]
    ensures PaddedThrough(connectionList, ItemsOf(connectionList), before, w, y + 1)
  {
    ghost var now := ItemsOf(connectionList);
    var row := connectionList[y];
    ExtendWithLast(row, w);
    ghost var next := ItemsOf(connectionList);
    assert forall j :: 0 <= j < |connectionList| ==>
      next[j] == if connectionList[j] == row then Padded(now[y], w) else now[j];
    PaddedThroughStep(connectionList, now, next, before, w, y);
  }

  /**
   * What __post_init__ promises about the arrays: column i of each array
   * comes from tile i, every owner is 255 (-1 cast to uint8), and the
   * robber and the last placement are the init arguments (0 by default).
   */
  ghost predicate BuiltFromTiles(b: BoardData, tileData: seq<TileInfo>, robber: int, lastPlacement: int)
    reads b
  {
    && b.Valid() && b.nTiles == |tileData|
    && b.robber == robber && b.lastPlacement == lastPlacement
    && forall i :: 0 <= i < |tileData| ==>
      && b.space[i] == tileData[i].space.Code()
      && b.environment[i] == tileData[i].env.Code()
      && b.objects[i] == tileData[i].obj.Code()
      && b.chit[i] == tileData[i].chitValue
      && b.owner[i] == NoOwner
  }

  /** No tile's connection list is empty. */
  ghost predicate NoEmptyRow(ls: seq<seq<int>>) {
    forall i :: 0 <= i < |ls| ==> ls[i] != []
  }

  /** Every row is w wide, starts with its original entries, and repeats its last original entry after them. */
  ghost predicate PaddedToWidth(now: seq<seq<int>>, before: seq<seq<int>>, w: nat) {
    && |now| == |before|
    && (forall j :: 0 <= j < |now| ==> |before[j]| <= |now[j]| == w && now[j][..|before[j]|] == before[j])
    && (forall j, k :: 0 <= j < |now| && 0 < |before[j]| <= k < |now[j]| ==> now[j][k] == before[j][|before[j]| - 1])
  }

  /**
   * The arrays of a board. `owner`, `robber` and `lastPlacement` are plain
   * fields that other code may assign; nothing here changes them after
   * construction.
   */
  class BoardData {
    var nTiles: nat
    var space: seq<U8>
    var environment: seq<U8>
    var objects: seq<U8>
    var owner: seq<U8>
    var chit: seq<U8>
    var connections: seq<seq<U8>>
    var robber: int
    var lastPlacement: int

    /** One entry per tile in every per-tile array, and one row per tile. */
    ghost predicate Valid()
      reads this
    {
      && |space| == nTiles && |environment| == nTiles && |objects| == nTiles
      && |owner| == nTiles && |chit| == nTiles && |connections| == nTiles
    }

    /**
     * The array build of __post_init__, given the padded connection rows:
     * column i of each array holds tile i's values (the members' codes, as
     * CodeRowsUnpack lays them out), every owner is 255, and the robber and
     * the last placement are the init arguments as given.
     */
    constructor (tileData: seq<TileInfo>, padded: seq<seq<int>>, robber: int, lastPlacement: int)
      requires forall i :: 0 <= i < |tileData| ==> 0 <= tileData[i].chitValue < 256
      requires |padded| == |tileData| && RowsFitU8(padded)
      ensures BuiltFromTiles(this, tileData, robber, lastPlacement)
      ensures connections == padded
    {
      nTiles := |tileData|;
      space := seq(|tileData|, i requires 0 <= i < |tileData| => tileData[i].space.Code());
      environment := seq(|tileData|, i requires 0 <= i < |tileData| => tileData[i].env.Code());
      objects := seq(|tileData|, i requires 0 <= i < |tileData| => tileData[i].obj.Code());
      chit := seq(|tileData|, i requires 0 <= i < |tileData| => tileData[i].chitValue);
      owner := seq(|tileData|, _ => NoOwner);
      connections := padded;
      this.robber := robber;
      this.lastPlacement := lastPlacement;
    }

    /**
     * package_observation: exactly five arrays. Space and environment are
     * left out, robber and last placement are one-element arrays, and the
     * current player is not used.
     */
    function PackageObservation(curPlayer: int): (obs: map<string, seq<U8>>)
      reads this
      requires 0 <= robber < 256 && 0 <= lastPlacement < 256
      ensures obs.Keys == {"board_objects", "board_owners", "board_chits", "board_robber", "board_last"}
      ensures "board_spaces" !in obs && "board_environments" !in obs
      ensures obs["board_objects"] == objects && obs["board_owners"] == owner && obs["board_chits"] == chit
      ensures obs["board_robber"] == [robber] && obs["board_last"] == [lastPlacement]
    {
      map["board_objects" := objects, "board_owners" := owner, "board_chits" := chit,
          "board_robber" := [robber as U8], "board_last" := [lastPlacement as U8]]
    }
  }

  /** Rows padded to the widest width w are w wide and, since padding only copies entries, still fit in uint8. */
  lemma PaddedRowsFit(rows: seq<Row>, now: seq<seq<int>>, before: seq<seq<int>>, w: nat)
    requires |now| == |rows| && |before| == |rows|
    requires PaddedThrough(rows, now, before, w, |rows|)
    requires forall j :: 0 <= j < |rows| ==> |before[j]| <= w
    requires RowsFitU8(before)
    ensures PaddedToWidth(now, before, w)
    ensures RowsFitU8(now)
  {
    PaddedAllRows(rows, now, before, w);
    assert rows[..|rows|] == rows;
    forall j, k | 0 <= j < |now| && 0 <= k < |now[j]|
      ensures 0 <= now[j][k] < 256
    {
      assert rows[j] in rows[..|rows|];
      PaddedValuesComeFromRow(before[j], w, k);
    }
  }

  /**
   * BoardData(tile_data, robber, last_placement) with the members' values
   * in the arrays: the four columns are unpacked first, which fails on an
   * empty tile list; then the tiles' own connection lists are padded in
   * place, which fails on a tile without connections. On success every
   * connection row has the width of the longest list and starts with the
   * tile's original connections.
   */
  method NewBoardData(tileData: seq<TileInfo>, robber: int, lastPlacement: int) returns (r: Result<BoardData>)
    requires forall i :: 0 <= i < |tileData| ==> 0 <= tileData[i].chitValue < 256
    requires RowsFitU8(ItemsOf(RowsOf(tileData)))
    modifies set x | x in RowsOf(tileData)
    ensures tileData == [] ==> r == Err(ValueError(UnpackMessage))
    ensures tileData != [] ==> (r.Ok? <==> NoEmptyRow(old(ItemsOf(RowsOf(tileData)))))
    ensures tileData != [] && r.Err? ==> r.error == IndexError
    ensures r.Ok? ==>
      && fresh(r.value) && BuiltFromTiles(r.value, tileData, robber, lastPlacement)
      && r.value.connections == ItemsOf(RowsOf(tileData))
      && PaddedToWidth(r.value.connections, old(ItemsOf(RowsOf(tileData))), MaxLen(old(ItemsOf(RowsOf(tileData)))))
  {
    // The unpack runs before fill_connections. Only its failure matters
    // here: on success its columns hold the codes the constructor lays out
    // again from tileData (CodeRowsUnpack).
    CodeRowsUnpackOk(tileData);
    var columns := UnpackColumns(CodeRows(tileData));
    if columns.Err? {
      return Err(columns.error);
    }
    r := FillAndBuild(tileData, robber, lastPlacement);
  }

  /**
   * The rest of __post_init__ once the columns are unpacked: fill_connections
   * on the tiles' own connection lists, then the arrays.
   */
  method FillAndBuild(tileData: seq<TileInfo>, robber: int, lastPlacement: int) returns (r: Result<BoardData>)
    requires tileData != []
    requires forall i :: 0 <= i < |tileData| ==> 0 <= tileData[i].chitValue < 256
    requires RowsFitU8(ItemsOf(RowsOf(tileData)))
    modifies set x | x in RowsOf(tileData)
    ensures r.Ok? <==> NoEmptyRow(old(ItemsOf(RowsOf(tileData))))
    ensures r.Err? ==> r.error == IndexError
    ensures r.Ok? ==>
      && fresh(r.value) && BuiltFromTiles(r.value, tileData, robber, lastPlacement)
      && r.value.connections == ItemsOf(RowsOf(tileData))
      && PaddedToWidth(r.value.connections, old(ItemsOf(RowsOf(tileData))), MaxLen(old(ItemsOf(RowsOf(tileData)))))
  {
    var rows := RowsOf(tileData);
    ghost var before := ItemsOf(rows);
    var filled := FillConnections(rows);
    if filled.Err? {
      assert before[FirstEmpty(before)] == [];
      return Err(filled.error);
    }
    var w := MaxLen(before);
    var after := ItemsOf(rows);
    PaddedRowsFit(rows, after, before, w);
    var board := new BoardData(tileData, after, robber, lastPlacement);
    return Ok(board);
  }
}

=== FILE: board_layout.dfy ===
/**
 * What the placement loops of modeling/hex_board/board_maker.py build on an
 * actual board, as written: every row starts at the same x (hex_y only ever
 * advances by a multiple of 6 units, so `hex_y % 2` is the same on every
 * row), which makes the hex at (row, col) the lattice hex centred at
 * (6 row, 4 col).
 */
module BoardLayout {
  import opened Tiles
  import opened Calculations
  import opened HexGeometry
  import opened HexTables

  /** Hex k of the board, in lattice terms. */
  lemma BoardHexInUnits(g: Layout, k: nat) returns (row: nat, col: nat)
    requires g.hexSize % 8 == 0 && k < |BoardPlacements(g)|
    ensures row < Count(g.nRows) && col < Count(g.nCols)
    ensures k == row * Count(g.nCols) + col
    ensures BoardPlacements(g)[k] == UnitHex(g, 6 * row, 4 * col)
  {
    row, col := PlacementIndex(g, Count(g.nRows), k);
    PlacementInUnits(g, row, col);
  }

  /* Which lattice points the builder uses for centres, corners and edge midpoints. */

  predicate CentreUnits(a: int, b: int) {
    a % 6 == 0 && b % 4 == 0
  }

  predicate CornerUnits(a: int, b: int) {
    a % 6 == 2 || a % 6 == 4
  }

  predicate EdgeUnits(a: int, b: int) {
    a % 6 == 3 || (a % 6 == 0 && b % 4 == 2)
  }

  lemma UnitHexKinds(g: Layout, row: nat, col: nat, i: nat)
    requires i < 6
    ensures CentreUnits(6 * row, 4 * col)
    ensures CornerUnits(6 * row + CornerA[i], 4 * col + CornerB[i])
    ensures EdgeUnits(6 * row + EdgeA[i], 4 * col + EdgeB[i])
  {
  }

  ghost predicate IsCentre(g: Layout, x: Loc) {
    exists a, b :: CentreUnits(a, b) && x == Pt(g, a, b)
  }

  ghost predicate IsCorner(g: Layout, x: Loc) {
    exists a, b :: CornerUnits(a, b) && x == Pt(g, a, b)
  }

  ghost predicate IsEdge(g: Layout, x: Loc) {
    exists a, b :: EdgeUnits(a, b) && x == Pt(g, a, b)
  }

  /** Once the hex size is not 0, no pixel is of two kinds. */
  lemma KindsExclusive(g: Layout, x: Loc)
    requires Unit(g) != 0
    ensures !(IsCentre(g, x) && IsCorner(g, x))
    ensures !(IsCentre(g, x) && IsEdge(g, x))
    ensures !(IsCorner(g, x) && IsEdge(g, x))
  {
    if IsCentre(g, x) && IsCorner(g, x) {
      var a, b :| CentreUnits(a, b) && x == Pt(g, a, b);
      var a', b' :| CornerUnits(a', b') && x == Pt(g, a', b');
      PtInjective(g, a, b, a', b');
    }
    if IsCentre(g, x) && IsEdge(g, x) {
      var a, b :| CentreUnits(a, b) && x == Pt(g, a, b);
      var a', b' :| EdgeUnits(a', b') && x == Pt(g, a', b');
      PtInjective(g, a, b, a', b');
    }
    if IsCorner(g, x) && IsEdge(g, x) {
      var a, b :| CornerUnits(a, b) && x == Pt(g, a, b);
      var a', b' :| EdgeUnits(a', b') && x == Pt(g, a', b');
      PtInjective(g, a, b, a', b');
    }
  }

  /** Every key of the board's tables is a point of its own kind. */
  lemma BoardKeyKinds(g: Layout)
    requires g.hexSize % 8 == 0
    ensures forall x :: x in TablesOf(BoardPlacements(g)).hexes ==> IsCentre(g, x)
    ensures forall x :: x in TablesOf(BoardPlacements(g)).isecs ==> IsCorner(g, x)
    ensures forall x :: x in TablesOf(BoardPlacements(g)).paths ==> IsEdge(g, x)
  {
    HexKeyKinds(g);
    IsecKeyKinds(g);
    PathKeyKinds(g);
  }

  lemma HexKeyKinds(g: Layout)
    requires g.hexSize % 8 == 0
    ensures forall x :: x in TablesOf(BoardPlacements(g)).hexes ==> IsCentre(g, x)
  {
    var ps := BoardPlacements(g);
    HexKeysMeaning(ps);
    forall x | x in TablesOf(ps).hexes
      ensures IsCentre(g, x)
    {
      var k :| 0 <= k < |ps| && ps[k].centre == x;
      var row, col := BoardHexInUnits(g, k);
      UnitHexKinds(g, row, col, 0);
    }
  }

  lemma IsecKeyKinds(g: Layout)
    requires g.hexSize % 8 == 0
    ensures forall x :: x in TablesOf(BoardPlacements(g)).isecs ==> IsCorner(g, x)
  {
    var ps := BoardPlacements(g);
    IsecKeysMeaning(ps);
    forall x | x in TablesOf(ps).isecs
      ensures IsCorner(g, x)
    {
      var k, i :| 0 <= k < |ps| && 0 <= i < 6 && ps[k].isecs[i] == x;
      IsecOfPlacementIsCorner(g, k, i);
    }
  }

  /** Corner i of board hex k is a corner point. */
  lemma IsecOfPlacementIsCorner(g: Layout, k: nat, i: nat)
    requires g.hexSize % 8 == 0 && k < |BoardPlacements(g)| && i < 6
    ensures IsCorner(g, BoardPlacements(g)[k].isecs[i])
  {
    var row, col := BoardHexInUnits(g, k);
    UnitHexKinds(g, row, col, i);
    var a, b := 6 * row + CornerA[i], 4 * col + CornerB[i];
    assert CornerUnits(a, b) && BoardPlacements(g)[k].isecs[i] == Pt(g, a, b);
  }

  lemma PathKeyKinds(g: Layout)
    requires g.hexSize % 8 == 0
    ensures forall x :: x in TablesOf(BoardPlacements(g)).paths ==> IsEdge(g, x)
  {
    var ps := BoardPlacements(g);
    PathKeysMeaning(ps);
    forall x | x in TablesOf(ps).paths
      ensures IsEdge(g, x)
    {
      var k, i :| 0 <= k < |ps| && 0 <= i < 6 && ps[k].paths[i] == x;
      PathOfPlacementIsEdge(g, k, i);
    }
  }

  /** Edge midpoint i of board hex k is an edge point. */
  lemma PathOfPlacementIsEdge(g: Layout, k: nat, i: nat)
    requires g.hexSize % 8 == 0 && k < |BoardPlacements(g)| && i < 6
    ensures IsEdge(g, BoardPlacements(g)[k].paths[i])
  {
    var row, col := BoardHexInUnits(g, k);
    UnitHexKinds(g, row, col, i);
    var a, b := 6 * row + EdgeA[i], 4 * col + EdgeB[i];
    assert EdgeUnits(a, b) && BoardPlacements(g)[k].paths[i] == Pt(g, a, b);
  }

  /** No pixel is a key of two tables. */
  ghost predicate DisjointKeys(t: Tables) {
    forall x :: !(x in t.hexes && x in t.isecs) && !(x in t.hexes && x in t.paths) && !(x in t.isecs && x in t.paths)
  }

  /** The three tables have pairwise disjoint keys once the hex size is not 0. */
  lemma KeysDisjoint(g: Layout)
    requires g.hexSize % 8 == 0 && g.hexSize != 0
    ensures DisjointKeys(TablesOf(BoardPlacements(g)))
  {
    BoardKeyKinds(g);
    forall x {
      KindsExclusive(g, x);
    }
  }

  lemma PtApart(g: Layout, a: int, b: int, a': int, b': int)
    requires Unit(g) != 0 && (a != a' || b != b')
    ensures Pt(g, a, b) != Pt(g, a', b')
  {
    if Pt(g, a, b) == Pt(g, a', b') {
      PtInjective(g, a, b, a', b');
    }
  }

  lemma UnitHexCornersApart(g: Layout, a: int, b: int)
    requires Unit(g) != 0
    ensures CornersApart(UnitHex(g, a, b))
  {
    PtApart(g, a - 4, b, a - 2, b - 2);
    PtApart(g, a - 2, b + 2, a - 4, b);
    PtApart(g, a + 2, b + 2, a - 2, b + 2);
    PtApart(g, a + 4, b, a + 2, b + 2);
    PtApart(g, a + 2, b - 2, a + 4, b);
    PtApart(g, a - 2, b - 2, a + 2, b - 2);
  }

  /**
   * Every path that is not also a hex or an intersection has exactly two
   * ends, so the indexing loop can unpack them for get_path_type.
   */
  lemma BoardPathsTwoEnds(g: Layout)
    requires g.hexSize % 8 == 0
    ensures forall m :: m in TablesOf(BoardPlacements(g)).paths && m !in TablesOf(BoardPlacements(g)).hexes ==>
      |TablesOf(BoardPlacements(g)).paths[m]| == 2
  {
    if Unit(g) != 0 {
      SizedBoardPathsTwoEnds(g);
    } else {
      ZeroSizePathsAreHexes(g);
    }
  }

  lemma SizedBoardPathsTwoEnds(g: Layout)
    requires g.hexSize % 8 == 0 && Unit(g) != 0
    ensures forall m :: m in TablesOf(BoardPlacements(g)).paths ==> |TablesOf(BoardPlacements(g)).paths[m]| == 2
  {
    var ps := BoardPlacements(g);
    forall k | 0 <= k < |ps|
      ensures CornersApart(ps[k])
    {
      var row, col := BoardHexInUnits(g, k);
      UnitHexCornersApart(g, 6 * row, 4 * col);
    }
    PathsHaveTwoEnds(ps);
  }

  /** With hex size 0 every point of a hex is its centre, so every path key is also a hex key. */
  lemma ZeroSizePathsAreHexes(g: Layout)
    requires g.hexSize % 8 == 0 && Unit(g) == 0
    ensures forall m :: m in TablesOf(BoardPlacements(g)).paths ==> m in TablesOf(BoardPlacements(g)).hexes
  {
    var ps := BoardPlacements(g);
    HexKeysMeaning(ps);
    PathKeysMeaning(ps);
    forall m | m in TablesOf(ps).paths
      ensures m in TablesOf(ps).hexes
    {
      var k, i :| 0 <= k < |ps| && 0 <= i < 6 && ps[k].paths[i] == m;
      var row, col := BoardHexInUnits(g, k);
      assert m == ps[k].centre;
    }
  }

  /*
   * Hexes and their corners.
   */

  /** Two hexes of the board never share a centre. */
  lemma BoardCentresDistinct(g: Layout, k: nat, k': nat)
    requires g.hexSize % 8 == 0 && g.hexSize != 0
    requires k < |BoardPlacements(g)| && k' < |BoardPlacements(g)|
    requires BoardPlacements(g)[k].centre == BoardPlacements(g)[k'].centre
    ensures k == k'
  {
    var row, col := BoardHexInUnits(g, k);
    var row', col' := BoardHexInUnits(g, k');
    PtInjective(g, 6 * row, 4 * col, 6 * row', 4 * col');
  }

  /** The six corners of a lattice hex are six different pixels. */
  lemma UnitHexCornersDistinct(g: Layout, a: int, b: int)
    requires Unit(g) != 0
    ensures forall i, j :: 0 <= i < j < 6 ==> UnitHex(g, a, b).isecs[i] != UnitHex(g, a, b).isecs[j]
  {
    var p := UnitHex(g, a, b);
    forall i, j | 0 <= i < j < 6
      ensures p.isecs[i] != p.isecs[j]
    {
      PtApart(g, a + CornerA[i], b + CornerB[i], a + CornerA[j], b + CornerB[j]);
    }
  }

  /** Six pairwise different corners make a set of six. */
  lemma SixCorners(c: seq<Loc>)
    requires |c| == 6
    requires forall i, j :: 0 <= i < j < 6 ==> c[i] != c[j]
    ensures |set i | 0 <= i < 6 :: c[i]| == 6
  {
    var s := set i | 0 <= i < 6 :: c[i];
    assert s == {c[0]} + {c[1]} + {c[2]} + {c[3]} + {c[4]} + {c[5]};
    assert c[0] != c[1] && c[0] != c[2] && c[1] != c[2];
    assert |{c[0]} + {c[1]}| == 2;
    assert |{c[0]} + {c[1]} + {c[2]}| == 3;
    assert |{c[0]} + {c[1]} + {c[2]} + {c[3]}| == 4;
    assert |{c[0]} + {c[1]} + {c[2]} + {c[3]} + {c[4]}| == 5;
  }

  /** The hex table entry of hex k holds the corners of hex k and nothing else. */
  lemma HexEntryIsCorners(g: Layout, k: nat)
    requires g.hexSize % 8 == 0 && g.hexSize != 0 && k < |BoardPlacements(g)|
    ensures var p := BoardPlacements(g)[k];
      Lookup(TablesOf(BoardPlacements(g)).hexes, p.centre) == set i | 0 <= i < 6 :: p.isecs[i]
  {
    var ps := BoardPlacements(g);
    var p := ps[k];
    var corners := set i | 0 <= i < 6 :: p.isecs[i];
    forall v
      ensures v in Lookup(TablesOf(ps).hexes, p.centre) <==> v in corners
    {
      HexEntry(ps, p.centre, v);
      if HexHas(ps, p.centre, v) {
        var k', i :| 0 <= k' < |ps| && 0 <= i < 6 && ps[k'].centre == p.centre && ps[k'].isecs[i] == v;
        BoardCentresDistinct(g, k, k');
      }
      if v in corners {
        var i :| 0 <= i < 6 && p.isecs[i] == v;
        assert HexHas(ps, p.centre, v);
      }
    }
  }

  /** Every hex of the board lists exactly its six corners, six different intersections. */
  lemma HexListsSixCorners(g: Layout, k: nat)
    requires g.hexSize % 8 == 0 && g.hexSize != 0 && k < |BoardPlacements(g)|
    ensures var p := BoardPlacements(g)[k];
      Lookup(TablesOf(BoardPlacements(g)).hexes, p.centre) == set i | 0 <= i < 6 :: p.isecs[i]
    ensures var p := BoardPlacements(g)[k];
      forall i, j :: 0 <= i < j < 6 ==> p.isecs[i] != p.isecs[j]
    ensures |Lookup(TablesOf(BoardPlacements(g)).hexes, BoardPlacements(g)[k].centre)| == 6
  {
    HexEntryIsCorners(g, k);
    var row, col := BoardHexInUnits(g, k);
    UnitHexCornersDistinct(g, 6 * row, 4 * col);
    SixCorners(BoardPlacements(g)[k].isecs);
  }

  /** A hex lists an intersection exactly when the intersection lists the hex. */
  ghost predicate HexIsecSymmetry(t: Tables) {
    forall h, v :: h in t.hexes ==> (v in Lookup(t.hexes, h) <==> h in Lookup(t.isecs, v))
  }

  /**
   * Hex-intersection adjacency is symmetric: a hex lists an intersection
   * exactly when the intersection lists the hex.
   */
  lemma HexIsecSymmetric(g: Layout)
    requires g.hexSize % 8 == 0 && g.hexSize != 0
    ensures HexIsecSymmetry(TablesOf(BoardPlacements(g)))
  {
    HexCornersListHex(BoardPlacements(g));
    IsecHexesListIsec(BoardPlacements(g));
    KeysDisjoint(g);
  }

  /*
   * Paths.
   */

  lemma PtRowsApart(g: Layout, a: int, b: int, a': int, b': int)
    requires Unit(g) != 0 && a != a'
    ensures Pt(g, a, b).y != Pt(g, a', b').y
  {
    if Pt(g, a, b).y == Pt(g, a', b').y {
      MulCancel(a, a', Unit(g));
    }
  }

  /** The two ends of an edge of a lattice hex lie on different pixel rows. */
  lemma UnitEndsApartInY(g: Layout, a: int, b: int, i: nat)
    requires Unit(g) != 0 && i < 6
    ensures var p := UnitHex(g, a, b);
      p.isecs[i].y != p.isecs[(i + 5) % 6].y
  {
    var j := (i + 5) % 6;
    assert CornerA[i] != CornerA[j] by {
      if i == 0 {} else if i == 1 {} else if i == 2 {} else if i == 3 {} else if i == 4 {} else {}
    }
    PtRowsApart(g, a + CornerA[i], b + CornerB[i], a + CornerA[j], b + CornerB[j]);
  }

  /**
   * No path of the board is horizontal, so get_path_type gives the same
   * answer whichever of the two ends comes first.
   */
  lemma BoardPathTypeOrderFree(g: Layout, m: Loc)
    requires g.hexSize % 8 == 0 && g.hexSize != 0
    requires m in TablesOf(BoardPlacements(g)).paths
    ensures |TablesOf(BoardPlacements(g)).paths[m]| == 2
    ensures forall a, b :: TablesOf(BoardPlacements(g)).paths[m] == {a, b} ==> a.y != b.y
    ensures forall a, b :: TablesOf(BoardPlacements(g)).paths[m] == {a, b} ==>
      GetPathType(a, b) == GetPathType(b, a)
  {
    var ps := BoardPlacements(g);
    var k, i := PathEndsWritten(ps, m);
    var row, col := BoardHexInUnits(g, k);
    UnitEndsApartInY(g, 6 * row, 4 * col, i);
    UnitHexCornersApart(g, 6 * row, 4 * col);
    EndsApart(ps[k], i);
    forall a, b | TablesOf(ps).paths[m] == {a, b}
      ensures a.y != b.y && GetPathType(a, b) == GetPathType(b, a)
    {
      assert a in Ends(ps[k], i) && b in Ends(ps[k], i);
      assert a != b;
      GetPathTypeSymmetric(a, b);
    }
  }

  /**
   * For a positive hex size, sorting a hex's corners by (y, x) gives top,
   * upper left, upper right, lower left, lower right, bottom: corners 0, 5,
   * 1, 4, 2, 3 in the builder's clockwise numbering.
   */
  lemma SortedCornerOrder(g: Layout, a: int, b: int)
    requires Unit(g) > 0
    ensures var c := UnitHex(g, a, b).isecs;
      LocLt(c[0], c[5]) && LocLt(c[5], c[1]) && LocLt(c[1], c[4]) && LocLt(c[4], c[2]) && LocLt(c[2], c[3])
  {
    var u := Unit(g);
    MulDistributes(a, -4, u);
    MulDistributes(a, -2, u);
    MulDistributes(a, 2, u);
    MulDistributes(a, 4, u);
    MulDistributes(b, -2, 2 * u);
    MulDistributes(b, 2, 2 * u);
  }
}

=== FILE: board_maker.dfy ===
/**
 * HexBoard (modeling/hex_board/board_maker.py): checks its margin and
 * resolution, sizes and centres the grid, builds the adjacency tables and
 * numbers the tiles: sorted hexes, then sorted intersections, then sorted
 * paths.
 */
module BoardMaker {
  import opened Wrappers
  import opened Tiles
  import opened Calculations
  import opened HexGeometry
  import opened HexTables
  import opened BoardLayout

  const MarginMessage: string := "HexBoard attribute \"margin\" must be integer between 0 and 50."
  const ResolutionMessage: string := "HexBoard attribute \"resolution\" values must be >0 and multiple of 8."

  /** v is 8k for some k other than 0 (a negative multiple of 8 qualifies). */
  ghost predicate NonZeroMultipleOf8(v: int) {
    exists k :: k != 0 && v == 8 * k
  }

  /** validate_margin: the margin is a percentage between 0 and 50. */
  function ValidateMargin(margin: int): (r: Outcome)
    ensures r.Pass? <==> 0 <= margin <= 50
    ensures r.Fail? ==> r.error == ValueError(MarginMessage)
  {
    if !(0 <= margin <= 50) then Fail(ValueError(MarginMessage)) else Pass
  }

  /** validate_resolution: both components are rejected when 0 or not a multiple of 8. */
  function ValidateResolution(resolution: (int, int)): (r: Outcome)
    ensures r.Pass? <==> NonZeroMultipleOf8(resolution.0) && NonZeroMultipleOf8(resolution.1)
    ensures r.Fail? ==> r.error == ValueError(ResolutionMessage)
  {
    if resolution.0 == 0 || resolution.0 % 8 != 0 then Fail(ValueError(ResolutionMessage))
    else if resolution.1 == 0 || resolution.1 % 8 != 0 then Fail(ValueError(ResolutionMessage))
    else
      assert resolution.0 == 8 * (resolution.0 / 8) && resolution.1 == 8 * (resolution.1 / 8);
      Pass
  }

  /** The two checks at the start of __post_init__, margin first. */
  function Validate(resolution: (int, int), margin: int): (r: Outcome)
    ensures r.Pass? <==> 0 <= margin <= 50 && NonZeroMultipleOf8(resolution.0) && NonZeroMultipleOf8(resolution.1)
    ensures r.Fail? ==> r.error == ValueError(if 0 <= margin <= 50 then ResolutionMessage else MarginMessage)
  {
    var m := ValidateMargin(margin);
    if m.Fail? then m else ValidateResolution(resolution)
  }

  lemma NegativeResolutionPasses()
    ensures Validate((-16, 8), 0).Pass?
    ensures Validate((8, 12), 0) == Fail(ValueError(ResolutionMessage))
    ensures Validate((0, 8), 60) == Fail(ValueError(MarginMessage))
  {
    assert -16 == 8 * -2 && 8 == 8 * 1;
  }

  /** The smaller of the height- and width-derived hex sizes. */
  function HexSize(resolution: (int, int), nHexesY: int, nHexesX: int): (h: int)
    ensures h % 8 == 0
    ensures h <= CalcHexHeight(resolution.1, nHexesY) && h <= CalcHexWidth(resolution.0, nHexesX)
    ensures h == CalcHexHeight(resolution.1, nHexesY) || h == CalcHexWidth(resolution.0, nHexesX)
  {
    var fromHeight := CalcHexHeight(resolution.1, nHexesY);
    var fromWidth := CalcHexWidth(resolution.0, nHexesX);
    if fromHeight <= fromWidth then fromHeight else fromWidth
  }

  /** The sizes the placement loops start from. */
  function LayoutOf(resolution: (int, int), nHexesY: int, nHexesX: int): (g: Layout)
    ensures g.hexSize % 8 == 0
    ensures nHexesY >= 0 && nHexesX >= 0 && resolution.0 >= 0 && resolution.1 >= 0 ==>
      g.topBuffer >= 0 && g.leftBuffer >= 0
  {
    var h := HexSize(resolution, nHexesY, nHexesX);
    BufferHeightNonNegative(resolution.1, h, nHexesY);
    BufferWidthNonNegative(resolution.0, h, nHexesX);
    Layout(h, CalcBufferHeight(resolution.1, h, nHexesY), CalcBufferWidth(resolution.0, h, nHexesX), nHexesY, nHexesX)
  }

  /** The three tables after the placement loops for this board. */
  function BoardTables(resolution: (int, int), nHexesY: int, nHexesX: int): Tables {
    TablesOf(BoardPlacements(LayoutOf(resolution, nHexesY, nHexesX)))
  }

  /*
   * Tile numbering.
   */

  /** m is the (y, x)-least member of s. */
  predicate IsMinimal(m: Loc, s: set<Loc>) {
    m in s && forall z :: z in s ==> m == z || LocLt(m, z)
  }

  lemma MinimumExists(s: set<Loc>)
    requires s != {}
    ensures exists m :: IsMinimal(m, s)
    decreases |s|
  {
    var x :| x in s;
    if s != {x} {
      MinimumExists(s - {x});
      var rest :| IsMinimal(rest, s - {x});
      MinimumWithOneMore(x, rest, s);
    } else {
      assert IsMinimal(x, s);
    }
  }

  /** The lesser of x and the least of the rest is the least of the whole set. */
  lemma MinimumWithOneMore(x: Loc, rest: Loc, s: set<Loc>)
    requires x in s && IsMinimal(rest, s - {x})
    ensures IsMinimal(if LocLt(x, rest) then x else rest, s)
  {
    var m := if LocLt(x, rest) then x else rest;
    forall z | z in s
      ensures m == z || LocLt(m, z)
    {
      if z != x {
        assert z in s - {x};
      }
    }
  }

  /** `sorted` on a set of (y, x) tuples. */
  function SortedLocs(s: set<Loc>): (r: seq<Loc>)
    ensures |r| == |s|
    ensures forall l :: l in r <==> l in s
    decreases |s|
  {
    if s == {} then []
    else
      MinimumExists(s);
      var m :| IsMinimal(m, s);
      [m] + SortedLocs(s - {m})
  }

  /** SortedLocs lists the set in strictly ascending (y, x) order. */
  lemma {:induction false} SortedLocsAscending(s: set<Loc>)
    ensures forall j, k :: 0 <= j < k < |SortedLocs(s)| ==> LocLt(SortedLocs(s)[j], SortedLocs(s)[k])
    decreases |s|
  {
    if s != {} {
      var r := SortedLocs(s);
      var m := r[0];
      var rest := SortedLocs(s - {m});
      assert r == [m] + rest;
      SortedLocsAscending(s - {m});
      assert IsMinimal(m, s);
      forall k | 0 <= k < |rest|
        ensures LocLt(m, rest[k])
      {
        assert rest[k] in s - {m};
      }
      LocsAscendingCons(m, rest);
    }
  }

  /** A location before every member of an ascending sequence can go in front of it. */
  lemma LocsAscendingCons(m: Loc, rest: seq<Loc>)
    requires forall j, k :: 0 <= j < k < |rest| ==> LocLt(rest[j], rest[k])
    requires forall k :: 0 <= k < |rest| ==> LocLt(m, rest[k])
    ensures forall j, k :: 0 <= j < k < |[m] + rest| ==> LocLt(([m] + rest)[j], ([m] + rest)[k])
  {
    var r := [m] + rest;
    forall j, k | 0 <= j < k < |r|
      ensures LocLt(r[j], r[k])
    {
      assert r[k] == rest[k - 1];
      if 0 < j {
        assert r[j] == rest[j - 1];
      }
    }
  }

  /** tile_index: the sorted hex keys, then the sorted intersection keys, then the sorted path keys. */
  function TileOrder(t: Tables): seq<Loc> {
    SortedLocs(t.hexes.Keys) + SortedLocs(t.isecs.Keys) + SortedLocs(t.paths.Keys)
  }

  /** `list.index`: the position of the first occurrence. */
  function IndexOf(order: seq<Loc>, l: Loc): (i: nat)
    requires l in order
    ensures i < |order| && order[i] == l
    ensures l !in order[..i]
  {
    if order[0] == l then 0 else 1 + IndexOf(order[1..], l)
  }

  /** tile_connections[loc] for {**hexes, **isecs, **paths}: a later table wins. */
  function Merged(t: Tables, loc: Loc): set<Loc> {
    if loc in t.paths then t.paths[loc]
    else if loc in t.isecs then t.isecs[loc]
    else Lookup(t.hexes, loc)
  }

  /** get_path_type(*ends) needs exactly two ends for every path that is not also a hex or an intersection. */
  ghost predicate PathsTyped(t: Tables) {
    forall m :: m in t.paths && m !in t.hexes && m !in t.isecs ==> |t.paths[m]| == 2
  }

  /** Tile i as the indexing loop builds it. */
  ghost predicate IndexedTile(t: Tables, i: nat, tile: TileInfo)
    requires Closed(t) && i < |TileOrder(t)|
  {
    var order := TileOrder(t);
    var loc := order[i];
    && tile.index == i
    && tile.loc == loc
    && (forall c :: c in Merged(t, loc) ==> c in order)
    && tile.connections == IndicesOf(order, Merged(t, loc))
    && (loc in t.hexes ==> tile.tileType == Hex)
    && (loc !in t.hexes && loc in t.isecs ==> tile.tileType == Intersection)
    && (loc !in t.hexes && loc !in t.isecs ==>
          exists a, b :: t.paths[loc] == {a, b} && a != b && tile.tileType == GetPathType(a, b))
  }

  lemma MergedInOrder(t: Tables, loc: Loc)
    requires Closed(t)
    ensures forall c :: c in Merged(t, loc) ==> c in TileOrder(t)
  {
    forall c | c in Merged(t, loc)
      ensures c in TileOrder(t)
    {
      if loc in t.paths {
        assert c in Lookup(t.paths, loc);
      } else if loc in t.isecs {
        assert c in Lookup(t.isecs, loc);
      }
    }
  }

  /** The two ends of a path, in some order. */
  method PathEnds(ends: set<Loc>) returns (a: Loc, b: Loc)
    requires |ends| == 2
    ensures ends == {a, b} && a != b
  {
    a :| a in ends;
    var rest := ends - {a};
    assert |rest| == 1;
    b :| b in rest;
    assert rest - {b} == {} by {
      assert |rest - {b}| == 0;
    }
    assert ends == {a} + rest;
  }

  /** `{tile_index.index(c) for c in conns}`: the positions of the connections in the tile order. */
  function IndicesOf(order: seq<Loc>, conns: set<Loc>): (r: set<nat>)
    requires forall c :: c in conns ==> c in order
    ensures forall k :: k in r ==> k < |order|
    ensures forall c :: c in conns ==> IndexOf(order, c) in r
  {
    set c | c in conns :: IndexOf(order, c)
  }

  /** One pass of the indexing loop: the tile at position i of tile_index. */
  method MakeTile(t: Tables, tileIndex: seq<Loc>, i: nat) returns (tile: TileInfo)
    requires Closed(t) && PathsTyped(t)
    requires tileIndex == TileOrder(t) && i < |tileIndex|
    ensures IndexedTile(t, i, tile)
    ensures forall c :: c in tile.connections ==> c < |tileIndex|
  {
    var tileLoc := tileIndex[i];
    var tileType := TileTypeAt(t, tileLoc);
    MergedInOrder(t, tileLoc);
    var connections := IndicesOf(tileIndex, Merged(t, tileLoc));
    tile := TileInfo(i, tileType, tileLoc, connections);
  }

  /** The tile type of a key of the tables: Hex, Intersection, or the type of the path's two ends. */
  method TileTypeAt(t: Tables, loc: Loc) returns (tileType: TileType)
    requires PathsTyped(t)
    requires loc in t.hexes || loc in t.isecs || loc in t.paths
    ensures loc in t.hexes ==> tileType == Hex
    ensures loc !in t.hexes && loc in t.isecs ==> tileType == Intersection
    ensures loc !in t.hexes && loc !in t.isecs ==>
      exists a, b :: t.paths[loc] == {a, b} && a != b && tileType == GetPathType(a, b)
  {
    if loc in t.hexes {
      tileType := Hex;
    } else if loc in t.isecs {
      tileType := Intersection;
    } else {
      var a, b := PathEnds(t.paths[loc]);
      tileType := GetPathType(a, b);
    }
  }

  /** tiles holds the first |tiles| entries of the indexing loop's result. */
  ghost predicate IndexedPrefix(t: Tables, tiles: seq<TileInfo>) {
    && Closed(t)
    && |tiles| <= |TileOrder(t)|
    && (forall i :: 0 <= i < |tiles| ==> IndexedTile(t, i, tiles[i]))
    && (forall i, c :: 0 <= i < |tiles| && c in tiles[i].connections ==> c < |TileOrder(t)|)
  }

  lemma IndexedPrefixSnoc(t: Tables, tiles: seq<TileInfo>, tile: TileInfo)
    requires IndexedPrefix(t, tiles) && |tiles| < |TileOrder(t)|
    requires IndexedTile(t, |tiles|, tile)
    requires forall c :: c in tile.connections ==> c < |TileOrder(t)|
    ensures IndexedPrefix(t, tiles + [tile])
  {
  }

  /** The indexing loop of __post_init__: one TileInfo per entry of tile_index. */
  method IndexTiles(t: Tables) returns (tiles: seq<TileInfo>)
    requires Closed(t) && PathsTyped(t)
    ensures |tiles| == |TileOrder(t)|
    ensures IndexedPrefix(t, tiles)
  {
    var tileIndex := TileOrder(t);
    tiles := [];
    for i := 0 to |tileIndex|
      invariant |tiles| == i
      invariant IndexedPrefix(t, tiles)
    {
      var tile := MakeTile(t, tileIndex, i);
      IndexedPrefixSnoc(t, tiles, tile);
      tiles := tiles + [tile];
    }
  }

  /** The tiles field after __post_init__, for a board that passed validation. */
  ghost predicate BuiltFrom(tiles: seq<TileInfo>, resolution: (int, int), nHexesY: int, nHexesX: int) {
    var t := BoardTables(resolution, nHexesY, nHexesX);
    |tiles| == |TileOrder(t)| && IndexedPrefix(t, tiles)
  }

  /** The tiles field after __post_init__ appended to the tiles it was given. */
  ghost predicate AppendedTo(tiles: seq<TileInfo>, tiles0: seq<TileInfo>, resolution: (int, int), nHexesY: int, nHexesX: int) {
    && |tiles0| <= |tiles| && tiles[..|tiles0|] == tiles0
    && BuiltFrom(tiles[|tiles0|..], resolution, nHexesY, nHexesX)
  }

  class HexBoard {
    const resolution: (int, int)
    var tiles: seq<TileInfo>

    /**
     * HexBoard(resolution, ..., tiles): the indexed tiles are appended to
     * the `tiles` init argument (an empty list by default), so the given
     * tiles come first, unchanged.
     */
    constructor (resolution: (int, int), nHexesY: int, nHexesX: int, margin: int, tiles0: seq<TileInfo>)
      requires Validate(resolution, margin).Pass?
      ensures this.resolution == resolution
      ensures AppendedTo(tiles, tiles0, resolution, nHexesY, nHexesX)
    {
      this.resolution := resolution;
      var g := LayoutOf(resolution, nHexesY, nHexesX);
      var t := BuildTables(g);
      TablesClosed(BoardPlacements(g));
      BoardPathsTwoEnds(g);
      var indexed := IndexTiles(t);
      assert (tiles0 + indexed)[..|tiles0|] == tiles0 && (tiles0 + indexed)[|tiles0|..] == indexed;
      tiles := tiles0 + indexed;
    }
  }

  /**
   * The index a new tile carries is its place among the new tiles, which is
   * its place in `tiles` only when no tiles were given: with k given tiles,
   * the tile at position k + i carries index i.
   */
  lemma AppendedIndexOffset(tiles: seq<TileInfo>, tiles0: seq<TileInfo>, resolution: (int, int), nHexesY: int, nHexesX: int, p: nat)
    requires AppendedTo(tiles, tiles0, resolution, nHexesY, nHexesX)
    requires |tiles0| <= p < |tiles|
    ensures tiles[p].index == p - |tiles0|
    ensures tiles[p].index == p <==> tiles0 == []
  {
    var t := BoardTables(resolution, nHexesY, nHexesX);
    assert tiles[|tiles0|..][p - |tiles0|] == tiles[p];
    assert IndexedTile(t, p - |tiles0|, tiles[p]);
  }

  /** HexBoard(...): ValueError from the checks, else the built board with the given tiles first. */
  method NewHexBoard(resolution: (int, int), nHexesY: int, nHexesX: int, margin: int, tiles0: seq<TileInfo>) returns (r: Result<HexBoard>)
    ensures r.Err? <==> Validate(resolution, margin).Fail?
    ensures r.Err? ==> r.error == Validate(resolution, margin).error
    ensures r.Ok? ==> r.value.resolution == resolution && AppendedTo(r.value.tiles, tiles0, resolution, nHexesY, nHexesX)
  {
    var check := Validate(resolution, margin);
    if check.Fail? {
      return Err(check.error);
    }
    var board := new HexBoard(resolution, nHexesY, nHexesX, margin, tiles0);
    return Ok(board);
  }
}

=== FILE: board_tiles.dfy ===
/**
 * What the tiles of a built HexBoard (modeling/hex_board/board_maker.py)
 * look like: the numbering, the tile kinds and the adjacency between tiles.
 */
module BoardTiles {
  import opened Tiles
  import opened Calculations
  import opened HexGeometry
  import opened HexTables
  import opened BoardLayout
  import opened BoardMaker

  /**
   * tile_index: all hexes, then all intersections, then all paths, and
   * every key of every table appears.
   */
  lemma TileOrderGroups(t: Tables)
    ensures var order, nh, ni := TileOrder(t), |t.hexes.Keys|, |t.isecs.Keys|;
      && |order| == nh + ni + |t.paths.Keys|
      && (forall i :: 0 <= i < nh ==> order[i] in t.hexes)
      && (forall i :: nh <= i < nh + ni ==> order[i] in t.isecs)
      && (forall i :: nh + ni <= i < |order| ==> order[i] in t.paths)
      && (forall x :: x in t.hexes || x in t.isecs || x in t.paths ==> x in order)
  {
    ThreeRuns(SortedLocs(t.hexes.Keys), SortedLocs(t.isecs.Keys), SortedLocs(t.paths.Keys),
              t.hexes.Keys, t.isecs.Keys, t.paths.Keys);
  }

  /** Three runs listing three sets, concatenated: each run holds its own set, and every member of each set is listed. */
  lemma ThreeRuns(a: seq<Loc>, b: seq<Loc>, c: seq<Loc>, sa: set<Loc>, sb: set<Loc>, sc: set<Loc>)
    requires forall l :: l in a <==> l in sa
    requires forall l :: l in b <==> l in sb
    requires forall l :: l in c <==> l in sc
    ensures var w := a + b + c;
      && (forall i :: 0 <= i < |a| ==> w[i] in sa)
      && (forall i :: |a| <= i < |a| + |b| ==> w[i] in sb)
      && (forall i :: |a| + |b| <= i < |w| ==> w[i] in sc)
      && (forall x :: x in sa || x in sb || x in sc ==> x in w)
  {
    var w := a + b + c;
    forall i | 0 <= i < |a|
      ensures w[i] in sa
    {
      assert w[i] == a[i];
    }
    forall i | |a| <= i < |a| + |b|
      ensures w[i] in sb
    {
      assert w[i] == b[i - |a|];
    }
    forall i | |a| + |b| <= i < |w|
      ensures w[i] in sc
    {
      assert w[i] == c[i - |a| - |b|];
    }
  }

  ghost predicate Ascending(s: seq<Loc>) {
    forall j, k :: 0 <= j < k < |s| ==> LocLt(s[j], s[k])
  }

  /** Three ascending runs, concatenated: each run stays ascending in place. */
  lemma AscendingRuns(a: seq<Loc>, b: seq<Loc>, c: seq<Loc>)
    requires Ascending(a) && Ascending(b) && Ascending(c)
    ensures var w := a + b + c;
      && (forall i, j :: 0 <= i < j < |a| ==> LocLt(w[i], w[j]))
      && (forall i, j :: |a| <= i < j < |a| + |b| ==> LocLt(w[i], w[j]))
      && (forall i, j :: |a| + |b| <= i < j < |w| ==> LocLt(w[i], w[j]))
  {
    var w := a + b + c;
    forall i, j | 0 <= i < j < |a|
      ensures LocLt(w[i], w[j])
    {
      assert w[i] == a[i] && w[j] == a[j];
    }
    forall i, j | |a| <= i < j < |a| + |b|
      ensures LocLt(w[i], w[j])
    {
      assert w[i] == b[i - |a|] && w[j] == b[j - |a|];
    }
    forall i, j | |a| + |b| <= i < j < |w|
      ensures LocLt(w[i], w[j])
    {
      assert w[i] == c[i - |a| - |b|] && w[j] == c[j - |a| - |b|];
    }
  }

  /** Within each group, tile_index is in strictly ascending (y, x) order. */
  lemma TileOrderAscending(t: Tables)
    ensures var order, nh, ni := TileOrder(t), |t.hexes.Keys|, |t.isecs.Keys|;
      && (forall i, j :: 0 <= i < j < nh ==> LocLt(order[i], order[j]))
      && (forall i, j :: nh <= i < j < nh + ni ==> LocLt(order[i], order[j]))
      && (forall i, j :: nh + ni <= i < j < |order| ==> LocLt(order[i], order[j]))
  {
    SortedLocsAscending(t.hexes.Keys);
    SortedLocsAscending(t.isecs.Keys);
    SortedLocsAscending(t.paths.Keys);
    AscendingRuns(SortedLocs(t.hexes.Keys), SortedLocs(t.isecs.Keys), SortedLocs(t.paths.Keys));
  }

  lemma LocLtIrreflexive(a: Loc, b: Loc)
    requires LocLt(a, b)
    ensures a != b
  {
  }

  /** With disjoint keys, every pixel has one tile: tile_index has no repeats. */
  lemma TileOrderDistinct(t: Tables)
    requires DisjointKeys(t)
    ensures forall i, j :: 0 <= i < j < |TileOrder(t)| ==> TileOrder(t)[i] != TileOrder(t)[j]
  {
    var order := TileOrder(t);
    var nh, ni := |t.hexes.Keys|, |t.isecs.Keys|;
    TileOrderGroups(t);
    TileOrderAscending(t);
    forall i, j | 0 <= i < j < |order|
      ensures order[i] != order[j]
    {
      if i < nh && j < nh {
        LocLtIrreflexive(order[i], order[j]);
      } else if nh <= i && j < nh + ni {
        LocLtIrreflexive(order[i], order[j]);
      } else if nh + ni <= i {
        LocLtIrreflexive(order[i], order[j]);
      }
    }
  }

  /** In a sequence without repeats, `list.index` of entry i is i. */
  lemma IndexOfDistinct(order: seq<Loc>, i: nat)
    requires i < |order|
    requires forall a, b :: 0 <= a < b < |order| ==> order[a] != order[b]
    ensures IndexOf(order, order[i]) == i
  {
    var r := IndexOf(order, order[i]);
    assert r <= i;
  }

  /** tiles is the complete result of the indexing loop over t. */
  ghost predicate Indexed(t: Tables, tiles: seq<TileInfo>) {
    |tiles| == |TileOrder(t)| && IndexedPrefix(t, tiles)
  }

  /** Tile i has index i and sits at entry i of tile_index; its kind follows its table. */
  lemma TileKinds(t: Tables, tiles: seq<TileInfo>, i: nat)
    requires Indexed(t, tiles) && DisjointKeys(t) && i < |tiles|
    ensures tiles[i].index == i && tiles[i].loc == TileOrder(t)[i]
    ensures tiles[i].tileType == Hex <==> tiles[i].loc in t.hexes
    ensures tiles[i].tileType == Intersection <==> tiles[i].loc in t.isecs
    ensures tiles[i].tileType.IsPath() <==> tiles[i].loc in t.paths
  {
    TileOrderGroups(t);
    assert IndexedTile(t, i, tiles[i]);
  }

  /**
   * A path tile's type is get_path_type of its two ends, in either order,
   * when the classification does not depend on the order of the ends.
   */
  lemma PathTileType(t: Tables, tiles: seq<TileInfo>, i: nat)
    requires Indexed(t, tiles) && DisjointKeys(t) && i < |tiles| && tiles[i].loc in t.paths
    requires forall a, b :: t.paths[tiles[i].loc] == {a, b} ==> GetPathType(a, b) == GetPathType(b, a)
    ensures forall a, b :: t.paths[tiles[i].loc] == {a, b} ==> tiles[i].tileType == GetPathType(a, b)
  {
    var loc := tiles[i].loc;
    assert IndexedTile(t, i, tiles[i]);
    assert loc !in t.hexes && loc !in t.isecs;
    var a0, b0 :| t.paths[loc] == {a0, b0} && a0 != b0 && tiles[i].tileType == GetPathType(a0, b0);
    forall a, b | t.paths[loc] == {a, b}
      ensures tiles[i].tileType == GetPathType(a, b)
    {
      SamePair(a, b, a0, b0);
    }
  }

  /** A two-element set names its elements in one order or the other. */
  lemma SamePair(a: Loc, b: Loc, a0: Loc, b0: Loc)
    requires {a, b} == {a0, b0} && a0 != b0
    ensures (a == a0 && b == b0) || (a == b0 && b == a0)
  {
    assert a in {a0, b0} && b in {a0, b0};
    assert a0 in {a, b} && b0 in {a, b};
  }

  /** Connection j of tile i: the tile of one of the pixels its table lists. */
  lemma ConnectionMeaning(t: Tables, tiles: seq<TileInfo>, i: nat, j: nat)
    requires Indexed(t, tiles) && DisjointKeys(t) && i < |tiles| && j < |tiles|
    ensures j in tiles[i].connections <==> TileOrder(t)[j] in Merged(t, TileOrder(t)[i])
  {
    var order := TileOrder(t);
    assert IndexedTile(t, i, tiles[i]);
    TileOrderDistinct(t);
    IndexOfDistinct(order, j);
    if j in tiles[i].connections {
      var c :| c in Merged(t, order[i]) && j == IndexOf(order, c);
    }
  }

  /** Merged gives a key the entry of its own table when no key is in two tables. */
  lemma MergedOwnTable(t: Tables, x: Loc)
    requires DisjointKeys(t)
    ensures x in t.hexes ==> Merged(t, x) == Lookup(t.hexes, x)
    ensures x in t.isecs ==> Merged(t, x) == Lookup(t.isecs, x)
    ensures x in t.paths ==> Merged(t, x) == Lookup(t.paths, x)
  {
  }

  lemma HexTileAdjacency(t: Tables, tiles: seq<TileInfo>, i: nat, j: nat)
    requires Indexed(t, tiles) && DisjointKeys(t) && i < |tiles| && j < |tiles|
    requires HexIsecSymmetry(t) && tiles[i].tileType == Hex
    ensures j in tiles[i].connections <==> tiles[j].tileType == Intersection && i in tiles[j].connections
  {
    var order := TileOrder(t);
    TileKinds(t, tiles, i);
    TileKinds(t, tiles, j);
    ConnectionMeaning(t, tiles, i, j);
    ConnectionMeaning(t, tiles, j, i);
    var h, v := order[i], order[j];
    MergedOwnTable(t, h);
    MergedOwnTable(t, v);
    if v in Lookup(t.hexes, h) {
      assert Closed(t);
      assert v in t.isecs;
      assert h in Lookup(t.isecs, v);
    }
    if v in t.isecs && h in Lookup(t.isecs, v) {
      assert v in Lookup(t.hexes, h);
    }
  }

  lemma PathTileAdjacency(t: Tables, tiles: seq<TileInfo>, i: nat, j: nat)
    requires Indexed(t, tiles) && DisjointKeys(t) && i < |tiles| && j < |tiles|
    requires PathEndsListIt(t) && tiles[i].tileType.IsPath() && j in tiles[i].connections
    ensures tiles[j].tileType == Intersection && i in tiles[j].connections
  {
    var order := TileOrder(t);
    TileKinds(t, tiles, i);
    TileKinds(t, tiles, j);
    ConnectionMeaning(t, tiles, i, j);
    ConnectionMeaning(t, tiles, j, i);
    var m, v := order[i], order[j];
    MergedOwnTable(t, m);
    assert v in Lookup(t.paths, m);
    assert m in Lookup(t.isecs, v);
    MergedOwnTable(t, v);
  }

  /*
   * The board HexBoard builds.
   */

  /** The facts about a board's tables that the tile lemmas need, when the hex size is not 0. */
  lemma BoardTablesFacts(resolution: (int, int), nHexesY: int, nHexesX: int)
    requires LayoutOf(resolution, nHexesY, nHexesX).hexSize != 0
    ensures var t := BoardTables(resolution, nHexesY, nHexesX);
      DisjointKeys(t) && HexIsecSymmetry(t) && PathEndsListIt(t)
  {
    var g := LayoutOf(resolution, nHexesY, nHexesX);
    KeysDisjoint(g);
    HexIsecSymmetric(g);
    PathEndsListPath(BoardPlacements(g));
  }

  /**
   * On a board whose hex size is not 0, hex and intersection tiles list each
   * other symmetrically, and every tile a path lists is an intersection that
   * lists the path back.
   */
  lemma TileAdjacency(tiles: seq<TileInfo>, resolution: (int, int), nHexesY: int, nHexesX: int, i: nat, j: nat)
    requires BuiltFrom(tiles, resolution, nHexesY, nHexesX) && i < |tiles| && j < |tiles|
    requires LayoutOf(resolution, nHexesY, nHexesX).hexSize != 0
    ensures tiles[i].tileType == Hex ==>
      (j in tiles[i].connections <==> tiles[j].tileType == Intersection && i in tiles[j].connections)
    ensures tiles[i].tileType.IsPath() && j in tiles[i].connections ==>
      tiles[j].tileType == Intersection && i in tiles[j].connections
  {
    var t := BoardTables(resolution, nHexesY, nHexesX);
    BoardTablesFacts(resolution, nHexesY, nHexesX);
    if tiles[i].tileType == Hex {
      HexTileAdjacency(t, tiles, i, j);
    }
    if tiles[i].tileType.IsPath() && j in tiles[i].connections {
      PathTileAdjacency(t, tiles, i, j);
    }
  }

  /**
   * On a board whose hex size is not 0, a path tile's type is get_path_type
   * of its two ends taken in either order.
   */
  lemma BoardPathTileType(tiles: seq<TileInfo>, resolution: (int, int), nHexesY: int, nHexesX: int, i: nat)
    requires BuiltFrom(tiles, resolution, nHexesY, nHexesX) && i < |tiles|
    requires LayoutOf(resolution, nHexesY, nHexesX).hexSize != 0
    requires tiles[i].tileType.IsPath()
    ensures var ends := BoardTables(resolution, nHexesY, nHexesX).paths[tiles[i].loc];
      && |ends| == 2
      && forall a, b :: ends == {a, b} ==> tiles[i].tileType == GetPathType(a, b)
  {
    var t := BoardTables(resolution, nHexesY, nHexesX);
    BoardTablesFacts(resolution, nHexesY, nHexesX);
    TileKinds(t, tiles, i);
    BoardPathTypeOrderFree(LayoutOf(resolution, nHexesY, nHexesX), tiles[i].loc);
    PathTileType(t, tiles, i);
  }

  /** Two strictly ascending lists of pixels with the same members are equal. */
  lemma {:induction false} AscendingLocsUnique(a: seq<Loc>, b: seq<Loc>)
    requires Ascending(a) && Ascending(b)
    requires forall x :: x in a <==> x in b
    ensures a == b
  {
    if a != [] && b != [] {
      assert a[0] in b && b[0] in a;
      assert a[0] == b[0];
      forall x ensures x in a[1..] <==> x in b[1..] {
        if x in a[1..] {
          assert x in b && x != b[0];
        }
        if x in b[1..] {
          assert x in a && x != a[0];
        }
      }
      AscendingLocsUnique(a[1..], b[1..]);
      assert a == [a[0]] + a[1..] && b == [b[0]] + b[1..];
    } else {
      FirstLocIsMember(a);
      FirstLocIsMember(b);
    }
  }

  lemma FirstLocIsMember(s: seq<Loc>)
    ensures s != [] ==> s[0] in s
  {
  }

  /** In rows of width n, an earlier row-major position is in an earlier row, or earlier in the same row. */
  lemma RowMajorOrder(row: nat, col: nat, row': nat, col': nat, n: nat)
    requires col < n && col' < n && row * n + col < row' * n + col'
    ensures row < row' || (row == row' && col < col')
  {
    if row' < row {
      MulDistributes(row - row', row', n);
      MulAtLeast(row - row', n);
    }
  }

  /** A larger multiple of a positive unit is larger. */
  lemma MulStrict(a: int, a': int, u: int)
    requires a < a' && u > 0
    ensures a * u < a' * u
  {
    MulDistributes(a' - a, a, u);
    MulAtLeast(a' - a, u);
  }

  /** On a board whose hex size is positive, the loops place the hexes in strictly ascending (y, x) order. */
  lemma CentresAscending(g: Layout, k: nat, k': nat)
    requires g.hexSize % 8 == 0 && g.hexSize > 0
    requires k < k' < |BoardPlacements(g)|
    ensures LocLt(BoardPlacements(g)[k].centre, BoardPlacements(g)[k'].centre)
  {
    var row, col := BoardHexInUnits(g, k);
    var row', col' := BoardHexInUnits(g, k');
    RowMajorOrder(row, col, row', col', Count(g.nCols));
    if row < row' {
      MulStrict(6 * row, 6 * row', Unit(g));
    } else {
      MulStrict(4 * col, 4 * col', 2 * Unit(g));
    }
  }

  /** The centres of the given hexes, in order. */
  function Centres(ps: seq<Placement>): (cs: seq<Loc>)
    ensures |cs| == |ps| && forall k :: 0 <= k < |ps| ==> cs[k] == ps[k].centre
  {
    seq(|ps|, k requires 0 <= k < |ps| => ps[k].centre)
  }

  /**
   * On a board whose hex size is positive, sorting the hex keys gives the
   * centres in the order the loops place them, row by row: the k-th hex tile
   * is the k-th hex placed.
   */
  lemma SortedHexesInPlacementOrder(g: Layout)
    requires g.hexSize % 8 == 0 && g.hexSize > 0
    ensures SortedLocs(TablesOf(BoardPlacements(g)).hexes.Keys) == Centres(BoardPlacements(g))
  {
    var ps := BoardPlacements(g);
    var cs := Centres(ps);
    var sorted := SortedLocs(TablesOf(ps).hexes.Keys);
    HexKeysMeaning(ps);
    SortedLocsAscending(TablesOf(ps).hexes.Keys);
    forall i, j | 0 <= i < j < |cs|
      ensures LocLt(cs[i], cs[j])
    {
      CentresAscending(g, i, j);
    }
    forall x
      ensures x in sorted <==> x in cs
    {
      if x in sorted {
        var k :| 0 <= k < |ps| && ps[k].centre == x;
        assert cs[k] == x;
      }
    }
    AscendingLocsUnique(sorted, cs);
  }

  /** Hex (row, col) is the (row * nCols + col)-th hex the loops place. */
  lemma PlacementAtIndex(g: Layout, row: nat, col: nat)
    requires row < Count(g.nRows) && col < Count(g.nCols)
    ensures row * Count(g.nCols) + col < |BoardPlacements(g)|
    ensures BoardPlacements(g)[row * Count(g.nCols) + col] == PlacementAt(g, row, col)
  {
    var n := Count(g.nCols);
    MulMonotoneNat(row + 1, Count(g.nRows), n);
    MulDistributes(row, 1, n);
    var r, c := PlacementIndex(g, Count(g.nRows), row * n + col);
    RowMajorUnique(r, c, row, col, n);
  }
}

=== FILE: building_data.dfy ===
/**
 * catan/gamedata/building_data.py: the per-building arrays, the cost
 * matrix with one column per Resource, and the environment-requirement
 * matrix with one column per Environment, built once from a list of
 * building descriptions.
 */
module BuildingTables {
  import opened Tools
  import opened CatanObjects

  /** The BuildingInfo protocol. */
  datatype BuildingInfo = BuildingInfo(
    building: Building,
    spaceReq: Space,
    envReq: seq<Environment>,
    buildingReq: Building,
    resourceCost: map<Resource, int>,
    buildLimit: int,
    resourceYield: int)

  /** The arrays of BuildingData. */
  datatype BuildingData = BuildingData(
    nBuildings: nat,
    buildings: seq<U8>,
    spaceReqs: seq<U8>,
    environmentReqs: seq<seq<bool>>,
    buildingReqs: seq<U8>,
    costs: seq<seq<U8>>,
    buildLimits: seq<U8>,
    yieldQtys: seq<U8>)

  /** The limit, the yield and every cost of a building fit in uint8. */
  predicate FitsU8(b: BuildingInfo) {
    && 0 <= b.buildLimit < 256
    && 0 <= b.resourceYield < 256
    && forall r :: r in b.resourceCost ==> 0 <= b.resourceCost[r] < 256
  }

  /** One row of `costs`: column r.Code() holds the cost in resource r, 0 when none is listed. */
  function CostRow(b: BuildingInfo): (row: seq<U8>)
    requires FitsU8(b)
    ensures |row| == |ResourceMembers|
    ensures forall r: Resource :: row[r.Code()] == if r in b.resourceCost then b.resourceCost[r] else 0
  {
    var row := seq(|ResourceMembers|, k requires 0 <= k < |ResourceMembers| =>
      var r := ResourceMembers[k];
      if r !in b.resourceCost then 0 else b.resourceCost[r]);
    assert forall r: Resource :: ResourceMembers[r.Code()] == r;
    row
  }

  /** One row of `environment_reqs`: column e.Code() is true iff e is a required environment. */
  function EnvRow(b: BuildingInfo): (row: seq<bool>)
    ensures |row| == |EnvironmentMembers|
    ensures forall e: Environment :: row[e.Code()] <==> e in b.envReq
  {
    var row := seq(|EnvironmentMembers|, k requires 0 <= k < |EnvironmentMembers| => EnvironmentMembers[k] in b.envReq);
    assert forall e: Environment :: EnvironmentMembers[e.Code()] == e;
    row
  }

  /**
   * BuildingData.__post_init__: every array has one entry per building in
   * input order, costs are per Resource in declaration order (0 where the
   * building lists none), and environment requirements are flags per
   * Environment in declaration order.
   */
  function MakeBuildingData(buildingData: seq<BuildingInfo>): (d: BuildingData)
    requires forall i :: 0 <= i < |buildingData| ==> FitsU8(buildingData[i])
    ensures d.nBuildings == |buildingData|
    ensures |d.buildings| == |d.spaceReqs| == |d.buildingReqs| == |d.buildLimits| == |d.yieldQtys| == d.nBuildings
    ensures |d.costs| == |d.environmentReqs| == d.nBuildings
    ensures forall i :: 0 <= i < |buildingData| ==>
      var b := buildingData[i];
      && d.buildings[i] == b.building.Code()
      && d.spaceReqs[i] == b.spaceReq.Code()
      && d.buildingReqs[i] == b.buildingReq.Code()
      && d.buildLimits[i] == b.buildLimit
      && d.yieldQtys[i] == b.resourceYield
    ensures forall i, r: Resource :: 0 <= i < |buildingData| ==>
      |d.costs[i]| == 5 && d.costs[i][r.Code()] == if r in buildingData[i].resourceCost then buildingData[i].resourceCost[r] else 0
    ensures forall i, e: Environment :: 0 <= i < |buildingData| ==>
      |d.environmentReqs[i]| == 3 && (d.environmentReqs[i][e.Code()] <==> e in buildingData[i].envReq)
  {
    var n := |buildingData|;
    BuildingData(
      n,
      seq(n, i requires 0 <= i < n => buildingData[i].building.Code()),
      seq(n, i requires 0 <= i < n => buildingData[i].spaceReq.Code()),
      seq(n, i requires 0 <= i < n => EnvRow(buildingData[i])),
      seq(n, i requires 0 <= i < n => buildingData[i].buildingReq.Code()),
      seq(n, i requires 0 <= i < n => CostRow(buildingData[i])),
      seq(n, i requires 0 <= i < n && FitsU8(buildingData[i]) => buildingData[i].buildLimit as U8),
      seq(n, i requires 0 <= i < n && FitsU8(buildingData[i]) => buildingData[i].resourceYield as U8))
  }

  /** An array of the observation: a uint8 vector or a boolean matrix. */
  datatype ObservationArray = U8Vector(u8s: seq<U8>) | BoolMatrix(flags: seq<seq<bool>>)

  /**
   * BuildingData.package_observation: six arrays, without `buildings`;
   * the cost matrix is raveled row-major into n_buildings * 5 entries.
   */
  function PackageObservation(d: BuildingData): (obs: map<string, ObservationArray>)
    requires |d.costs| == d.nBuildings
    requires forall i :: 0 <= i < |d.costs| ==> |d.costs[i]| == 5
    ensures obs.Keys == {"space_reqs", "environment_reqs", "building_reqs", "costs", "build_limits", "yield_qtys"}
    ensures "buildings" !in obs
    ensures obs["costs"].U8Vector? && |obs["costs"].u8s| == 5 * d.nBuildings
    ensures forall i, r: Resource :: 0 <= i < d.nBuildings ==> obs["costs"].u8s[5 * i + r.Code()] == d.costs[i][r.Code()]
    ensures obs["environment_reqs"] == BoolMatrix(d.environmentReqs)
    ensures obs["space_reqs"] == U8Vector(d.spaceReqs) && obs["building_reqs"] == U8Vector(d.buildingReqs)
    ensures obs["build_limits"] == U8Vector(d.buildLimits) && obs["yield_qtys"] == U8Vector(d.yieldQtys)
  {
    var raveled := Flatten(d.costs);
    FlattenLength(d.costs, 5);
    assert forall i, r: Resource :: 0 <= i < d.nBuildings ==> raveled[5 * i + r.Code()] == d.costs[i][r.Code()] by {
      forall i, r: Resource | 0 <= i < d.nBuildings
        ensures raveled[5 * i + r.Code()] == d.costs[i][r.Code()]
      {
        FlattenRowMajor(d.costs, 5, i, r.Code());
      }
    }
    map["space_reqs" := U8Vector(d.spaceReqs),
        "environment_reqs" := BoolMatrix(d.environmentReqs),
        "building_reqs" := U8Vector(d.buildingReqs),
        "costs" := U8Vector(raveled),
        "build_limits" := U8Vector(d.buildLimits),
        "yield_qtys" := U8Vector(d.yieldQtys)]
  }

  /** The packaged costs of a built table: entry 5i + r.Code() is what building i costs in resource r. */
  lemma PackagedCosts(buildingData: seq<BuildingInfo>, i: nat, r: Resource)
    requires forall j :: 0 <= j < |buildingData| ==> FitsU8(buildingData[j])
    requires i < |buildingData|
    ensures var d := MakeBuildingData(buildingData);
      PackageObservation(d)["costs"].u8s[5 * i + r.Code()]
        == if r in buildingData[i].resourceCost then buildingData[i].resourceCost[r] else 0
  {
    var d := MakeBuildingData(buildingData);
    var raveled := PackageObservation(d)["costs"].u8s;
    assert raveled[5 * i + r.Code()] == d.costs[i][r.Code()];
    assert d.costs[i][r.Code()] == if r in buildingData[i].resourceCost then buildingData[i].resourceCost[r] else 0;
  }
}

=== FILE: calculations.dfy ===
/**
 * modeling/hex_board/calculations.py: the integer hex-size and centring
 * formulas and the classification of a path by its two end points.
 */
module Calculations {
  import opened Tiles

  /** Python's `a // b`: the quotient rounded towards minus infinity. */
  function FloorDiv(a: int, b: int): (q: int)
    requires b != 0
    ensures b > 0 ==> q * b <= a < q * b + b
    ensures b < 0 ==> q * b + b < a <= q * b
  {
    if b > 0 then a / b else (-a) / (-b)
  }

  /** Python's `int(a / b)` for b > 0: the quotient rounded towards zero. */
  function TruncDiv(a: int, b: int): int
    requires b > 0
  {
    if a >= 0 then a / b else -((-a) / b)
  }

  /**
   * calc_hex_height: the tallest hex size that is a multiple of 8 and lets n
   * rows of hexes, (3n + 1) / 4 hex heights in all, fit in the pixel height.
   */
  function CalcHexHeight(pixelHeight: int, nHexesY: int): (h: int)
    ensures h % 8 == 0
    ensures nHexesY >= 0 && pixelHeight >= 0 ==>
      0 <= h && h * (3 * nHexesY + 1) <= 4 * pixelHeight < (h + 8) * (3 * nHexesY + 1)
  {
    var nEighths := nHexesY * 6 + 2;
    var q := FloorDiv(pixelHeight, nEighths);
    ScaledQuotientBounds(pixelHeight, q, 3 * nHexesY + 1, 2, 4);
    q * 8
  }

  /**
   * When q is the floor of a / (m * k) and m * s == 8, the hex size 8q
   * satisfies 8q * k <= s * a < (8q + 8) * k: the bound both hex-size
   * formulas rest on (m = 2 for heights, m = 4 for widths).
   */
  lemma ScaledQuotientBounds(a: int, q: int, k: int, m: int, s: int)
    requires m > 0 && m * s == 8
    ensures a >= 0 && k > 0 && q * (m * k) <= a < q * (m * k) + m * k ==>
      0 <= q * 8 && q * 8 * k <= s * a < (q * 8 + 8) * k
  {
    var mk := m * k;
    if a >= 0 && k > 0 && q * mk <= a < q * mk + mk {
      PositiveProduct(m, k);
      PositiveProduct(m, s);
      QuotientNonNegative(a, q, mk);
      ScaleLe(q * mk, a, s);
      ScaleLe(a + 1, q * mk + mk, s);
      Regroup(q, m, k, s);
    }
  }

  lemma PositiveProduct(x: int, y: int)
    requires x > 0
    ensures x * y > 0 <==> y > 0
  {
    if y > 0 {
      ScaleLe(1, y, x);
    } else {
      ScaleLe(y, 0, x);
    }
  }

  lemma ScaleLe(x: int, y: int, s: int)
    requires x <= y && s >= 0
    ensures s * x <= s * y
  {
    assert s * y - s * x == s * (y - x);
  }

  /** A floor quotient of a non-negative number by a positive one is not negative. */
  lemma QuotientNonNegative(a: int, q: int, d: int)
    requires a >= 0 && d > 0 && a < q * d + d
    ensures q >= 0
  {
    if q < 0 {
      assert (q + 1) * d == q * d + d;
      ScaleLe(q + 1, 0, d);
    }
  }

  lemma Regroup(q: int, m: int, k: int, s: int)
    requires m * s == 8
    ensures s * (q * (m * k)) == q * 8 * k
    ensures s * (q * (m * k) + m * k) == (q * 8 + 8) * k
  {
    assert s * (q * (m * k)) == (q * k) * (m * s);
    assert s * (m * k) == k * (m * s);
  }

  /**
   * calc_hex_width: the widest hex size that is a multiple of 8 and lets n
   * columns of hexes, (2n + 1) / 2 hex widths in all, fit in the pixel width.
   */
  function CalcHexWidth(pixelWidth: int, nHexesX: int): (w: int)
    ensures w % 8 == 0
    ensures nHexesX >= 0 && pixelWidth >= 0 ==>
      0 <= w && w * (2 * nHexesX + 1) <= 2 * pixelWidth < (w + 8) * (2 * nHexesX + 1)
  {
    var nEighths := nHexesX * 8 + 4;
    var q := FloorDiv(pixelWidth, nEighths);
    ScaledQuotientBounds(pixelWidth, q, 2 * nHexesX + 1, 4, 2);
    q * 8
  }

  /**
   * calc_buffer_width: half of the width the grid leaves free, the grid being
   * hexWidth * (2n + 1) / 2 pixels wide, truncated towards zero. With
   * D = 2 * (free width), the buffer b satisfies 4b <= D <= 4b + 3 when the
   * grid fits, so the space left on the right is between b and b + 1.5.
   */
  function CalcBufferWidth(pixelWidth: int, hexWidth: int, nHexesX: int): (b: int)
    ensures var d := 2 * pixelWidth - hexWidth * (2 * nHexesX + 1);
      && (d >= 0 ==> 0 <= 4 * b <= d <= 4 * b + 3)
      && (d < 0 ==> 4 * b - 3 <= d <= 4 * b <= 0)
    ensures hexWidth % 2 == 0 && 2 * pixelWidth >= hexWidth * (2 * nHexesX + 1) ==>
      2 * b <= pixelWidth - (hexWidth / 2) * (2 * nHexesX + 1) <= 2 * b + 1
  {
    HalvedProduct(hexWidth, 2 * nHexesX + 1, 2);
    TruncDiv(2 * pixelWidth - hexWidth * (2 * nHexesX + 1), 4)
  }

  /**
   * calc_buffer_height: half of the height the grid leaves free, the grid
   * being hexHeight * (3n + 1) / 4 pixels high, truncated towards zero.
   */
  function CalcBufferHeight(pixelHeight: int, hexHeight: int, nHexesY: int): (b: int)
    ensures var d := 4 * pixelHeight - hexHeight * (3 * nHexesY + 1);
      && (d >= 0 ==> 0 <= 8 * b <= d <= 8 * b + 7)
      && (d < 0 ==> 8 * b - 7 <= d <= 8 * b <= 0)
    ensures hexHeight % 4 == 0 && 4 * pixelHeight >= hexHeight * (3 * nHexesY + 1) ==>
      2 * b <= pixelHeight - (hexHeight / 4) * (3 * nHexesY + 1) <= 2 * b + 1
  {
    HalvedProduct(hexHeight, 3 * nHexesY + 1, 4);
    TruncDiv(4 * pixelHeight - hexHeight * (3 * nHexesY + 1), 8)
  }

  /** A multiple of d times k is d times (its d-th part times k). */
  lemma HalvedProduct(a: int, k: int, d: int)
    requires d > 0
    ensures a % d == 0 ==> a * k == d * ((a / d) * k)
  {
    if a % d == 0 {
      assert a == d * (a / d);
    }
  }

  lemma MulMonotone(a: int, b: int, k: int)
    requires a <= b && k > 0
    ensures a * k <= b * k
  {
  }

  /** A hex width no larger than calc_hex_width's leaves a non-negative left buffer. */
  lemma BufferWidthNonNegative(pixelWidth: int, hexWidth: int, nHexesX: int)
    ensures nHexesX >= 0 && pixelWidth >= 0 && hexWidth <= CalcHexWidth(pixelWidth, nHexesX) ==>
      CalcBufferWidth(pixelWidth, hexWidth, nHexesX) >= 0
  {
    if nHexesX >= 0 && pixelWidth >= 0 && hexWidth <= CalcHexWidth(pixelWidth, nHexesX) {
      MulMonotone(hexWidth, CalcHexWidth(pixelWidth, nHexesX), 2 * nHexesX + 1);
    }
  }

  /** A hex height no larger than calc_hex_height's leaves a non-negative top buffer. */
  lemma BufferHeightNonNegative(pixelHeight: int, hexHeight: int, nHexesY: int)
    ensures nHexesY >= 0 && pixelHeight >= 0 && hexHeight <= CalcHexHeight(pixelHeight, nHexesY) ==>
      CalcBufferHeight(pixelHeight, hexHeight, nHexesY) >= 0
  {
    if nHexesY >= 0 && pixelHeight >= 0 && hexHeight <= CalcHexHeight(pixelHeight, nHexesY) {
      MulMonotone(hexHeight, CalcHexHeight(pixelHeight, nHexesY), 3 * nHexesY + 1);
    }
  }

  /**
   * get_path_type: Vertical exactly when both ends share x; otherwise
   * SlopedL ('\') exactly when y and x grow together from one end to the other.
   */
  function GetPathType(conn1: Loc, conn2: Loc): (t: TileType)
    ensures t.IsPath()
    ensures t == PathVertical <==> conn1.x == conn2.x
    ensures conn1.x != conn2.x && conn1.y != conn2.y ==>
      (t == PathSlopedL <==> (conn1.y - conn2.y) * (conn1.x - conn2.x) > 0)
    ensures conn1.x != conn2.x && conn1.y == conn2.y ==> (t == PathSlopedL <==> conn1.x < conn2.x)
  {
    if conn1.x == conn2.x then PathVertical
    else if (conn1.y > conn2.y) == (conn1.x > conn2.x) then PathSlopedL
    else PathSlopedR
  }

  /** The classification does not depend on which end comes first, unless the path is horizontal. */
  lemma GetPathTypeSymmetric(conn1: Loc, conn2: Loc)
    requires conn1.y != conn2.y || conn1.x == conn2.x
    ensures GetPathType(conn1, conn2) == GetPathType(conn2, conn1)
  {
  }

  /** For a horizontal path the order of the ends decides between SlopedL and SlopedR. */
  lemma HorizontalPathTypeDependsOnOrder()
    ensures GetPathType(Loc(0, 0), Loc(0, 1)) == PathSlopedL
    ensures GetPathType(Loc(0, 1), Loc(0, 0)) == PathSlopedR
  {
  }
}

=== FILE: catan_objects.dfy ===
/**
 * The enumerations of catan/catan_objects.py. Every class derives from
 * AutoNumber, so a member's numeric code is its position among the members
 * of its own class; `Code()` computes it with Tools.AutoNumber.
 */
module CatanObjects {
  import opened Tools

  /** An unsigned 8-bit value, the dtype every packed board array uses. */
  type U8 = x: int | 0 <= x < 256

  datatype Resource = Brick | Lumber | Wool | Grain | Ore {
    function Code(): nat {
      assert this == Brick || this == Lumber || this == Wool || this == Grain || this == Ore;
      AutoNumber(ResourceMembers, this)
    }
  }
  const ResourceMembers: seq<Resource> := [Brick, Lumber, Wool, Grain, Ore]

  datatype Space = Hex | Intersection | Path | Null {
    function Code(): nat {
      assert this == Hex || this == Intersection || this == Path || this == Null;
      AutoNumber(SpaceMembers, this)
    }
  }
  const SpaceMembers: seq<Space> := [Hex, Intersection, Path, Null]

  datatype Environment = Land | Sea | Coast {
    function Code(): nat {
      assert this == Land || this == Sea || this == Coast;
      AutoNumber(EnvironmentMembers, this)
    }
  }
  const EnvironmentMembers: seq<Environment> := [Land, Sea, Coast]

  datatype Terrain = NoTerrain | Hill | Forest | Pasture | Field | Mountain | Desert {
    function Code(): nat {
      assert this == NoTerrain || this == Hill || this == Forest || this == Pasture || this == Field || this == Mountain || this == Desert;
      AutoNumber(TerrainMembers, this)
    }
  }
  const TerrainMembers: seq<Terrain> := [NoTerrain, Hill, Forest, Pasture, Field, Mountain, Desert]

  datatype TradeShip = NoTradeShip | BrickShip | LumberShip | WoolShip | GrainShip | OreShip | AllShip {
    function Code(): nat {
      assert this == NoTradeShip || this == BrickShip || this == LumberShip || this == WoolShip || this == GrainShip || this == OreShip || this == AllShip;
      AutoNumber(TradeShipMembers, this)
    }
  }
  const TradeShipMembers: seq<TradeShip> :=
    [NoTradeShip, BrickShip, LumberShip, WoolShip, GrainShip, OreShip, AllShip]

  datatype Building = NoBuilding | Settlement | City | Road {
    function Code(): nat {
      assert this == NoBuilding || this == Settlement || this == City || this == Road;
      AutoNumber(BuildingMembers, this)
    }
  }
  const BuildingMembers: seq<Building> := [NoBuilding, Settlement, City, Road]

  /**
   * CatanBoardObject: Terrain, TradeShip and Building are its subclasses,
   * each numbered from 0 on its own, so their codes overlap.
   */
  datatype BoardObject =
    | TerrainObject(terrain: Terrain)
    | ShipObject(ship: TradeShip)
    | BuildingObject(building: Building)
  {
    function Code(): (c: nat)
      ensures c < 7
    {
      match this
      case TerrainObject(t) => t.Code()
      case ShipObject(s) => s.Code()
      case BuildingObject(b) => b.Code()
    }
  }

  lemma ResourceCodes()
    ensures Brick.Code() == 0 && Lumber.Code() == 1 && Wool.Code() == 2
    ensures Grain.Code() == 3 && Ore.Code() == 4
    ensures forall r: Resource :: r.Code() < |ResourceMembers| && ResourceMembers[r.Code()] == r
  {
  }

  lemma SpaceCodes()
    ensures Hex.Code() == 0 && Intersection.Code() == 1 && Path.Code() == 2 && Null.Code() == 3
  {
  }

  lemma EnvironmentCodes()
    ensures Land.Code() == 0 && Sea.Code() == 1 && Coast.Code() == 2
    ensures forall e: Environment :: e.Code() < |EnvironmentMembers| && EnvironmentMembers[e.Code()] == e
  {
  }

  lemma TerrainCodes()
    ensures NoTerrain.Code() == 0 && Hill.Code() == 1 && Forest.Code() == 2 && Pasture.Code() == 3
    ensures Field.Code() == 4 && Mountain.Code() == 5 && Desert.Code() == 6
  {
  }

  lemma TradeShipCodes()
    ensures NoTradeShip.Code() == 0 && BrickShip.Code() == 1 && LumberShip.Code() == 2
    ensures WoolShip.Code() == 3 && GrainShip.Code() == 4 && OreShip.Code() == 5 && AllShip.Code() == 6
  {
  }

  lemma BuildingCodes()
    ensures NoBuilding.Code() == 0 && Settlement.Code() == 1 && City.Code() == 2 && Road.Code() == 3
  {
  }

  /** The same code stands for a terrain, a trade ship and a building. */
  lemma ObjectCodesOverlap()
    ensures TerrainObject(Hill).Code() == ShipObject(BrickShip).Code() == BuildingObject(Settlement).Code() == 1
    ensures TerrainObject(NoTerrain).Code() == BuildingObject(NoBuilding).Code() == 0
  {
    TerrainCodes();
    TradeShipCodes();
    BuildingCodes();
  }
}

=== FILE: chit_piles.dfy ===
/**
 * The deterministic half of randomize_chits_terrains
 * (modeling/catan/game_loading/default_board.py): the terrain and chit piles
 * built from TERRAIN_COUNTS and CHITS, the 0 chit inserted at the desert's
 * position, and the pairing of the two piles. random.shuffle is modelled as
 * "any permutation": the piles arrive already shuffled, as parameters whose
 * multisets equal the unshuffled piles.
 */
module ChitPiles {
  import opened CatanObjects

  /** TERRAIN_COUNTS, in insertion order. */
  const TerrainCounts: seq<(Terrain, nat)> :=
    [(Hill, 3), (Forest, 4), (Pasture, 4), (Field, 4), (Mountain, 3), (Desert, 1)]

  /** The quantity CHITS gives chit value c: one 2, one 12, two of every other value. */
  function ChitQuantity(c: int): nat {
    if c == 2 || c == 12 then 1 else 2
  }

  /** CHITS: `range(2, 13)` with their quantities, 7 included. */
  function Chits(): seq<(int, nat)> {
    seq(11, k requires 0 <= k < 11 => (k + 2, ChitQuantity(k + 2)))
  }

  /** `chain.from_iterable([x] * qty for x, qty in counts.items())`, from entry j of the counts on. */
  function PileFrom<T>(counts: seq<(T, nat)>, j: nat): seq<T>
    decreases |counts| - j
  {
    if j >= |counts| then [] else seq(counts[j].1, _ => counts[j].0) + PileFrom(counts, j + 1)
  }

  /** The whole pile of a count list. */
  function Pile<T>(counts: seq<(T, nat)>): seq<T> {
    PileFrom(counts, 0)
  }

  /** The sum of the quantities from entry j on. */
  function TotalFrom<T>(counts: seq<(T, nat)>, j: nat): nat
    decreases |counts| - j
  {
    if j >= |counts| then 0 else counts[j].1 + TotalFrom(counts, j + 1)
  }

  function TerrainPile(): seq<Terrain> {
    Pile(TerrainCounts)
  }

  function ChitPile(): seq<int> {
    Pile(Chits())
  }

  /** A pile holds as many items as its quantities add up to. */
  lemma {:induction false} PileLength<T>(counts: seq<(T, nat)>, j: nat)
    ensures |PileFrom(counts, j)| == TotalFrom(counts, j)
    decreases |counts| - j
  {
    if j < |counts| {
      PileLength(counts, j + 1);
    }
  }

  /** Every item of a pile is the value of an entry with a positive quantity. */
  lemma {:induction false} PileValues<T>(counts: seq<(T, nat)>, j: nat)
    ensures forall i :: 0 <= i < |PileFrom(counts, j)| ==>
      exists k :: j <= k < |counts| && counts[k].1 > 0 && PileFrom(counts, j)[i] == counts[k].0
    decreases |counts| - j
  {
    if j < |counts| {
      PileValues(counts, j + 1);
      var p, head, rest := PileFrom(counts, j), seq(counts[j].1, _ => counts[j].0), PileFrom(counts, j + 1);
      assert p == head + rest;
      forall i | 0 <= i < |p|
        ensures exists k :: j <= k < |counts| && counts[k].1 > 0 && p[i] == counts[k].0
      {
        if i < |head| {
          assert j <= j < |counts| && counts[j].1 > 0 && p[i] == counts[j].0;
        } else {
          assert p[i] == rest[i - |head|];
          var k :| j + 1 <= k < |counts| && counts[k].1 > 0 && rest[i - |head|] == counts[k].0;
        }
      }
    } else {
      assert PileFrom(counts, j) == [];
    }
  }

  /** Item i of the pile from entry j: one of entry j's copies, or an item of the rest. */
  lemma PileAt<T>(counts: seq<(T, nat)>, j: nat, i: nat)
    requires j < |counts| && i < |PileFrom(counts, j)|
    ensures PileFrom(counts, j)[i] == if i < counts[j].1 then counts[j].0 else PileFrom(counts, j + 1)[i - counts[j].1]
  {
  }

  /** The pile of the first n entries, then the pile of the rest. */
  lemma {:induction false} PileSplit<T>(counts: seq<(T, nat)>, j: nat, n: nat)
    requires j <= n <= |counts|
    ensures PileFrom(counts, j) == PileFrom(counts[..n], j) + PileFrom(counts, n)
    decreases n - j
  {
    if j < n {
      PileSplit(counts, j + 1, n);
      assert counts[..n][j] == counts[j];
    }
  }

  /** What the pairing needs of the terrain pile: 19 terrains, the only desert last. */
  lemma TerrainPileFacts()
    ensures |TerrainPile()| == 19 && TerrainPile()[9] == Pasture && TerrainPile()[18] == Desert
    ensures forall k :: 0 <= k < 18 ==> TerrainPile()[k] != Desert
    ensures multiset(TerrainPile())[Desert] == 1
  {
    TerrainPileOf(TerrainCounts);
  }

  lemma TerrainPileOf(t: seq<(Terrain, nat)>)
    requires t == TerrainCounts
    ensures |Pile(t)| == 19 && Pile(t)[9] == Pasture && Pile(t)[18] == Desert
    ensures forall k :: 0 <= k < 18 ==> Pile(t)[k] != Desert
    ensures multiset(Pile(t))[Desert] == 1
  {
    var front := t[..5];
    PileSplit(t, 0, 5);
    PileLength(front, 0);
    assert TotalFrom(front, 0) == 18;
    PileValues(front, 0);
    var head := PileFrom(front, 0);
    assert Desert !in head;
    assert PileFrom(t, 5) == [Desert];
    assert Pile(t) == head + [Desert];
    PileLength(t, 1);
    PileLength(t, 2);
    PileAt(t, 0, 9);
    PileAt(t, 1, 6);
    PileAt(t, 2, 2);
  }

  /** What the pairing needs of the chit pile: 20 chits in 2..12, the tenth a 7. */
  lemma ChitPileFacts()
    ensures |ChitPile()| == 20 && ChitPile()[9] == 7
    ensures forall k :: 0 <= k < 20 ==> 2 <= ChitPile()[k] <= 12
  {
    ChitPileOf(Chits());
  }

  lemma ChitPileOf(c: seq<(int, nat)>)
    requires c == Chits()
    ensures |Pile(c)| == 20 && Pile(c)[9] == 7
    ensures forall k :: 0 <= k < |Pile(c)| ==> 2 <= Pile(c)[k] <= 12
  {
    assert TotalFrom(c, 11) == 0;
    assert TotalFrom(c, 10) == 1;
    assert TotalFrom(c, 9) == 3;
    assert TotalFrom(c, 8) == 5;
    assert TotalFrom(c, 7) == 7;
    assert TotalFrom(c, 6) == 9;
    assert TotalFrom(c, 5) == 11;
    assert TotalFrom(c, 4) == 13;
    assert TotalFrom(c, 3) == 15;
    assert TotalFrom(c, 2) == 17;
    assert TotalFrom(c, 1) == 19;
    PileLength(c, 0);
    PileLength(c, 1);
    PileLength(c, 2);
    PileLength(c, 3);
    PileLength(c, 4);
    PileAt(c, 0, 9);
    PileAt(c, 1, 8);
    PileAt(c, 2, 6);
    PileAt(c, 3, 4);
    PileAt(c, 4, 2);
    PileAt(c, 5, 0);
    PileValues(c, 0);
  }

  /** A shuffled pile holds only values of the original pile. */
  lemma ShuffledFrom<T>(shuffled: seq<T>, pile: seq<T>, k: nat)
    requires multiset(shuffled) == multiset(pile) && k < |shuffled|
    ensures |shuffled| == |pile| && shuffled[k] in pile
  {
    calc {
      |shuffled|;
      |multiset(shuffled)|;
      |multiset(pile)|;
      |pile|;
    }
    assert shuffled[k] in multiset(shuffled);
  }

  /** `list.insert(i, x)` for an index no larger than the list. */
  function Insert<T>(s: seq<T>, i: nat, x: T): (r: seq<T>)
    requires i <= |s|
    ensures |r| == |s| + 1
    ensures r[i] == x
    ensures forall k :: 0 <= k < i ==> r[k] == s[k]
    ensures forall k :: i < k < |r| ==> r[k] == s[k - 1]
    ensures multiset(r) == multiset(s) + multiset{x}
  {
    assert s == s[..i] + s[i..];
    s[..i] + [x] + s[i..]
  }

  /** `zip`: pairs up to the shorter of the two lists. */
  function Zip<A, B>(a: seq<A>, b: seq<B>): (z: seq<(A, B)>)
    ensures |z| == if |a| < |b| then |a| else |b|
    ensures forall k :: 0 <= k < |z| ==> z[k] == (a[k], b[k])
  {
    seq(if |a| < |b| then |a| else |b|, k requires 0 <= k < |a| && k < |b| => (a[k], b[k]))
  }

  /** `list.index(x)`: the position of the first x. */
  function FirstIndex<T(==)>(s: seq<T>, x: T): (i: nat)
    requires x in s
    ensures i < |s| && s[i] == x
    ensures forall k :: 0 <= k < i ==> s[k] != x
  {
    if s[0] == x then 0 else 1 + FirstIndex(s[1..], x)
  }

  /** The first position holding x is the one FirstIndex finds. */
  lemma FirstIndexAt<T>(s: seq<T>, x: T, i: nat)
    requires i < |s| && s[i] == x && forall k :: 0 <= k < i ==> s[k] != x
    ensures FirstIndex(s, x) == i
  {
  }

  /** What the zip loop of randomize_chits_terrains pairs up. */
  function Paired(terrains: seq<Terrain>, chits: seq<int>): seq<(Terrain, int)>
    requires Desert in terrains && FirstIndex(terrains, Desert) <= |chits|
  {
    Zip(terrains, Insert(chits, FirstIndex(terrains, Desert), 0))
  }

  /** Before the desert, each terrain is paired with the chit at its own position. */
  lemma PairedBeforeDesert(terrains: seq<Terrain>, chits: seq<int>, i: nat)
    requires Desert in terrains && FirstIndex(terrains, Desert) <= |chits|
    requires i < FirstIndex(terrains, Desert)
    ensures |Paired(terrains, chits)| == if |terrains| < |chits| + 1 then |terrains| else |chits| + 1
    ensures Paired(terrains, chits)[i] == (terrains[i], chits[i])
  {
  }

  /** A value found at two positions is counted at least twice. */
  lemma RepeatedCountsTwice<T>(s: seq<T>, a: nat, b: nat)
    requires a < b < |s| && s[a] == s[b]
    ensures multiset(s)[s[a]] >= 2
  {
    assert s == s[..b] + s[b..];
    assert s[a] in s[..b] && s[b] in s[b..];
  }

  /** A value that occurs once in a sequence occurs at one position only. */
  lemma OccursOnce<T>(s: seq<T>, a: nat, b: nat)
    requires a < |s| && b < |s| && s[a] == s[b] && multiset(s)[s[a]] == 1
    ensures a == b
  {
    if a < b {
      RepeatedCountsTwice(s, a, b);
    } else if b < a {
      RepeatedCountsTwice(s, b, a);
    }
  }

  /** A shuffled terrain pile: 19 terrains, exactly one of them the desert. */
  lemma ShuffledTerrains(terrainPile: seq<Terrain>)
    requires multiset(terrainPile) == multiset(TerrainPile())
    ensures |terrainPile| == 19 && multiset(terrainPile)[Desert] == 1 && Desert in terrainPile
  {
    TerrainPileFacts();
    ShuffledFrom(terrainPile, TerrainPile(), 0);
  }

  /**
   * What the pairing promises when the desert occurs once and no chit of the
   * pile is 0: each terrain keeps its position, the desert and only the
   * desert is paired with 0, and every other terrain gets a chit of the pile.
   */
  lemma PairedMeaning(terrains: seq<Terrain>, chits: seq<int>)
    requires multiset(terrains)[Desert] == 1 && |terrains| <= |chits| + 1
    requires forall k :: 0 <= k < |chits| ==> chits[k] != 0
    ensures Desert in terrains && FirstIndex(terrains, Desert) <= |chits|
    ensures |Paired(terrains, chits)| == |terrains|
    ensures forall k :: 0 <= k < |terrains| ==> Paired(terrains, chits)[k].0 == terrains[k]
    ensures forall k :: 0 <= k < |terrains| ==> (Paired(terrains, chits)[k].0 == Desert <==> Paired(terrains, chits)[k].1 == 0)
    ensures forall k :: 0 <= k < |terrains| && terrains[k] != Desert ==> Paired(terrains, chits)[k].1 in chits
  {
    assert Desert in multiset(terrains);
    var d := FirstIndex(terrains, Desert);
    var pairs := Paired(terrains, chits);
    forall k | 0 <= k < |terrains|
      ensures (pairs[k].0 == Desert <==> pairs[k].1 == 0)
      ensures terrains[k] != Desert ==> pairs[k].1 in chits
    {
      if k < d {
        assert pairs[k].1 == chits[k];
      } else if d < k {
        assert pairs[k].1 == chits[k - 1];
        if terrains[k] == Desert {
          OccursOnce(terrains, k, d);
        }
      }
    }
  }

  /** The zip loop, collecting the pairs it visits in order. */
  method ZipPiles(terrains: seq<Terrain>, chits: seq<int>) returns (pairs: seq<(Terrain, int)>)
    ensures pairs == Zip(terrains, chits)
  {
    pairs := [];
    var i := 0;
    while i < |terrains| && i < |chits|
      invariant 0 <= i <= |terrains| && i <= |chits|
      invariant pairs == Zip(terrains, chits)[..i]
    {
      pairs := pairs + [(terrains[i], chits[i])];
      i := i + 1;
    }
  }

  /**
   * randomize_chits_terrains after the two shuffles: a 0 chit goes in at the
   * desert's position and the zip loop pairs the piles. The desert, and only
   * the desert, is paired with 0; every other terrain gets a chit of the
   * pile, in 2..12.
   */
  method RandomizeChitsTerrains(terrainPile: seq<Terrain>, chitPile: seq<int>) returns (pairs: seq<(Terrain, int)>)
    requires multiset(terrainPile) == multiset(TerrainPile())
    requires |chitPile| >= |terrainPile| - 1
    requires forall k :: 0 <= k < |chitPile| ==> 2 <= chitPile[k] <= 12
    ensures Desert in terrainPile && FirstIndex(terrainPile, Desert) <= |chitPile|
    ensures pairs == Paired(terrainPile, chitPile)
    ensures |pairs| == 19
    ensures forall k :: 0 <= k < |pairs| ==> pairs[k].0 == terrainPile[k]
    ensures forall k :: 0 <= k < |pairs| ==> (pairs[k].0 == Desert <==> pairs[k].1 == 0)
    ensures forall k :: 0 <= k < |pairs| && pairs[k].0 != Desert ==> 2 <= pairs[k].1 <= 12
  {
    ShuffledTerrains(terrainPile);
    PairedMeaning(terrainPile, chitPile);
    var d := FirstIndex(terrainPile, Desert);
    var chits := Insert(chitPile, d, 0);
    pairs := ZipPiles(terrainPile, chits);
  }

  /**
   * As written, CHITS keeps two 7s: left unshuffled, the piles pair the
   * tenth terrain, a pasture, with a 7, and never place the last two chits.
   */
  lemma SevenIsPaired(terrains: seq<Terrain>, chits: seq<int>)
    requires terrains == TerrainPile() && chits == ChitPile()
    ensures Desert in terrains && FirstIndex(terrains, Desert) <= |chits|
    ensures |Paired(terrains, chits)| == 19 < |chits| + 1
    ensures Paired(terrains, chits)[9] == (Pasture, 7)
  {
    TerrainPileFacts();
    ChitPileFacts();
    FirstIndexAt(terrains, Desert, 18);
    PairedBeforeDesert(terrains, chits, 9);
  }

  /** The standard chit set: one 2 and one 12, two of each of 3..6 and 8..11, and no 7. */
  function StandardQuantity(c: int): nat {
    if c == 7 then 0 else ChitQuantity(c)
  }

  function StandardChits(): seq<(int, nat)> {
    seq(11, k requires 0 <= k < 11 => (k + 2, StandardQuantity(k + 2)))
  }

  function StandardChitPile(): seq<int> {
    Pile(StandardChits())
  }

  /** The standard pile: 18 chits in 2..12, none of them 7. */
  lemma StandardPileFacts()
    ensures |StandardChitPile()| == 18
    ensures forall c :: c in StandardChitPile() ==> 2 <= c <= 12 && c != 7
  {
    StandardPileOf(StandardChits());
  }

  lemma StandardPileOf(c: seq<(int, nat)>)
    requires c == StandardChits()
    ensures |Pile(c)| == 18
    ensures forall x :: x in Pile(c) ==> 2 <= x <= 12 && x != 7
  {
    assert TotalFrom(c, 11) == 0;
    assert TotalFrom(c, 10) == 1;
    assert TotalFrom(c, 9) == 3;
    assert TotalFrom(c, 8) == 5;
    assert TotalFrom(c, 7) == 7;
    assert TotalFrom(c, 6) == 9;
    assert TotalFrom(c, 5) == 9;
    assert TotalFrom(c, 4) == 11;
    assert TotalFrom(c, 3) == 13;
    assert TotalFrom(c, 2) == 15;
    assert TotalFrom(c, 1) == 17;
    PileLength(c, 0);
    PileValues(c, 0);
  }

  /** The chits the pairs place, in order. */
  function PlacedChits(pairs: seq<(Terrain, int)>): (cs: seq<int>)
    ensures |cs| == |pairs|
    ensures forall k :: 0 <= k < |pairs| ==> cs[k] == pairs[k].1
  {
    seq(|pairs|, k requires 0 <= k < |pairs| => pairs[k].1)
  }

  /** A shuffled standard pile: 18 chits in 2..12, none of them 7. */
  lemma ShuffledStandardChits(chitPile: seq<int>)
    requires multiset(chitPile) == multiset(StandardChitPile())
    ensures |chitPile| == 18
    ensures forall k :: 0 <= k < |chitPile| ==> 2 <= chitPile[k] <= 12 && chitPile[k] != 7
  {
    StandardPileFacts();
    ShuffledFrom(chitPile, StandardChitPile(), 0);
    forall k | 0 <= k < |chitPile|
      ensures 2 <= chitPile[k] <= 12 && chitPile[k] != 7
    {
      ShuffledFrom(chitPile, StandardChitPile(), k);
    }
  }

  /**
   * With the standard 18-chit pile, any shuffle of the two piles places
   * every chit exactly once, the desert gets the 0 chit, and no terrain is
   * paired with a 7.
   */
  lemma StandardPilePairsEveryChit(terrainPile: seq<Terrain>, chitPile: seq<int>)
    requires multiset(terrainPile) == multiset(TerrainPile())
    requires multiset(chitPile) == multiset(StandardChitPile())
    ensures Desert in terrainPile && FirstIndex(terrainPile, Desert) <= |chitPile|
    ensures var pairs := Paired(terrainPile, chitPile);
      && |pairs| == 19
      && multiset(PlacedChits(pairs)) == multiset(chitPile) + multiset{0}
      && (forall k :: 0 <= k < |pairs| ==> (pairs[k].0 == Desert <==> pairs[k].1 == 0))
      && (forall k :: 0 <= k < |pairs| ==> pairs[k].1 != 7)
  {
    ShuffledTerrains(terrainPile);
    ShuffledStandardChits(chitPile);
    PairsWithoutSeven(terrainPile, chitPile);
  }

  /** The pairing of 19 terrains, one of them the desert, with 18 chits none of which is 0 or 7. */
  lemma PairsWithoutSeven(terrains: seq<Terrain>, chits: seq<int>)
    requires |terrains| == 19 && multiset(terrains)[Desert] == 1
    requires |chits| == 18 && forall k :: 0 <= k < |chits| ==> 2 <= chits[k] <= 12 && chits[k] != 7
    ensures Desert in terrains && FirstIndex(terrains, Desert) <= |chits|
    ensures var pairs := Paired(terrains, chits);
      && |pairs| == 19
      && multiset(PlacedChits(pairs)) == multiset(chits) + multiset{0}
      && (forall k :: 0 <= k < |pairs| ==> (pairs[k].0 == Desert <==> pairs[k].1 == 0))
      && (forall k :: 0 <= k < |pairs| ==> pairs[k].1 != 7)
  {
    PairedMeaning(terrains, chits);
    PlacedChitsOfPaired(terrains, chits);
  }

  /**
   * When the terrains outnumber the chits by one, the pairs place the whole
   * chit pile plus the 0 chit, and only chits of the pile besides 0.
   */
  lemma PlacedChitsOfPaired(terrains: seq<Terrain>, chits: seq<int>)
    requires Desert in terrains && |terrains| == |chits| + 1
    ensures FirstIndex(terrains, Desert) <= |chits|
    ensures multiset(PlacedChits(Paired(terrains, chits))) == multiset(chits) + multiset{0}
    ensures forall k :: 0 <= k < |terrains| ==> Paired(terrains, chits)[k].1 == 0 || Paired(terrains, chits)[k].1 in chits
  {
    var d := FirstIndex(terrains, Desert);
    var placed := PlacedChits(Paired(terrains, chits));
    assert placed == Insert(chits, d, 0);
  }
}

=== FILE: condition.dfy ===
/**
 * modeling/catan/condition.py: a tree of conditions over boolean values or
 * boolean vectors, and the ConditionKeeper that caches each condition's
 * status under the condition's string identifier.
 *
 * A leaf condition is a subclass with its own `check`; the model takes the
 * leaves' checks as a parameter `leaf`, a function of the leaf's class name
 * and value.
 */
module Conditions {
  import opened Wrappers

  /** A status: a numpy bool scalar or a one-dimensional bool array. */
  datatype Status = Scalar(b: bool) | Vector(bits: seq<bool>)

  datatype Condition =
    | Leaf(name: string, value: Option<int>)
    | AnyTrue(condition: Condition)
    | And(conditions: seq<Condition>)
    | Or(conditions: seq<Condition>)
    | Invert(cond: Condition)

  /** The checks of the leaf classes, by class name and value. */
  type LeafCheck = (string, Option<int>) -> Status

  // ---------------------------------------------------------------------
  // Identifiers
  // ---------------------------------------------------------------------

  function DigitChar(d: nat): char
    requires d < 10
  {
    "0123456789"[d]
  }

  /** The decimal digits of n. */
  function Digits(n: nat): (s: string)
    ensures |s| > 0
    ensures forall k :: 0 <= k < |s| ==> '0' <= s[k] <= '9'
  {
    if n < 10 then [DigitChar(n)] else Digits(n / 10) + [DigitChar(n % 10)]
  }

  /** `str(i)` for an int. */
  function IntToString(i: int): string {
    if i < 0 then "-" + Digits(-i) else Digits(i)
  }

  /** `sep.join(parts)`. */
  function Join(sep: string, parts: seq<string>): string {
    if parts == [] then ""
    else if |parts| == 1 then parts[0]
    else Join(sep, parts[..|parts| - 1]) + sep + parts[|parts| - 1]
  }

  /** Joining two parts puts the separator between them. */
  lemma JoinTwo(sep: string, a: string, b: string)
    ensures Join(sep, [a, b]) == a + sep + b
  {
    assert [a, b][..1] == [a];
  }

  function OptionRepr(v: Option<int>): string {
    match v
    case None => "None"
    case Some(i) => IntToString(i)
  }

  /**
   * The dataclass repr of a condition: class name, then `value` and the
   * class's own fields in declaration order. A leaf class is taken to
   * declare no field besides `value`.
   */
  function Repr(c: Condition): string {
    match c
    case Leaf(name, v) => name + "(value=" + OptionRepr(v) + ")"
    case AnyTrue(d) => "AnyTrue(value=None, condition=" + Repr(d) + ")"
    case And(cs) =>
      "LogicalAndCondition(value=None, conditions=[" + Join(", ", seq(|cs|, i requires 0 <= i < |cs| => Repr(cs[i]))) + "])"
    case Or(cs) =>
      "LogicalOrCondition(value=None, conditions=[" + Join(", ", seq(|cs|, i requires 0 <= i < |cs| => Repr(cs[i]))) + "])"
    case Invert(d) => "InvertCondition(value=None, cond=" + Repr(d) + ")"
  }

  /**
   * The `identifier` property: a leaf's class name, suffixed with `_value`
   * when it has a value; `any_` before AnyTrue's child; the children's
   * identifiers joined by `&` or `|` for And and Or; `~` before the child's
   * repr for Invert.
   */
  function Identifier(c: Condition): string {
    match c
    case Leaf(name, None) => name
    case Leaf(name, Some(v)) => name + "_" + IntToString(v)
    case AnyTrue(d) => "any_" + Identifier(d)
    case And(cs) => Join("&", seq(|cs|, i requires 0 <= i < |cs| => Identifier(cs[i])))
    case Or(cs) => Join("|", seq(|cs|, i requires 0 <= i < |cs| => Identifier(cs[i])))
    case Invert(d) => "~" + Repr(d)
  }

  /** `a & b`, `a | b` and `~a`: two-element And/Or lists, never flattened, and Invert. */
  function AndOf(a: Condition, b: Condition): (c: Condition)
    ensures c.And? && c.conditions == [a, b]
    ensures Identifier(c) == Identifier(a) + "&" + Identifier(b)
  {
    var c := And([a, b]);
    assert seq(2, i requires 0 <= i < 2 => Identifier([a, b][i])) == [Identifier(a), Identifier(b)];
    JoinTwo("&", Identifier(a), Identifier(b));
    c
  }

  function OrOf(a: Condition, b: Condition): (c: Condition)
    ensures c.Or? && c.conditions == [a, b]
    ensures Identifier(c) == Identifier(a) + "|" + Identifier(b)
  {
    var c := Or([a, b]);
    assert seq(2, i requires 0 <= i < 2 => Identifier([a, b][i])) == [Identifier(a), Identifier(b)];
    JoinTwo("|", Identifier(a), Identifier(b));
    c
  }

  function InvertOf(a: Condition): (c: Condition)
    ensures c == Invert(a)
    ensures Identifier(c) == "~" + Repr(a)
  {
    Invert(a)
  }

  // ---------------------------------------------------------------------
  // Status arithmetic
  // ---------------------------------------------------------------------

  datatype Op = AndOp | OrOp {
    function Apply(a: bool, b: bool): bool {
      if this == AndOp then a && b else a || b
    }
    /** The value numpy's reduce gives an empty list. */
    function Identity(): bool {
      this == AndOp
    }
  }

  /** A left fold of op over bs: true iff all hold (AndOp) or any holds (OrOp). */
  function Fold(op: Op, bs: seq<bool>): (r: bool)
    ensures op == AndOp ==> (r <==> forall j :: 0 <= j < |bs| ==> bs[j])
    ensures op == OrOp ==> (r <==> exists j :: 0 <= j < |bs| && bs[j])
  {
    if bs == [] then op.Identity()
    else
      var r0 := Fold(op, bs[..|bs| - 1]);
      assert forall j :: 0 <= j < |bs| - 1 ==> bs[..|bs| - 1][j] == bs[j];
      op.Apply(r0, bs[|bs| - 1])
  }

  /** Every status is a vector of width n. */
  predicate AllVectors(ss: seq<Status>, n: nat) {
    forall j :: 0 <= j < |ss| ==> ss[j].Vector? && |ss[j].bits| == n
  }

  /** The statuses as scalars, when all of them are. */
  function ScalarsOf(ss: seq<Status>): (bs: seq<bool>)
    requires forall j :: 0 <= j < |ss| ==> ss[j].Scalar?
    ensures |bs| == |ss| && forall j :: 0 <= j < |ss| ==> bs[j] == ss[j].b
  {
    seq(|ss|, j requires 0 <= j < |ss| => ss[j].b)
  }

  /** Column k of vectors of width n. */
  function ColumnOf(ss: seq<Status>, n: nat, k: nat): (bs: seq<bool>)
    requires AllVectors(ss, n) && k < n
    ensures |bs| == |ss| && forall j :: 0 <= j < |ss| ==> bs[j] == ss[j].bits[k]
  {
    seq(|ss|, j requires 0 <= j < |ss| => ss[j].bits[k])
  }

  /**
   * `np.logical_and.reduce` / `np.logical_or.reduce` of a list of
   * statuses: the identity for an empty list, a scalar for scalars, an
   * element-wise vector for vectors of one width, and a ValueError for a
   * list numpy cannot stack.
   */
  function Reduce(op: Op, ss: seq<Status>): (r: Result<Status>)
    ensures ss == [] ==> r == Ok(Scalar(op.Identity()))
    ensures ss != [] && (forall j :: 0 <= j < |ss| ==> ss[j].Scalar?) ==>
      r.Ok? && r.value.Scalar? && r.value.b == Fold(op, ScalarsOf(ss))
    ensures ss != [] && ss[0].Vector? && AllVectors(ss, |ss[0].bits|) ==>
      r.Ok? && r.value.Vector? && |r.value.bits| == |ss[0].bits|
      && forall k :: 0 <= k < |ss[0].bits| ==> r.value.bits[k] == Fold(op, ColumnOf(ss, |ss[0].bits|, k))
    ensures r.Ok? <==> ss == [] || (forall j :: 0 <= j < |ss| ==> ss[j].Scalar?) || (ss[0].Vector? && AllVectors(ss, |ss[0].bits|))
  {
    if ss == [] then Ok(Scalar(op.Identity()))
    else if forall j :: 0 <= j < |ss| ==> ss[j].Scalar? then Ok(Scalar(Fold(op, ScalarsOf(ss))))
    else if ss[0].Vector? && AllVectors(ss, |ss[0].bits|) then
      var n := |ss[0].bits|;
      Ok(Vector(seq(n, k requires 0 <= k < n => Fold(op, ColumnOf(ss, n, k)))))
    else Err(ValueError("setting an array element with a sequence"))
  }

  /** `np.invert` on bools: element-wise not. */
  function Not(s: Status): (r: Status)
    ensures r.Scalar? == s.Scalar?
    ensures s.Scalar? ==> r.b == !s.b
    ensures s.Vector? ==> |r.bits| == |s.bits| && forall k :: 0 <= k < |s.bits| ==> r.bits[k] == !s.bits[k]
  {
    match s
    case Scalar(b) => Scalar(!b)
    case Vector(bits) => Vector(seq(|bits|, k requires 0 <= k < |bits| => !bits[k]))
  }

  /** Inverting twice gives the status back. */
  lemma NotNot(s: Status)
    ensures Not(Not(s)) == s
  {
    if s.Vector? {
      assert Not(Not(s)).bits == s.bits;
    }
  }

  /** `np.any`: a scalar, true iff some element is true. */
  function AnyOf(s: Status): (r: Status)
    ensures r.Scalar?
    ensures s.Scalar? ==> r.b == s.b
    ensures s.Vector? ==> (r.b <==> exists k :: 0 <= k < |s.bits| && s.bits[k])
  {
    match s
    case Scalar(b) => Scalar(b)
    case Vector(bits) => Scalar(Fold(OrOp, bits))
  }

  // ---------------------------------------------------------------------
  // Reference semantics, without a memo
  // ---------------------------------------------------------------------

  /** What a condition evaluates to when nothing is cached. */
  function Eval(c: Condition, leaf: LeafCheck): Result<Status>
    decreases c, 1
  {
    match c
    case Leaf(name, v) => Ok(leaf(name, v))
    case AnyTrue(d) =>
      var r := Eval(d, leaf);
      if r.Err? then r else Ok(AnyOf(r.value))
    case And(cs) =>
      var rs := EvalAll(cs, leaf);
      if rs.Err? then Err(rs.error) else Reduce(AndOp, rs.value)
    case Or(cs) =>
      var rs := EvalAll(cs, leaf);
      if rs.Err? then Err(rs.error) else Reduce(OrOp, rs.value)
    case Invert(d) =>
      var r := Eval(d, leaf);
      if r.Err? then r else Ok(Not(r.value))
  }

  /** The children's values in order, stopping at the first error. */
  function EvalAll(cs: seq<Condition>, leaf: LeafCheck): Result<seq<Status>>
    decreases cs, 0
  {
    if cs == [] then Ok([])
    else
      var prev := EvalAll(cs[..|cs| - 1], leaf);
      if prev.Err? then prev
      else
        var r := Eval(cs[|cs| - 1], leaf);
        if r.Err? then Err(r.error) else Ok(prev.value + [r.value])
  }

  // ---------------------------------------------------------------------
  // The memo, keyed by a key function
  // ---------------------------------------------------------------------

  /** Every entry of the old memo is still there, unchanged. */
  ghost predicate Extends<K>(before: map<K, Status>, after: map<K, Status>) {
    forall k :: k in before ==> k in after && after[k] == before[k]
  }

  /**
   * ConditionKeeper.get_status with the memo keyed by key(c): a hit
   * returns the stored status without checking; a miss checks once and
   * stores the result under key(c). Entries already in the memo are never
   * changed.
   */
  function StatusOf<K(==)>(key: Condition -> K, c: Condition, leaf: LeafCheck, memo: map<K, Status>)
    : (out: (Result<Status>, map<K, Status>))
    decreases c, 2
    ensures Extends(memo, out.1)
    ensures key(c) in memo ==> out == (Ok(memo[key(c)]), memo)
    ensures key(c) !in memo ==> out.0 == CheckOf(key, c, leaf, memo).0
    ensures out.0.Ok? ==> key(c) in out.1 && out.1[key(c)] == out.0.value
  {
    var k := key(c);
    if k in memo then (Ok(memo[k]), memo)
    else
      var (r, m) := CheckOf(key, c, leaf, memo);
      if r.Err? then (r, m) else (r, m[k := r.value])
  }

  /**
   * The `check` methods. And/Or reduce the children's statuses obtained
   * through the keeper; Invert negates the child's status obtained through
   * the keeper; AnyTrue calls the child's `check` directly, bypassing the
   * memo for the child itself.
   */
  function CheckOf<K(==)>(key: Condition -> K, c: Condition, leaf: LeafCheck, memo: map<K, Status>)
    : (out: (Result<Status>, map<K, Status>))
    decreases c, 1
    ensures Extends(memo, out.1)
  {
    match c
    case Leaf(name, v) => (Ok(leaf(name, v)), memo)
    case AnyTrue(d) =>
      var (r, m) := CheckOf(key, d, leaf, memo);
      (if r.Err? then r else Ok(AnyOf(r.value)), m)
    case And(cs) =>
      var (rs, m) := StatusesOf(key, cs, leaf, memo);
      (if rs.Err? then Err(rs.error) else Reduce(AndOp, rs.value), m)
    case Or(cs) =>
      var (rs, m) := StatusesOf(key, cs, leaf, memo);
      (if rs.Err? then Err(rs.error) else Reduce(OrOp, rs.value), m)
    case Invert(d) =>
      var (r, m) := StatusOf(key, d, leaf, memo);
      (if r.Err? then r else Ok(Not(r.value)), m)
  }

  /** `[keeper.get_status(cond) for cond in conditions]`, stopping at the first error. */
  function StatusesOf<K(==)>(key: Condition -> K, cs: seq<Condition>, leaf: LeafCheck, memo: map<K, Status>)
    : (out: (Result<seq<Status>>, map<K, Status>))
    decreases cs, 0
    ensures Extends(memo, out.1)
    ensures out.0.Ok? ==> |out.0.value| == |cs|
  {
    if cs == [] then (Ok([]), memo)
    else
      var (prev, m) := StatusesOf(key, cs[..|cs| - 1], leaf, memo);
      if prev.Err? then (prev, m)
      else
        var (r, m2) := StatusOf(key, cs[|cs| - 1], leaf, m);
        if r.Err? then (Err(r.error), m2) else (Ok(prev.value + [r.value]), m2)
  }

  /** Once a prefix of the children fails, the whole list fails the same way. */
  lemma {:induction false} StatusesStopAtError<K>(key: Condition -> K, cs: seq<Condition>, j: nat,
                                                     leaf: LeafCheck, memo: map<K, Status>)
    requires j <= |cs|
    requires StatusesOf(key, cs[..j], leaf, memo).0.Err?
    ensures StatusesOf(key, cs, leaf, memo) == StatusesOf(key, cs[..j], leaf, memo)
    decreases |cs| - j
  {
    if j < |cs| {
      var prefix := cs[..|cs| - 1];
      assert prefix[..j] == cs[..j];
      StatusesStopAtError(key, prefix, j, leaf, memo);
    } else {
      assert cs[..j] == cs;
    }
  }

  // ---------------------------------------------------------------------
  // A memo keyed by the condition itself is transparent
  // ---------------------------------------------------------------------

  /** Every cached status is what its key's conditions evaluate to. */
  ghost predicate Coherent<K>(key: Condition -> K, memo: map<K, Status>, leaf: LeafCheck) {
    forall c :: key(c) in memo ==> Eval(c, leaf) == Ok(memo[key(c)])
  }

  ghost predicate Injective<K>(key: Condition -> K) {
    forall c1, c2 :: key(c1) == key(c2) ==> c1 == c2
  }

  /** The key that tells every two conditions apart. */
  function Itself(c: Condition): Condition {
    c
  }

  lemma ItselfInjective()
    ensures Injective(Itself)
  {
  }

  lemma {:induction false} GetStatusTransparent<K>(key: Condition -> K, c: Condition, leaf: LeafCheck, memo: map<K, Status>)
    requires Injective(key) && Coherent(key, memo, leaf)
    ensures StatusOf(key, c, leaf, memo).0 == Eval(c, leaf)
    ensures Coherent(key, StatusOf(key, c, leaf, memo).1, leaf)
    decreases c, 2
  {
    if key(c) !in memo {
      CheckTransparent(key, c, leaf, memo);
      var (r, m) := CheckOf(key, c, leaf, memo);
      if r.Ok? {
        var m' := m[key(c) := r.value];
        forall d | key(d) in m'
          ensures Eval(d, leaf) == Ok(m'[key(d)])
        {
          if key(d) == key(c) {
            assert d == c;
          }
        }
      }
    }
  }

  lemma {:induction false} CheckTransparent<K>(key: Condition -> K, c: Condition, leaf: LeafCheck, memo: map<K, Status>)
    requires Injective(key) && Coherent(key, memo, leaf)
    ensures CheckOf(key, c, leaf, memo).0 == Eval(c, leaf)
    ensures Coherent(key, CheckOf(key, c, leaf, memo).1, leaf)
    decreases c, 1
  {
    match c
    case Leaf(_, _) =>
    case AnyTrue(d) => CheckTransparent(key, d, leaf, memo);
    case And(cs) => StatusesTransparent(key, cs, leaf, memo);
    case Or(cs) => StatusesTransparent(key, cs, leaf, memo);
    case Invert(d) => GetStatusTransparent(key, d, leaf, memo);
  }

  lemma {:induction false} StatusesTransparent<K>(key: Condition -> K, cs: seq<Condition>, leaf: LeafCheck, memo: map<K, Status>)
    requires Injective(key) && Coherent(key, memo, leaf)
    ensures StatusesOf(key, cs, leaf, memo).0 == EvalAll(cs, leaf)
    ensures Coherent(key, StatusesOf(key, cs, leaf, memo).1, leaf)
    decreases cs, 0
  {
    if cs != [] {
      var prefix := cs[..|cs| - 1];
      StatusesTransparent(key, prefix, leaf, memo);
      var (prev, m) := StatusesOf(key, prefix, leaf, memo);
      if prev.Ok? {
        GetStatusTransparent(key, cs[|cs| - 1], leaf, m);
      }
    }
  }

  /**
   * The memo keyed by the condition itself: starting from a memo that
   * agrees with Eval, every status it returns is the condition's value, and
   * the memo keeps agreeing with Eval.
   */
  lemma KeyedMemoIsTransparent(c: Condition, leaf: LeafCheck, memo: map<Condition, Status>)
    requires Coherent(Itself, memo, leaf)
    ensures StatusOf(Itself, c, leaf, memo).0 == Eval(c, leaf)
    ensures Coherent(Itself, StatusOf(Itself, c, leaf, memo).1, leaf)
  {
    ItselfInjective();
    GetStatusTransparent(Itself, c, leaf, memo);
  }

  // ---------------------------------------------------------------------
  // The memo as written, keyed by identifier
  // ---------------------------------------------------------------------

  /**
   * Identifiers carry no parentheses: `a | (b & c)` and `(a | b) & c`
   * share the identifier "A|B&C". With A true and B, C false the first is
   * true and the second false, yet once the first is cached the keeper
   * returns true for the second.
   */
  lemma IdentifierCollision(a: Condition, b: Condition, c: Condition, leaf: LeafCheck)
    requires a == Leaf("A", None) && b == Leaf("B", None) && c == Leaf("C", None)
    requires leaf("A", None) == Scalar(true) && leaf("B", None) == Scalar(false) && leaf("C", None) == Scalar(false)
    ensures var first, second := OrOf(a, AndOf(b, c)), AndOf(OrOf(a, b), c);
      && first != second
      && Identifier(first) == Identifier(second)
      && Eval(first, leaf) == Ok(Scalar(true))
      && Eval(second, leaf) == Ok(Scalar(false))
      && StatusOf(Identifier, second, leaf, StatusOf(Identifier, first, leaf, map[]).1).0 == Ok(Scalar(true))
  {
    var bc := AndOf(b, c);
    var first, second := OrOf(a, bc), AndOf(OrOf(a, b), c);
    assert Identifier(first) == "A|B&C";
    assert Identifier(second) == "A|B&C";
    EvalTwo(AndOp, b, c, leaf);
    EvalTwo(OrOp, a, bc, leaf);
    EvalTwo(OrOp, a, b, leaf);
    EvalTwo(AndOp, OrOf(a, b), c, leaf);
    KeeperRunsFirst(a, b, c, leaf);
    var m := StatusOf(Identifier, first, leaf, map[]).1;
    assert Identifier(second) in m && m[Identifier(second)] == Scalar(true);
  }

  /** The keeper run on `a | (b & c)` from an empty memo: no two of its parts share an identifier. */
  lemma KeeperRunsFirst(a: Condition, b: Condition, c: Condition, leaf: LeafCheck)
    requires a == Leaf("A", None) && b == Leaf("B", None) && c == Leaf("C", None)
    requires leaf("A", None) == Scalar(true) && leaf("B", None) == Scalar(false) && leaf("C", None) == Scalar(false)
    ensures StatusOf(Identifier, OrOf(a, AndOf(b, c)), leaf, map[]).0 == Ok(Scalar(true))
  {
    var bc := AndOf(b, c);
    var first := OrOf(a, bc);
    var m0: map<string, Status> := map[];
    var m1 := m0["A" := Scalar(true)];
    assert StatusOf(Identifier, a, leaf, m0) == (Ok(Scalar(true)), m1);
    KeeperRunsSecondPart(b, c, leaf, m1);
    var m2 := StatusOf(Identifier, bc, leaf, m1).1;
    StatusesPair(Identifier, a, bc, leaf, m0);
    assert StatusesOf(Identifier, first.conditions, leaf, m0) == (Ok([Scalar(true), Scalar(false)]), m2);
    ReduceTwoScalars(OrOp, true, false);
    assert CheckOf(Identifier, first, leaf, m0).0 == Ok(Scalar(true));
  }

  /** The keeper run on `b & c` against the memo left by `a`. */
  lemma KeeperRunsSecondPart(b: Condition, c: Condition, leaf: LeafCheck, m1: map<string, Status>)
    requires b == Leaf("B", None) && c == Leaf("C", None)
    requires leaf("B", None) == Scalar(false) && leaf("C", None) == Scalar(false)
    requires m1 == map["A" := Scalar(true)]
    ensures StatusOf(Identifier, AndOf(b, c), leaf, m1).0 == Ok(Scalar(false))
  {
    var bc := AndOf(b, c);
    var m2 := m1["B" := Scalar(false)];
    assert StatusOf(Identifier, b, leaf, m1) == (Ok(Scalar(false)), m2);
    var m3 := m2["C" := Scalar(false)];
    assert StatusOf(Identifier, c, leaf, m2) == (Ok(Scalar(false)), m3);
    StatusesPair(Identifier, b, c, leaf, m1);
    ReduceTwoScalars(AndOp, false, false);
    assert CheckOf(Identifier, bc, leaf, m1).0 == Ok(Scalar(false));
    assert Identifier(bc) == "B&C";
  }

  /** The keeper's statuses of two children: the first child's, then the second's against the grown memo. */
  lemma StatusesPair<K>(key: Condition -> K, x: Condition, y: Condition, leaf: LeafCheck, memo: map<K, Status>)
    ensures var (r1, m1) := StatusOf(key, x, leaf, memo);
      var (r2, m2) := StatusOf(key, y, leaf, m1);
      StatusesOf(key, [x, y], leaf, memo)
        == if r1.Err? then (Err(r1.error), m1)
           else if r2.Err? then (Err(r2.error), m2)
           else (Ok([r1.value, r2.value]), m2)
  {
    assert [x, y][..1] == [x];
    assert [x][..0] == [];
    var (r1, m1) := StatusOf(key, x, leaf, memo);
    var (r2, m2) := StatusOf(key, y, leaf, m1);
    if r1.Ok? && r2.Ok? {
      assert [] + [r1.value] == [r1.value];
      assert [r1.value] + [r2.value] == [r1.value, r2.value];
    }
    assert StatusesOf(key, [], leaf, memo) == (Ok([]), memo);
    assert StatusesOf(key, [x], leaf, memo) == if r1.Err? then (Err(r1.error), m1) else (Ok([r1.value]), m1);
  }

  /** Reducing two scalars applies op to them. */
  lemma ReduceTwoScalars(op: Op, p: bool, q: bool)
    ensures Reduce(op, [Scalar(p), Scalar(q)]) == Ok(Scalar(op.Apply(p, q)))
  {
    var ss := [Scalar(p), Scalar(q)];
    assert ScalarsOf(ss) == [p, q];
    assert [p, q][..1] == [p];
    assert [p][..0] == [];
  }

  /** A two-child And/Or of scalar-valued children evaluates to op applied to their values. */
  lemma EvalTwo(op: Op, x: Condition, y: Condition, leaf: LeafCheck)
    requires Eval(x, leaf).Ok? && Eval(x, leaf).value.Scalar?
    requires Eval(y, leaf).Ok? && Eval(y, leaf).value.Scalar?
    ensures var c := if op == AndOp then And([x, y]) else Or([x, y]);
      Eval(c, leaf) == Ok(Scalar(op.Apply(Eval(x, leaf).value.b, Eval(y, leaf).value.b)))
  {
    var cs := [x, y];
    assert cs[..1] == [x];
    assert [x][..0] == [];
    var p, q := Eval(x, leaf).value.b, Eval(y, leaf).value.b;
    assert Eval(x, leaf) == Ok(Scalar(p)) && Eval(y, leaf) == Ok(Scalar(q));
    assert EvalAll([], leaf) == Ok([]);
    assert [] + [Scalar(p)] == [Scalar(p)];
    assert [Scalar(p)] + [Scalar(q)] == [Scalar(p), Scalar(q)];
    assert EvalAll([x], leaf) == Ok([Scalar(p)]);
    assert EvalAll(cs, leaf) == Ok([Scalar(p), Scalar(q)]);
    ReduceTwoScalars(op, p, q);
  }

  // ---------------------------------------------------------------------
  // The keeper object
  // ---------------------------------------------------------------------

  /** ConditionKeeper: the memo is a dictionary from identifier to status. */
  class ConditionKeeper {
    var statusMemo: map<string, Status>

    constructor ()
      ensures statusMemo == map[]
    {
      statusMemo := map[];
    }

    method GetStatus(c: Condition, leaf: LeafCheck) returns (r: Result<Status>)
      modifies this
      decreases c, 2
      ensures (r, statusMemo) == StatusOf(Identifier, c, leaf, old(statusMemo))
    {
      var id := Identifier(c);
      if id in statusMemo {
        return Ok(statusMemo[id]);
      }
      r := Check(c, leaf);
      if r.Ok? {
        statusMemo := statusMemo[id := r.value];
      }
    }

    method Check(c: Condition, leaf: LeafCheck) returns (r: Result<Status>)
      modifies this
      decreases c, 1
      ensures (r, statusMemo) == CheckOf(Identifier, c, leaf, old(statusMemo))
    {
      match c
      case Leaf(name, v) =>
        r := Ok(leaf(name, v));
      case AnyTrue(d) =>
        r := Check(d, leaf);
        if r.Ok? {
          r := Ok(AnyOf(r.value));
        }
      case And(cs) =>
        var rs := Statuses(cs, leaf);
        r := if rs.Err? then Err(rs.error) else Reduce(AndOp, rs.value);
      case Or(cs) =>
        var rs := Statuses(cs, leaf);
        r := if rs.Err? then Err(rs.error) else Reduce(OrOp, rs.value);
      case Invert(d) =>
        r := GetStatus(d, leaf);
        if r.Ok? {
          r := Ok(Not(r.value));
        }
    }

    /** The list comprehension over the children, in order. */
    method Statuses(cs: seq<Condition>, leaf: LeafCheck) returns (r: Result<seq<Status>>)
      modifies this
      decreases cs, 0
      ensures (r, statusMemo) == StatusesOf(Identifier, cs, leaf, old(statusMemo))
    {
      ghost var memo0 := statusMemo;
      var acc: seq<Status> := [];
      assert cs[..0] == [];
      for k := 0 to |cs|
        invariant (Ok(acc), statusMemo) == StatusesOf(Identifier, cs[..k], leaf, memo0)
      {
        assert cs[..k + 1][..k] == cs[..k];
        var s := GetStatus(cs[k], leaf);
        if s.Err? {
          StatusesStopAtError(Identifier, cs, k + 1, leaf, memo0);
          return Err(s.error);
        }
        acc := acc + [s.value];
      }
      assert cs[..|cs|] == cs;
      return Ok(acc);
    }
  }
}

=== FILE: default_board.dfy ===
/**
 * modeling/catan/game_loading/default_board.py: the conversion of a
 * HexBoard's tiles into game tiles, and the passes that give every tile its
 * environment and rewrite the connections of the trade (sea) hexes.
 *
 * The passes are nested functions of make_default_board that mutate the
 * list `tile_data` in place; here `tile_data` is an array of tile records
 * and each pass is a method over it.
 */
module DefaultBoard {
  import opened Wrappers
  import opened Tools
  import opened Tiles
  import opened CatanObjects
  import opened Calculations
  import opened HexGeometry
  import opened HexTables
  import opened BoardLayout
  import opened BoardMaker
  import opened BoardTiles

  /** TILE_TYPE_CONV: every tile type has a space, and a path type becomes Path. */
  function SpaceOf(t: TileType): (s: Space)
    ensures s != Space.Null
    ensures s == Space.Hex <==> t == TileType.Hex
    ensures s == Space.Intersection <==> t == TileType.Intersection
    ensures s == Space.Path <==> t.IsPath()
  {
    match t
    case Hex => Space.Hex
    case Intersection => Space.Intersection
    case PathVertical => Space.Path
    case PathSlopedL => Space.Path
    case PathSlopedR => Space.Path
  }

  /** OBJECT_DEFAULTS: KeyError for the Null space, which the table lacks. */
  function ObjectDefault(s: Space): (r: Result<BoardObject>)
    ensures r.Err? <==> s == Space.Null
    ensures r.Err? ==> r.error == KeyError
    ensures r.Ok? ==> r.value.Code() == 0
    ensures s == Space.Hex ==> r == Ok(TerrainObject(NoTerrain))
    ensures s == Space.Intersection || s == Space.Path ==> r == Ok(BuildingObject(NoBuilding))
  {
    match s
    case Hex => Ok(TerrainObject(NoTerrain))
    case Intersection => Ok(BuildingObject(NoBuilding))
    case Path => Ok(BuildingObject(NoBuilding))
    case Null => Err(KeyError)
  }

  /** ConvertedTile, with the object that __post_init__ fills in. */
  datatype ConvertedTile = ConvertedTile(
    index: int,
    space: Space,
    connections: seq<nat>,
    loc: Loc,
    chitValue: int,
    env: Environment,
    obj: BoardObject)

  /** ConvertedTile(index, space, connections, loc): the defaults, or KeyError from __post_init__. */
  function NewConvertedTile(index: int, space: Space, connections: seq<nat>, loc: Loc): (r: Result<ConvertedTile>)
    ensures r.Err? <==> space == Space.Null
    ensures r.Ok? ==> r.value.index == index && r.value.space == space
    ensures r.Ok? ==> r.value.connections == connections && r.value.loc == loc
    ensures r.Ok? ==> r.value.chitValue == 0 && r.value.env == Land && r.value.obj.Code() == 0
    ensures r.Ok? && space == Space.Hex ==> r.value.obj == TerrainObject(NoTerrain)
    ensures r.Ok? && space != Space.Hex ==> r.value.obj == BuildingObject(NoBuilding)
  {
    match ObjectDefault(space)
    case Ok(o) => Ok(ConvertedTile(index, space, connections, loc, 0, Land, o))
    case Err(e) => Err(e)
  }

  // ---------------------------------------------------------------------
  // sorted(tile.connections)

  predicate StrictlyAscending(s: seq<nat>) {
    forall i, j :: 0 <= i < j < |s| ==> s[i] < s[j]
  }

  /** m is the least member of s. */
  predicate IsLeast(m: nat, s: set<nat>) {
    m in s && forall z :: z in s ==> m <= z
  }

  lemma {:induction false} LeastExists(s: set<nat>)
    requires s != {}
    ensures exists m :: IsLeast(m, s)
    decreases |s|
  {
    var x :| x in s;
    var rest := s - {x};
    var least := x;
    if rest != {} {
      LeastExists(rest);
      var m :| IsLeast(m, rest);
      least := if x < m then x else m;
    }
    forall z | z in s
      ensures least <= z
    {
      if z != x {
        assert z in rest;
      }
    }
    assert IsLeast(least, s);
  }

  /** The least member of a non-empty set of indices. */
  function Least(s: set<nat>): (m: nat)
    requires s != {}
    ensures IsLeast(m, s)
  {
    LeastExists(s);
    var m :| IsLeast(m, s);
    m
  }

  /** `sorted` of a set of indices: its members in increasing order. */
  function SortedIndices(s: set<nat>): (r: seq<nat>)
    ensures |r| == |s|
    ensures forall x :: x in r <==> x in s
    decreases |s|
  {
    if s == {} then []
    else [Least(s)] + SortedIndices(s - {Least(s)})
  }

  /** The result of `sorted` is strictly increasing. */
  lemma {:induction false} SortedIndicesAscending(s: set<nat>)
    ensures StrictlyAscending(SortedIndices(s))
    decreases |s|
  {
    if s != {} {
      var m := Least(s);
      var rest := SortedIndices(s - {m});
      SortedIndicesAscending(s - {m});
      forall k | 0 <= k < |rest|
        ensures m < rest[k]
      {
        assert rest[k] in s - {m};
      }
      AscendingCons(m, rest);
      assert SortedIndices(s) == [m] + rest;
    }
  }

  /** A value below every member of an ascending sequence can go in front of it. */
  lemma AscendingCons(m: nat, rest: seq<nat>)
    requires StrictlyAscending(rest)
    requires forall k :: 0 <= k < |rest| ==> m < rest[k]
    ensures StrictlyAscending([m] + rest)
  {
    var s := [m] + rest;
    forall i, j | 0 <= i < j < |s|
      ensures s[i] < s[j]
    {
      assert s[j] == rest[j - 1];
      if 0 < i {
        assert s[i] == rest[i - 1];
      }
    }
  }

  lemma FirstIsMember(s: seq<nat>)
    ensures s != [] ==> s[0] in s
  {
  }

  /** Two strictly ascending sequences with the same members are equal. */
  lemma {:induction false} AscendingUnique(a: seq<nat>, b: seq<nat>)
    requires StrictlyAscending(a) && StrictlyAscending(b)
    requires forall x :: x in a <==> x in b
    ensures a == b
  {
    if a != [] && b != [] {
      assert a[0] == b[0] by {
        assert b[0] in a;
        assert a[0] in b;
      }
      forall x ensures x in a[1..] <==> x in b[1..] {
        if x in a[1..] {
          assert x in b && x != b[0];
        }
        if x in b[1..] {
          assert x in a && x != a[0];
        }
      }
      AscendingUnique(a[1..], b[1..]);
      assert a == [a[0]] + a[1..] && b == [b[0]] + b[1..];
    } else {
      FirstIsMember(a);
      FirstIsMember(b);
    }
  }

  /** Sorting the members of a strictly ascending listing gives the listing back. */
  lemma SortedOfAscending(s: seq<nat>, xs: set<nat>)
    requires StrictlyAscending(s)
    requires forall x :: x in s <==> x in xs
    ensures SortedIndices(xs) == s
  {
    SortedIndicesAscending(xs);
    AscendingUnique(SortedIndices(xs), s);
  }

  /** The list comprehension that builds tile_data from hb.tiles. */
  function Convert(tile: TileInfo): (c: ConvertedTile)
    ensures NewConvertedTile(tile.index, SpaceOf(tile.tileType), SortedIndices(tile.connections), tile.loc) == Ok(c)
  {
    NewConvertedTile(tile.index, SpaceOf(tile.tileType), SortedIndices(tile.connections), tile.loc).value
  }

  // ---------------------------------------------------------------------
  // The slots of a hex's sorted connection list

  /** ISEC_CONNS_READING_ORDER: slot s of a sorted hex holds corner ReadingOrder[s] of its placement. */
  const ReadingOrder: seq<nat> := [0, 5, 1, 4, 2, 3]

  /**
   * Corners 0..5 of a placed hex lie N, NE, SE, S, SW and NW of its centre
   * (y grows downwards), so ReadingOrder lists them as N, NW, NE, SW, SE, S.
   */
  predicate CornersByCompass(p: Placement) {
    var z, c := p.centre, p.isecs;
    && c[0].x == z.x && c[0].y < z.y
    && c[1].y < z.y && c[1].x > z.x
    && c[2].y > z.y && c[2].x > z.x
    && c[3].x == z.x && c[3].y > z.y
    && c[4].y > z.y && c[4].x < z.x
    && c[5].y < z.y && c[5].x < z.x
  }

  lemma UnitHexCompass(g: Layout, a: int, b: int)
    requires Unit(g) > 0
    ensures CornersByCompass(UnitHex(g, a, b))
  {
    var u := Unit(g);
    MulDistributes(a, -4, u);
    MulDistributes(a, -2, u);
    MulDistributes(a, 2, u);
    MulDistributes(a, 4, u);
    MulDistributes(b, -2, 2 * u);
    MulDistributes(b, 2, 2 * u);
  }

  /** Within the intersection group of tile_index, a smaller (y, x) pixel has the smaller index. */
  lemma IsecIndexMonotone(t: Tables, x: Loc, y: Loc)
    requires DisjointKeys(t) && x in t.isecs && y in t.isecs && LocLt(x, y)
    requires x in TileOrder(t) && y in TileOrder(t)
    ensures IndexOf(TileOrder(t), x) < IndexOf(TileOrder(t), y)
  {
    TileOrderGroups(t);
    TileOrderAscending(t);
    var order := TileOrder(t);
    var ix, iy := IndexOf(order, x), IndexOf(order, y);
    var nh, ni := |t.hexes.Keys|, |t.isecs.Keys|;
    assert nh <= ix < nh + ni && nh <= iy < nh + ni;
    assert ix != iy && !LocLt(y, x);
  }

  /** The indices in `order` of the corners c, taken in ReadingOrder: N, NW, NE, SW, SE, S. */
  function CornerIndices(order: seq<Loc>, c: seq<Loc>): (r: seq<nat>)
    requires |c| == 6 && forall j :: 0 <= j < 6 ==> c[j] in order
    ensures |r| == 6
    ensures forall s :: 0 <= s < 6 ==> r[s] == IndexOf(order, c[ReadingOrder[s]])
  {
    [IndexOf(order, c[0]), IndexOf(order, c[5]), IndexOf(order, c[1]),
     IndexOf(order, c[4]), IndexOf(order, c[2]), IndexOf(order, c[3])]
  }

  /** c[0] < c[5] < c[1] < c[4] < c[2] < c[3] in (y, x) order. */
  predicate CornerChain(c: seq<Loc>)
    requires |c| == 6
  {
    LocLt(c[0], c[5]) && LocLt(c[5], c[1]) && LocLt(c[1], c[4]) && LocLt(c[4], c[2]) && LocLt(c[2], c[3])
  }

  /** Corners in the chain order have increasing indices in tile_index. */
  lemma CornerIndicesAscending(t: Tables, c: seq<Loc>)
    requires DisjointKeys(t) && |c| == 6 && CornerChain(c)
    requires forall j :: 0 <= j < 6 ==> c[j] in t.isecs
    ensures forall j :: 0 <= j < 6 ==> c[j] in TileOrder(t)
    ensures StrictlyAscending(CornerIndices(TileOrder(t), c))
  {
    var order := TileOrder(t);
    TileOrderGroups(t);
    IsecIndexMonotone(t, c[0], c[5]);
    IsecIndexMonotone(t, c[5], c[1]);
    IsecIndexMonotone(t, c[1], c[4]);
    IsecIndexMonotone(t, c[4], c[2]);
    IsecIndexMonotone(t, c[2], c[3]);
    IndexChain(order, c);
  }

  /** Increasing indices along the chain make the ReadingOrder listing strictly ascending. */
  lemma IndexChain(order: seq<Loc>, c: seq<Loc>)
    requires |c| == 6 && forall j :: 0 <= j < 6 ==> c[j] in order
    requires IndexOf(order, c[0]) < IndexOf(order, c[5]) < IndexOf(order, c[1])
    requires IndexOf(order, c[1]) < IndexOf(order, c[4]) < IndexOf(order, c[2]) < IndexOf(order, c[3])
    ensures StrictlyAscending(CornerIndices(order, c))
  {
    var listing := CornerIndices(order, c);
    assert listing == [IndexOf(order, c[0]), IndexOf(order, c[5]), IndexOf(order, c[1]),
                       IndexOf(order, c[4]), IndexOf(order, c[2]), IndexOf(order, c[3])];
    AscendingSix(listing);
  }

  lemma AscendingSix(s: seq<nat>)
    requires |s| == 6 && s[0] < s[1] < s[2] < s[3] < s[4] < s[5]
    ensures StrictlyAscending(s)
  {
  }

  /** The six corners as a set. */
  function CornerSet(c: seq<Loc>): set<Loc>
    requires |c| == 6
  {
    set j | 0 <= j < 6 :: c[j]
  }

  /** The set of the six corners' indices, sorted, is the listing by ReadingOrder when that is ascending. */
  lemma SortedCorners(order: seq<Loc>, c: seq<Loc>)
    requires |c| == 6 && forall j :: 0 <= j < 6 ==> c[j] in order
    requires StrictlyAscending(CornerIndices(order, c))
    ensures forall v :: v in CornerSet(c) ==> v in order
    ensures SortedIndices(IndicesOf(order, CornerSet(c))) == CornerIndices(order, c)
  {
    var listing := CornerIndices(order, c);
    var conns := IndicesOf(order, CornerSet(c));
    forall x | x in conns
      ensures x in listing
    {
      var v :| v in CornerSet(c) && x == IndexOf(order, v);
      var j :| 0 <= j < 6 && c[j] == v;
      assert x == IndexOf(order, c[j]);
    }
    forall x | x in listing
      ensures x in conns
    {
      var s :| 0 <= s < 6 && listing[s] == x;
      assert s == 0 || s == 1 || s == 2 || s == 3 || s == 4 || s == 5;
      assert c[ReadingOrder[s]] in CornerSet(c);
    }
    SortedOfAscending(listing, conns);
  }

  /**
   * A hex tile whose table entry is the corners c, in increasing (y, x)
   * order when taken by ReadingOrder: sorting its connections gives the
   * indices of c in that order.
   */
  lemma HexSlots(t: Tables, tiles: seq<TileInfo>, i: nat, c: seq<Loc>)
    requires Indexed(t, tiles) && DisjointKeys(t) && i < |tiles| && tiles[i].loc in t.hexes
    requires |c| == 6 && Lookup(t.hexes, tiles[i].loc) == CornerSet(c)
    requires CornerChain(c)
    ensures forall j :: 0 <= j < 6 ==> c[j] in TileOrder(t)
    ensures SortedIndices(tiles[i].connections) == CornerIndices(TileOrder(t), c)
  {
    var loc := tiles[i].loc;
    var order := TileOrder(t);
    assert IndexedTile(t, i, tiles[i]);
    MergedOwnTable(t, loc);
    assert Closed(t);
    forall j | 0 <= j < 6
      ensures c[j] in t.isecs
    {
      assert c[j] in Lookup(t.hexes, loc);
    }
    CornerIndicesAscending(t, c);
    SortedCorners(order, c);
    assert tiles[i].connections == IndicesOf(order, CornerSet(c));
  }

  /**
   * On a board whose hex size is at least 8, the connections of a hex tile,
   * once sorted, are the indices of the corners of its placement in the
   * order N, NW, NE, SW, SE, S: slot TOP is the N corner and slot BOT the S
   * corner.
   */
  lemma HexSlotsInReadingOrder(tiles: seq<TileInfo>, resolution: (int, int), nHexesY: int, nHexesX: int, i: nat)
    returns (k: nat)
    requires BuiltFrom(tiles, resolution, nHexesY, nHexesX) && i < |tiles|
    requires Unit(LayoutOf(resolution, nHexesY, nHexesX)) > 0
    requires tiles[i].tileType == TileType.Hex
    ensures var ps := BoardPlacements(LayoutOf(resolution, nHexesY, nHexesX));
      k < |ps| && ps[k].centre == tiles[i].loc && CornersByCompass(ps[k])
    ensures var p := BoardPlacements(LayoutOf(resolution, nHexesY, nHexesX))[k];
      var order := TileOrder(BoardTables(resolution, nHexesY, nHexesX));
      (forall j :: 0 <= j < 6 ==> p.isecs[j] in order) &&
      Convert(tiles[i]).connections == CornerIndices(order, p.isecs)
  {
    var g := LayoutOf(resolution, nHexesY, nHexesX);
    var ps := BoardPlacements(g);
    var t := BoardTables(resolution, nHexesY, nHexesX);
    BoardTablesFacts(resolution, nHexesY, nHexesX);
    TileKinds(t, tiles, i);
    HexTableMeaning(ps);
    k :| 0 <= k < |ps| && ps[k].centre == tiles[i].loc;
    var row, col := BoardHexInUnits(g, k);
    UnitHexCompass(g, 6 * row, 4 * col);
    SortedCornerOrder(g, 6 * row, 4 * col);
    HexEntryIsCorners(g, k);
    assert Lookup(t.hexes, tiles[i].loc) == CornerSet(ps[k].isecs);
    HexSlots(t, tiles, i, ps[k].isecs);
  }

  // ---------------------------------------------------------------------
  // HEX_ENVS and update_hex_environments

  const HexEnvs: seq<seq<Environment>> := [
    [Sea, Sea, Sea, Sea, Sea, Sea, Sea],
    [Sea, Sea, Land, Land, Land, Sea, Sea],
    [Sea, Sea, Land, Land, Land, Land, Sea],
    [Sea, Land, Land, Land, Land, Land, Sea],
    [Sea, Sea, Land, Land, Land, Land, Sea],
    [Sea, Sea, Land, Land, Land, Sea, Sea],
    [Sea, Sea, Sea, Sea, Sea, Sea, Sea]
  ]

  /** itertools.chain.from_iterable: the rows one after another. */
  const HexEnvsFlat: seq<Environment> := Flatten(HexEnvs)

  /** The flattened table has 49 entries, row r of HEX_ENVS at 7r..7r+6. */
  lemma HexEnvsFlatShape(r: nat, c: nat)
    requires r < 7 && c < 7
    ensures |HexEnvsFlat| == 49
    ensures HexEnvsFlat[7 * r + c] == HexEnvs[r][c]
  {
    FlattenLength(HexEnvs, 7);
    FlattenRowMajor(HexEnvs, 7, r, c);
  }

  /** The tiles after the hex pass has assigned the first n entries of HexEnvsFlat. */
  function HexPass(ts: seq<ConvertedTile>, n: nat): (r: seq<ConvertedTile>)
    requires n <= |HexEnvsFlat|
    ensures |r| == |ts|
  {
    seq(|ts|, i requires 0 <= i < |ts| => if i < n then ts[i].(env := HexEnvsFlat[i]) else ts[i])
  }

  /**
   * update_hex_environments: tile i gets entry i of the flattened HEX_ENVS,
   * and an IndexError stops the pass at the first index past the list.
   */
  method UpdateHexEnvironments(tileData: array<ConvertedTile>) returns (r: Outcome)
    modifies tileData
    ensures r.Pass? <==> tileData.Length >= |HexEnvsFlat|
    ensures r.Fail? ==> r.error == IndexError
    ensures tileData[..] == HexPass(old(tileData[..]), if r.Pass? then |HexEnvsFlat| else tileData.Length)
  {
    HexEnvsFlatShape(0, 0);
    var envs := HexEnvsFlat;
    var i := 0;
    while i < |envs|
      invariant 0 <= i <= |envs|
      invariant i <= tileData.Length
      invariant tileData[..] == HexPass(old(tileData[..]), i)
    {
      if i >= tileData.Length {
        return Fail(IndexError);
      }
      tileData[i] := tileData[i].(env := envs[i]);
      i := i + 1;
    }
    return Pass;
  }

  // ---------------------------------------------------------------------
  // get_connected_envs and the intersection and path passes

  /** Every connection of tile t is an index into ts. */
  predicate InRange(ts: seq<ConvertedTile>, t: ConvertedTile) {
    forall c :: c in t.connections ==> c < |ts|
  }

  /** get_connected_envs: the envs of the connected tiles of the given space, in connection order. */
  function ConnectedEnvs(ts: seq<ConvertedTile>, conns: seq<nat>, sp: Space): (envs: seq<Environment>)
    requires forall c :: c in conns ==> c < |ts|
    ensures forall e :: e in envs <==> exists c :: c in conns && ts[c].space == sp && ts[c].env == e
  {
    if conns == [] then []
    else
      assert conns[0] in conns;
      assert forall c :: c in conns <==> c == conns[0] || c in conns[1..];
      var rest := ConnectedEnvs(ts, conns[1..], sp);
      (if ts[conns[0]].space == sp then [ts[conns[0]].env] else []) + rest
  }

  /** get_connected_envs reads only the space of every tile and the env of the tiles of that space. */
  lemma {:induction false} ConnectedEnvsFrame(ts: seq<ConvertedTile>, us: seq<ConvertedTile>, conns: seq<nat>, sp: Space)
    requires |ts| == |us|
    requires forall c :: c in conns ==> c < |ts|
    requires forall j :: 0 <= j < |ts| ==> ts[j].space == us[j].space
    requires forall j :: 0 <= j < |ts| && ts[j].space == sp ==> ts[j].env == us[j].env
    ensures ConnectedEnvs(ts, conns, sp) == ConnectedEnvs(us, conns, sp)
  {
    if conns != [] {
      assert conns[0] in conns;
      assert forall c :: c in conns[1..] ==> c in conns;
      ConnectedEnvsFrame(ts, us, conns[1..], sp);
    }
  }

  /** The environment update_intersection_environments gives an intersection. */
  function IsecEnv(envs: seq<Environment>): (e: Environment)
    ensures e == Land <==> Sea !in envs
    ensures e == Sea <==> Sea in envs && Land !in envs
    ensures e == Coast <==> Sea in envs && Land in envs
  {
    if Sea !in envs then Land
    else if Land !in envs then Sea
    else Coast
  }

  /** The environment update_path_environments gives a path. */
  function PathEnv(envs: seq<Environment>): (e: Environment)
    ensures e == Land <==> Land in envs
    ensures e == Sea <==> Land !in envs && Sea in envs
    ensures e == Coast <==> Land !in envs && Sea !in envs
  {
    if Land in envs then Land
    else if Sea in envs then Sea
    else Coast
  }

  /** The first tile of space sp with a connection past the end of ts, or |ts|. */
  function FirstBad(ts: seq<ConvertedTile>, sp: Space): (k: nat)
    ensures k <= |ts|
    ensures forall i :: 0 <= i < k && ts[i].space == sp ==> InRange(ts, ts[i])
    ensures k < |ts| ==> ts[k].space == sp && !InRange(ts, ts[k])
  {
    FirstBadFrom(ts, sp, 0)
  }

  function FirstBadFrom(ts: seq<ConvertedTile>, sp: Space, from: nat): (k: nat)
    requires from <= |ts|
    ensures from <= k <= |ts|
    ensures forall i :: from <= i < k && ts[i].space == sp ==> InRange(ts, ts[i])
    ensures k < |ts| ==> ts[k].space == sp && !InRange(ts, ts[k])
    decreases |ts| - from
  {
    if from == |ts| then from
    else if ts[from].space == sp && !InRange(ts, ts[from]) then from
    else FirstBadFrom(ts, sp, from + 1)
  }

  /** Tile t handled by an environment pass that reads the envs of its neighbours of space `source`. */
  function Classified(ts: seq<ConvertedTile>, t: ConvertedTile, source: Space, isecPass: bool): ConvertedTile
    requires InRange(ts, t)
  {
    var envs := ConnectedEnvs(ts, t.connections, source);
    t.(env := if isecPass then IsecEnv(envs) else PathEnv(envs))
  }

  /**
   * The tiles after an environment pass has handled the first n of them: a
   * tile of space `target` is classified by its neighbours of space `source`.
   */
  function EnvPass(ts: seq<ConvertedTile>, n: nat, target: Space, source: Space, isecPass: bool): (r: seq<ConvertedTile>)
    requires n <= |ts|
    requires forall i :: 0 <= i < n && ts[i].space == target ==> InRange(ts, ts[i])
    ensures |r| == |ts|
  {
    seq(|ts|, i requires 0 <= i < |ts| =>
      if i < n && ts[i].space == target then Classified(ts, ts[i], source, isecPass) else ts[i])
  }

  /** The tiles after update_intersection_environments has handled the first n tiles. */
  function IsecPass(ts: seq<ConvertedTile>, n: nat): (r: seq<ConvertedTile>)
    requires n <= |ts|
    requires forall i :: 0 <= i < n && ts[i].space == Space.Intersection ==> InRange(ts, ts[i])
    ensures |r| == |ts|
  {
    EnvPass(ts, n, Space.Intersection, Space.Hex, true)
  }

  /** The tiles after update_path_environments has handled the first n tiles. */
  function PathPass(ts: seq<ConvertedTile>, n: nat): (r: seq<ConvertedTile>)
    requires n <= |ts|
    requires forall i :: 0 <= i < n && ts[i].space == Space.Path ==> InRange(ts, ts[i])
    ensures |r| == |ts|
  {
    EnvPass(ts, n, Space.Path, Space.Intersection, false)
  }

  /**
   * One step of an environment pass: tile n is classified reading the
   * current tiles, which agree with the original ones on everything the pass
   * reads, because the pass writes only tiles of the target space.
   */
  lemma EnvPassStep(ts: seq<ConvertedTile>, n: nat, target: Space, source: Space, isecPass: bool)
    requires target != source
    requires n < |ts|
    requires forall i :: 0 <= i <= n && ts[i].space == target ==> InRange(ts, ts[i])
    ensures var cur := EnvPass(ts, n, target, source, isecPass);
      cur[n] == ts[n] &&
      EnvPass(ts, n + 1, target, source, isecPass) ==
        if ts[n].space == target then cur[n := Classified(cur, ts[n], source, isecPass)] else cur
  {
    var cur := EnvPass(ts, n, target, source, isecPass);
    if ts[n].space == target {
      ConnectedEnvsFrame(ts, cur, ts[n].connections, source);
    }
  }

  /**
   * The loop shared by the intersection and path passes: every tile of space
   * `target` is classified by its neighbours of space `source`, and an
   * IndexError from a connection past the list stops the pass at that tile.
   */
  method UpdateEnvironments(tileData: array<ConvertedTile>, target: Space, source: Space, isecPass: bool) returns (r: Outcome)
    requires target != source
    modifies tileData
    ensures var k := FirstBad(old(tileData[..]), target);
      tileData[..] == EnvPass(old(tileData[..]), k, target, source, isecPass) &&
      (r.Pass? <==> k == tileData.Length)
    ensures r.Fail? ==> r.error == IndexError
  {
    ghost var ts := tileData[..];
    var i := 0;
    while i < tileData.Length
      invariant 0 <= i <= tileData.Length
      invariant i <= FirstBad(ts, target)
      invariant tileData[..] == EnvPass(ts, i, target, source, isecPass)
    {
      var ok := ClassifyNext(tileData, i, ts, target, source, isecPass);
      if !ok {
        return Fail(IndexError);
      }
      i := i + 1;
    }
    return Pass;
  }

  /**
   * One pass of the environment loop on tile i: a tile of another space is
   * skipped; a tile of space `target` with a connection past the list stops
   * the pass (false); otherwise it is classified.
   */
  method ClassifyNext(tileData: array<ConvertedTile>, i: nat, ghost ts: seq<ConvertedTile>,
                      target: Space, source: Space, isecPass: bool) returns (ok: bool)
    requires target != source
    requires i < tileData.Length == |ts| && i <= FirstBad(ts, target)
    requires tileData[..] == EnvPass(ts, i, target, source, isecPass)
    modifies tileData
    ensures ok ==> i < FirstBad(ts, target) && tileData[..] == EnvPass(ts, i + 1, target, source, isecPass)
    ensures !ok ==> i == FirstBad(ts, target) && tileData[..] == EnvPass(ts, i, target, source, isecPass)
  {
    var t := tileData[i];
    assert t == ts[i];
    if t.space != target {
      EnvPassStep(ts, i, target, source, isecPass);
      return true;
    }
    if !(forall c | c in t.connections :: c < tileData.Length) {
      return false;
    }
    EnvPassStep(ts, i, target, source, isecPass);
    var envs := ConnectedEnvs(tileData[..], t.connections, source);
    tileData[i] := t.(env := if isecPass then IsecEnv(envs) else PathEnv(envs));
    return true;
  }

  /** update_intersection_environments. */
  method UpdateIntersectionEnvironments(tileData: array<ConvertedTile>) returns (r: Outcome)
    modifies tileData
    ensures var k := FirstBad(old(tileData[..]), Space.Intersection);
      tileData[..] == IsecPass(old(tileData[..]), k) && (r.Pass? <==> k == tileData.Length)
    ensures r.Fail? ==> r.error == IndexError
  {
    r := UpdateEnvironments(tileData, Space.Intersection, Space.Hex, true);
  }

  /** update_path_environments. */
  method UpdatePathEnvironments(tileData: array<ConvertedTile>) returns (r: Outcome)
    modifies tileData
    ensures var k := FirstBad(old(tileData[..]), Space.Path);
      tileData[..] == PathPass(old(tileData[..]), k) && (r.Pass? <==> k == tileData.Length)
    ensures r.Fail? ==> r.error == IndexError
  {
    r := UpdateEnvironments(tileData, Space.Path, Space.Intersection, false);
  }

  // ---------------------------------------------------------------------
  // SEA_HEX_CONNECTIONS and update_sea_connections

  /** The slots of a hex's sorted connection list: TOP, TOP_L, TOP_R, BOT_L, BOT_R, BOT. */
  const Top: nat := 0
  const TopL: nat := 1
  const TopR: nat := 2
  const BotL: nat := 3
  const BotR: nat := 4
  const Bot: nat := 5

  /** Groups of three trade hexes and the two slots each of them keeps, in insertion order. */
  const SeaHexConnections: seq<(seq<nat>, seq<nat>)> := [
    ([2, 3, 8], [BotR, Bot]),
    ([4, 5, 12], [BotL, Bot]),
    ([20, 27, 34], [TopL, BotL]),
    ([40, 46, 47], [Top, TopL]),
    ([36, 44, 45], [Top, TopR]),
    ([15, 21, 29], [TopR, BotR])
  ]

  /** The (tile, slots) visits of the two nested loops over groups, in order. */
  function TargetsOf(groups: seq<(seq<nat>, seq<nat>)>): seq<(nat, seq<nat>)> {
    if groups == [] then []
    else seq(|groups[0].0|, k requires 0 <= k < |groups[0].0| => (groups[0].0[k], groups[0].1)) + TargetsOf(groups[1..])
  }

  /** Groups of three: visit 3g + k is tile k of group g, with the group's slots. */
  lemma {:induction false} TargetsOfGroups(groups: seq<(seq<nat>, seq<nat>)>, g: nat, k: nat)
    requires forall h :: 0 <= h < |groups| ==> |groups[h].0| == 3
    requires g < |groups| && k < 3
    ensures |TargetsOf(groups)| == 3 * |groups|
    ensures TargetsOf(groups)[3 * g + k] == (groups[g].0[k], groups[g].1)
  {
    var rest := groups[1..];
    assert forall h :: 0 <= h < |rest| ==> rest[h] == groups[h + 1];
    if g > 0 {
      TargetsOfGroups(rest, g - 1, k);
    } else if |rest| > 0 {
      TargetsOfGroups(rest, 0, 0);
    }
  }

  /** The visits of update_sea_connections. */
  const SeaTargets: seq<(nat, seq<nat>)> := TargetsOf(SeaHexConnections)

  /** The visits of update_sea_connections, written out one by one. */
  function SeaListing(): seq<(nat, seq<nat>)> {
    [(2, [BotR, Bot]), (3, [BotR, Bot]), (8, [BotR, Bot]),
     (4, [BotL, Bot]), (5, [BotL, Bot]), (12, [BotL, Bot]),
     (20, [TopL, BotL]), (27, [TopL, BotL]), (34, [TopL, BotL]),
     (40, [Top, TopL]), (46, [Top, TopL]), (47, [Top, TopL]),
     (36, [Top, TopR]), (44, [Top, TopR]), (45, [Top, TopR]),
     (15, [TopR, BotR]), (21, [TopR, BotR]), (29, [TopR, BotR])]
  }

  /** The nested loops over SEA_HEX_CONNECTIONS visit the groups' tiles in listed order. */
  lemma SeaTargetsListed()
    ensures SeaTargets == SeaListing()
  {
    TargetsOfGroups(SeaHexConnections, 0, 0); TargetsOfGroups(SeaHexConnections, 0, 1); TargetsOfGroups(SeaHexConnections, 0, 2);
    TargetsOfGroups(SeaHexConnections, 1, 0); TargetsOfGroups(SeaHexConnections, 1, 1); TargetsOfGroups(SeaHexConnections, 1, 2);
    TargetsOfGroups(SeaHexConnections, 2, 0); TargetsOfGroups(SeaHexConnections, 2, 1); TargetsOfGroups(SeaHexConnections, 2, 2);
    TargetsOfGroups(SeaHexConnections, 3, 0); TargetsOfGroups(SeaHexConnections, 3, 1); TargetsOfGroups(SeaHexConnections, 3, 2);
    TargetsOfGroups(SeaHexConnections, 4, 0); TargetsOfGroups(SeaHexConnections, 4, 1); TargetsOfGroups(SeaHexConnections, 4, 2);
    TargetsOfGroups(SeaHexConnections, 5, 0); TargetsOfGroups(SeaHexConnections, 5, 1); TargetsOfGroups(SeaHexConnections, 5, 2);
  }

  /** The 18 trade hexes are distinct, and each keeps two distinct slots of six. */
  lemma SeaTargetsShape()
    ensures |SeaTargets| == 18
    ensures DistinctTiles(SeaTargets)
    ensures forall j :: 0 <= j < 18 ==> |SeaTargets[j].1| == 2 && SeaTargets[j].1[0] != SeaTargets[j].1[1]
    ensures forall j, k :: 0 <= j < 18 && 0 <= k < 2 ==> SeaTargets[j].1[k] < 6
  {
    SeaTargetsListed();
    ListingShape(SeaListing());
  }

  lemma ListingShape(listed: seq<(nat, seq<nat>)>)
    requires listed == SeaListing()
    ensures |listed| == 18
    ensures DistinctTiles(listed)
    ensures forall j :: 0 <= j < 18 ==> |listed[j].1| == 2 && listed[j].1[0] != listed[j].1[1]
    ensures forall j, k :: 0 <= j < 18 && 0 <= k < 2 ==> listed[j].1[k] < 6
  {
  }

  /** `[c[k] for k in slots]`. */
  function Pick(c: seq<nat>, slots: seq<nat>): (r: seq<nat>)
    requires forall m :: 0 <= m < |slots| ==> slots[m] < |c|
    ensures |r| == |slots|
    ensures forall m :: 0 <= m < |slots| ==> r[m] == c[slots[m]]
  {
    seq(|slots|, m requires 0 <= m < |slots| => c[slots[m]])
  }

  /** Visit j raises no IndexError on the original tiles: its tile and both slots exist. */
  predicate SeaOk(targets: seq<(nat, seq<nat>)>, ts: seq<ConvertedTile>, j: nat)
    requires j < |targets|
  {
    targets[j].0 < |ts| &&
    forall m :: 0 <= m < |targets[j].1| ==> targets[j].1[m] < |ts[targets[j].0].connections|
  }

  /** The first visit that raises IndexError, or |targets|. */
  function FirstBadSea(targets: seq<(nat, seq<nat>)>, ts: seq<ConvertedTile>): (k: nat)
    ensures k <= |targets|
    ensures forall j :: 0 <= j < k ==> SeaOk(targets, ts, j)
    ensures k < |targets| ==> !SeaOk(targets, ts, k)
  {
    FirstBadSeaFrom(targets, ts, 0)
  }

  function FirstBadSeaFrom(targets: seq<(nat, seq<nat>)>, ts: seq<ConvertedTile>, from: nat): (k: nat)
    requires from <= |targets|
    ensures from <= k <= |targets|
    ensures forall j :: from <= j < k ==> SeaOk(targets, ts, j)
    ensures k < |targets| ==> !SeaOk(targets, ts, k)
    decreases |targets| - from
  {
    if from == |targets| then from
    else if !SeaOk(targets, ts, from) then from
    else FirstBadSeaFrom(targets, ts, from + 1)
  }

  /** A failing visit no later than the first failing one is the first failing one. */
  lemma FirstBadSeaAt(targets: seq<(nat, seq<nat>)>, ts: seq<ConvertedTile>, n: nat)
    requires n < |targets| && n <= FirstBadSea(targets, ts) && !SeaOk(targets, ts, n)
    ensures FirstBadSea(targets, ts) == n
  {
  }

  /** No two visits concern the same tile. */
  predicate DistinctTiles(targets: seq<(nat, seq<nat>)>) {
    forall a, b :: 0 <= a < b < |targets| ==> targets[a].0 != targets[b].0
  }

  /** The first of the first n visits that concerns tile i, or n when none does. */
  function VisitOf(targets: seq<(nat, seq<nat>)>, i: nat, n: nat): (j: nat)
    requires n <= |targets|
    ensures j <= n
    ensures j < n ==> targets[j].0 == i
    ensures forall k :: 0 <= k < j ==> targets[k].0 != i
  {
    if n == 0 then 0
    else
      var j := VisitOf(targets, i, n - 1);
      if j < n - 1 then j
      else if targets[n - 1].0 == i then n - 1
      else n
  }

  /** The tiles after the first n visits: a visited tile keeps the connections at its slots. */
  function SeaPass(targets: seq<(nat, seq<nat>)>, ts: seq<ConvertedTile>, n: nat): (r: seq<ConvertedTile>)
    requires n <= |targets|
    requires forall j :: 0 <= j < n ==> SeaOk(targets, ts, j)
    ensures |r| == |ts|
  {
    seq(|ts|, i requires 0 <= i < |ts| =>
      var j := VisitOf(targets, i, n);
      if j < n then
        assert SeaOk(targets, ts, j);
        ts[i].(connections := Pick(ts[i].connections, targets[j].1))
      else ts[i])
  }

  /** Visit n finds its tile as it was: no earlier visit concerns the same tile. */
  lemma SeaPassUntouched(targets: seq<(nat, seq<nat>)>, ts: seq<ConvertedTile>, n: nat)
    requires DistinctTiles(targets)
    requires n < |targets|
    requires forall j :: 0 <= j < n ==> SeaOk(targets, ts, j)
    requires targets[n].0 < |ts|
    ensures SeaPass(targets, ts, n)[targets[n].0] == ts[targets[n].0]
  {
    var i := targets[n].0;
    assert VisitOf(targets, i, n) == n;
  }

  /** Visit n rewrites its own tile and no other. */
  lemma SeaPassStep(targets: seq<(nat, seq<nat>)>, ts: seq<ConvertedTile>, n: nat)
    requires DistinctTiles(targets)
    requires n < |targets|
    requires forall j :: 0 <= j < n ==> SeaOk(targets, ts, j)
    requires SeaOk(targets, ts, n)
    ensures var i := targets[n].0; var cur := SeaPass(targets, ts, n);
      i < |cur| &&
      SeaPass(targets, ts, n + 1) == cur[i := cur[i].(connections := Pick(ts[i].connections, targets[n].1))]
  {
    var i := targets[n].0;
    var cur := SeaPass(targets, ts, n);
    var next := SeaPass(targets, ts, n + 1);
    forall x | 0 <= x < |ts|
      ensures next[x] == cur[i := cur[i].(connections := Pick(ts[i].connections, targets[n].1))][x]
    {
      if x == i {
        assert VisitOf(targets, i, n) == n;
        assert VisitOf(targets, i, n + 1) == n;
      }
    }
  }

  /**
   * One visit of update_sea_connections, visit n of the pass: tile i keeps
   * the connections at the slots `conns`; a tile or a slot past the end of
   * its list raises IndexError and leaves the tiles as they were.
   */
  method VisitTile(tileData: array<ConvertedTile>, i: nat, conns: seq<nat>,
                   ghost targets: seq<(nat, seq<nat>)>, ghost ts: seq<ConvertedTile>, ghost n: nat)
      returns (r: Outcome)
    requires DistinctTiles(targets)
    requires n < |targets| && targets[n] == (i, conns)
    requires n <= FirstBadSea(targets, ts)
    requires tileData[..] == SeaPass(targets, ts, n)
    modifies tileData
    ensures r.Pass? ==> n < FirstBadSea(targets, ts) && tileData[..] == SeaPass(targets, ts, n + 1)
    ensures r.Fail? ==> r.error == IndexError && FirstBadSea(targets, ts) == n && tileData[..] == SeaPass(targets, ts, n)
  {
    if i >= tileData.Length {
      FirstBadSeaAt(targets, ts, n);
      return Fail(IndexError);
    }
    SeaPassUntouched(targets, ts, n);
    var c := tileData[i].connections;
    if !(forall m | 0 <= m < |conns| :: conns[m] < |c|) {
      FirstBadSeaAt(targets, ts, n);
      return Fail(IndexError);
    }
    SeaPassStep(targets, ts, n);
    tileData[i] := tileData[i].(connections := Pick(c, conns));
    return Pass;
  }

  /**
   * The inner loop of update_sea_connections: visits start .. start + 2,
   * one per tile of the group; the first IndexError stops it.
   */
  method VisitGroup(tileData: array<ConvertedTile>, tradeTiles: seq<nat>, conns: seq<nat>,
                    ghost targets: seq<(nat, seq<nat>)>, ghost ts: seq<ConvertedTile>, ghost start: nat)
      returns (r: Outcome)
    requires DistinctTiles(targets)
    requires |tradeTiles| == 3 && start + 3 <= |targets|
    requires forall k :: 0 <= k < 3 ==> targets[start + k] == (tradeTiles[k], conns)
    requires start <= FirstBadSea(targets, ts)
    requires tileData[..] == SeaPass(targets, ts, start)
    modifies tileData
    ensures r.Pass? ==> start + 3 <= FirstBadSea(targets, ts) && tileData[..] == SeaPass(targets, ts, start + 3)
    ensures r.Fail? ==> r.error == IndexError && FirstBadSea(targets, ts) < start + 3
    ensures r.Fail? ==> tileData[..] == SeaPass(targets, ts, FirstBadSea(targets, ts))
  {
    var k := 0;
    while k < |tradeTiles|
      invariant 0 <= k <= 3
      invariant start + k <= FirstBadSea(targets, ts)
      invariant tileData[..] == SeaPass(targets, ts, start + k)
    {
      r := VisitTile(tileData, tradeTiles[k], conns, targets, ts, start + k);
      if r.Fail? {
        return;
      }
      k := k + 1;
    }
    return Pass;
  }

  /**
   * The two nested loops of update_sea_connections over groups of three
   * tiles: each visit keeps, in order, the connections at the group's slots;
   * an IndexError (a tile or a slot past the end of its list) stops the pass.
   */
  method RewriteGroups(tileData: array<ConvertedTile>, groups: seq<(seq<nat>, seq<nat>)>) returns (r: Outcome)
    requires forall h :: 0 <= h < |groups| ==> |groups[h].0| == 3
    requires DistinctTiles(TargetsOf(groups))
    modifies tileData
    ensures var targets := TargetsOf(groups); var k := FirstBadSea(targets, old(tileData[..]));
      tileData[..] == SeaPass(targets, old(tileData[..]), k) && (r.Pass? <==> k == |targets|)
    ensures r.Fail? ==> r.error == IndexError
  {
    ghost var ts := tileData[..];
    ghost var targets := TargetsOf(groups);
    if groups != [] {
      TargetsOfGroups(groups, 0, 0);
    }
    var g := 0;
    while g < |groups|
      invariant 0 <= g <= |groups|
      invariant |targets| == 3 * |groups|
      invariant 3 * g <= FirstBadSea(targets, ts)
      invariant tileData[..] == SeaPass(targets, ts, 3 * g)
    {
      forall k | 0 <= k < 3
        ensures targets[3 * g + k] == (groups[g].0[k], groups[g].1)
      {
        TargetsOfGroups(groups, g, k);
      }
      r := VisitGroup(tileData, groups[g].0, groups[g].1, targets, ts, 3 * g);
      if r.Fail? {
        return;
      }
      g := g + 1;
    }
    return Pass;
  }

  /** update_sea_connections over SEA_HEX_CONNECTIONS. */
  method UpdateSeaConnections(tileData: array<ConvertedTile>) returns (r: Outcome)
    modifies tileData
    ensures var k := FirstBadSea(SeaTargets, old(tileData[..]));
      tileData[..] == SeaPass(SeaTargets, old(tileData[..]), k) && (r.Pass? <==> k == 18)
    ensures r.Fail? ==> r.error == IndexError
  {
    SeaTargetsShape();
    r := RewriteGroups(tileData, SeaHexConnections);
  }

  /**
   * After a complete sea pass, visit j's hex keeps the connections at the
   * visit's slots, in the listed order (two of them for SEA_HEX_CONNECTIONS,
   * by SeaTargetsShape); nothing else about the tile changes.
   */
  lemma SeaPassVisited(targets: seq<(nat, seq<nat>)>, ts: seq<ConvertedTile>, j: nat)
    requires DistinctTiles(targets)
    requires forall k :: 0 <= k < |targets| ==> SeaOk(targets, ts, k)
    requires j < |targets|
    ensures var i := targets[j].0;
      i < |ts| && SeaOk(targets, ts, j) &&
      SeaPass(targets, ts, |targets|)[i] == ts[i].(connections := Pick(ts[i].connections, targets[j].1))
  {
    assert SeaOk(targets, ts, j);
    assert VisitOf(targets, targets[j].0, |targets|) == j;
  }

  /** After a complete sea pass, a tile that no visit names is unchanged. */
  lemma SeaPassUnvisited(targets: seq<(nat, seq<nat>)>, ts: seq<ConvertedTile>, i: nat)
    requires forall k :: 0 <= k < |targets| ==> SeaOk(targets, ts, k)
    requires i < |ts|
    requires forall j :: 0 <= j < |targets| ==> targets[j].0 != i
    ensures SeaPass(targets, ts, |targets|)[i] == ts[i]
  {
  }

  /** An environment pass changes only the env of tiles of its target space. */
  lemma EnvPassFrame(ts: seq<ConvertedTile>, n: nat, target: Space, source: Space, isecPass: bool, i: nat)
    requires n <= |ts|
    requires forall k :: 0 <= k < n && ts[k].space == target ==> InRange(ts, ts[k])
    requires i < |ts|
    ensures var r := EnvPass(ts, n, target, source, isecPass);
      r[i] == ts[i].(env := r[i].env) && (ts[i].space != target ==> r[i] == ts[i])
  {
  }

  /**
   * The intersection pass, for an intersection whose connections are all in
   * range: Land when no connected hex is Sea, else Sea when none is Land,
   * else Coast.
   */
  lemma IsecPassMeaning(ts: seq<ConvertedTile>, i: nat)
    requires FirstBad(ts, Space.Intersection) == |ts|
    requires i < |ts| && ts[i].space == Space.Intersection
    ensures var e := IsecPass(ts, |ts|)[i].env;
      var hexEnvs := set c | c in ts[i].connections && ts[c].space == Space.Hex :: ts[c].env;
      (e == Land <==> Sea !in hexEnvs) &&
      (e == Sea <==> Sea in hexEnvs && Land !in hexEnvs) &&
      (e == Coast <==> Sea in hexEnvs && Land in hexEnvs)
  {
    var envs := ConnectedEnvs(ts, ts[i].connections, Space.Hex);
    var hexEnvs := set c | c in ts[i].connections && ts[c].space == Space.Hex :: ts[c].env;
    assert forall e :: e in envs <==> e in hexEnvs;
  }

  /**
   * The path pass, for a path whose connections are all in range: Land when
   * a connected intersection is Land, else Sea when one is Sea, else Coast.
   */
  lemma PathPassMeaning(ts: seq<ConvertedTile>, i: nat)
    requires FirstBad(ts, Space.Path) == |ts|
    requires i < |ts| && ts[i].space == Space.Path
    ensures var e := PathPass(ts, |ts|)[i].env;
      var isecEnvs := set c | c in ts[i].connections && ts[c].space == Space.Intersection :: ts[c].env;
      (e == Land <==> Land in isecEnvs) &&
      (e == Sea <==> Land !in isecEnvs && Sea in isecEnvs) &&
      (e == Coast <==> Land !in isecEnvs && Sea !in isecEnvs)
  {
    var envs := ConnectedEnvs(ts, ts[i].connections, Space.Intersection);
    var isecEnvs := set c | c in ts[i].connections && ts[c].space == Space.Intersection :: ts[c].env;
    assert forall e :: e in envs <==> e in isecEnvs;
  }

  // ---------------------------------------------------------------------
  // make_default_board

  /** tile_data as the list comprehension builds it from hb.tiles. */
  function ConvertAll(tiles: seq<TileInfo>): (ts: seq<ConvertedTile>)
    ensures |ts| == |tiles|
    ensures forall i :: 0 <= i < |tiles| ==> ts[i] == Convert(tiles[i])
  {
    seq(|tiles|, i requires 0 <= i < |tiles| => Convert(tiles[i]))
  }

  /**
   * The four passes of make_default_board in order, each on the result of
   * the one before, or the IndexError that stops the first pass to fail.
   */
  function Passes(t0: seq<ConvertedTile>): Result<seq<ConvertedTile>> {
    if |t0| < |HexEnvsFlat| then Err(IndexError)
    else
      var t1 := HexPass(t0, |HexEnvsFlat|);
      if FirstBad(t1, Space.Intersection) < |t1| then Err(IndexError)
      else
        var t2 := IsecPass(t1, |t1|);
        if FirstBad(t2, Space.Path) < |t2| then Err(IndexError)
        else
          var t3 := PathPass(t2, |t2|);
          if FirstBadSea(SeaTargets, t3) < |SeaTargets| then Err(IndexError)
          else Ok(SeaPass(SeaTargets, t3, |SeaTargets|))
  }

  /** The calls of the four nested passes at the end of make_default_board. */
  method RunPasses(tileData: array<ConvertedTile>) returns (r: Result<seq<ConvertedTile>>)
    modifies tileData
    ensures r == Passes(old(tileData[..]))
  {
    SeaTargetsShape();
    var outcome := UpdateHexEnvironments(tileData);
    if outcome.Fail? {
      return Err(outcome.error);
    }
    outcome := UpdateIntersectionEnvironments(tileData);
    if outcome.Fail? {
      return Err(outcome.error);
    }
    outcome := UpdatePathEnvironments(tileData);
    if outcome.Fail? {
      return Err(outcome.error);
    }
    outcome := UpdateSeaConnections(tileData);
    if outcome.Fail? {
      return Err(outcome.error);
    }
    return Ok(tileData[..]);
  }

  /** The body of make_default_board for a HexBoard of the given shape. */
  method MakeBoard(resolution: (int, int), nHexesY: int, nHexesX: int, margin: int) returns (r: Result<seq<ConvertedTile>>)
    requires Validate(resolution, margin).Pass?
    ensures exists tiles :: BuiltFrom(tiles, resolution, nHexesY, nHexesX) && r == Passes(ConvertAll(tiles))
    ensures SevenBySeven(resolution, nHexesY, nHexesX) ==> r.Ok? && LaidOut(r.value, LayoutOf(resolution, nHexesY, nHexesX))
  {
    var hb := new HexBoard(resolution, nHexesY, nHexesX, margin, []);
    var tiles := hb.tiles;
    assert tiles == tiles[0..];
    var tileData := ToArray(ConvertAll(tiles));
    r := RunPasses(tileData);
    assert BuiltFrom(tiles, resolution, nHexesY, nHexesX) && r == Passes(ConvertAll(tiles));
    if SevenBySeven(resolution, nHexesY, nHexesX) {
      DefaultBoardBuilds(tiles, resolution, nHexesY, nHexesX);
    }
  }

  /** `[ConvertedTile(...) for t in tiles]`: a fresh list holding the converted tiles. */
  method ToArray(ts: seq<ConvertedTile>) returns (a: array<ConvertedTile>)
    ensures fresh(a) && a[..] == ts
  {
    a := new ConvertedTile[|ts|](i requires 0 <= i < |ts| => ts[i]);
  }

  /**
   * make_default_board: a HexBoard as tall and as wide as HEX_ENVS (7x7) on
   * a 1920x1080 screen with margin 5, its tiles converted, then the hex,
   * intersection, path and sea passes.
   */
  method MakeDefaultBoard() returns (r: Result<seq<ConvertedTile>>)
    ensures exists tiles :: BuiltFrom(tiles, DefaultResolution, 7, 7) && r == Passes(ConvertAll(tiles))
    ensures r.Ok? && LaidOut(r.value, LayoutOf(DefaultResolution, 7, 7))
  {
    DefaultResolutionFits();
    r := MakeBoard(DefaultResolution, |HexEnvs|, |HexEnvs[0]|, 5);
  }

  /** The screen make_default_board lays the board out on. */
  const DefaultResolution: (int, int) := (1920, 1080)

  /**
   * The default screen passes validation with margin 5 and holds a 7x7 grid
   * of hexes of a positive size; HEX_ENVS is 7 rows of 7.
   */
  lemma DefaultResolutionFits()
    ensures Validate(DefaultResolution, 5).Pass? && SevenBySeven(DefaultResolution, |HexEnvs|, |HexEnvs[0]|)
    ensures |HexEnvs| == 7 && |HexEnvs[0]| == 7
  {
    assert 1920 == 8 * 240 && 1080 == 8 * 135;
    DefaultLayoutSize();
  }

  // ---------------------------------------------------------------------
  // What the passes do when none of them fails

  /** Every connection of every tile is an index into ts. */
  predicate AllInRange(ts: seq<ConvertedTile>) {
    forall i :: 0 <= i < |ts| ==> InRange(ts, ts[i])
  }

  /** us is ts with, at most, the env of some tiles changed. */
  predicate SameButEnv(ts: seq<ConvertedTile>, us: seq<ConvertedTile>) {
    |ts| == |us| && forall i :: 0 <= i < |ts| ==> us[i] == ts[i].(env := us[i].env)
  }

  /** Changing envs keeps every connection in range. */
  lemma SameButEnvInRange(ts: seq<ConvertedTile>, us: seq<ConvertedTile>)
    requires SameButEnv(ts, us) && AllInRange(ts)
    ensures AllInRange(us)
  {
    forall i | 0 <= i < |us|
      ensures InRange(us, us[i])
    {
      assert us[i].connections == ts[i].connections && InRange(ts, ts[i]);
    }
  }

  /** An environment pass over all the tiles changes only envs, and only of its target space. */
  lemma EnvPassKeeps(ts: seq<ConvertedTile>, target: Space, source: Space, isecPass: bool)
    requires AllInRange(ts)
    ensures SameButEnv(ts, EnvPass(ts, |ts|, target, source, isecPass))
    ensures forall i :: 0 <= i < |ts| && ts[i].space != target ==> EnvPass(ts, |ts|, target, source, isecPass)[i] == ts[i]
  {
    forall i | 0 <= i < |ts|
      ensures var r := EnvPass(ts, |ts|, target, source, isecPass);
        r[i] == ts[i].(env := r[i].env) && (ts[i].space != target ==> r[i] == ts[i])
    {
      EnvPassFrame(ts, |ts|, target, source, isecPass, i);
    }
  }

  /**
   * The hex, intersection and path passes succeed on tiles that have every
   * connection in range and at least 49 entries; together they change only
   * envs, and a hex tile among the first 49 ends with its entry of the
   * flattened HEX_ENVS.
   */
  lemma EnvStagesSucceed(t0: seq<ConvertedTile>)
    requires |t0| >= |HexEnvsFlat| && AllInRange(t0)
    ensures var t1 := HexPass(t0, |HexEnvsFlat|);
      FirstBad(t1, Space.Intersection) == |t1| &&
      var t2 := IsecPass(t1, |t1|);
      FirstBad(t2, Space.Path) == |t2| &&
      var t3 := PathPass(t2, |t2|);
      SameButEnv(t0, t3) &&
      forall i :: 0 <= i < |HexEnvsFlat| && t0[i].space == Space.Hex ==> t3[i].env == HexEnvsFlat[i]
  {
    var t1 := HexPass(t0, |HexEnvsFlat|);
    assert SameButEnv(t0, t1);
    SameButEnvInRange(t0, t1);
    var t2 := IsecPass(t1, |t1|);
    EnvPassKeeps(t1, Space.Intersection, Space.Hex, true);
    SameButEnvInRange(t1, t2);
    EnvPassKeeps(t2, Space.Path, Space.Intersection, false);
  }

  /** Every tile update_sea_connections visits exists and has six connections. */
  predicate SeaVisitsReady(t0: seq<ConvertedTile>) {
    forall j :: 0 <= j < |SeaTargets| ==> SeaTargets[j].0 < |t0| && |t0[SeaTargets[j].0].connections| == 6
  }

  /**
   * The four passes succeed on tiles that have every connection in range,
   * at least one tile per entry of the flattened HEX_ENVS, and six
   * connections on every tile update_sea_connections visits. Then no tile
   * changes its index, space or location; a hex tile among the first 49
   * gets its entry of the flattened HEX_ENVS; a visited tile keeps the
   * connections at its two slots; any other tile keeps its connections.
   */
  lemma PassesSucceed(t0: seq<ConvertedTile>)
    requires |t0| >= |HexEnvsFlat| && AllInRange(t0)
    requires SeaVisitsReady(t0)
    ensures Passes(t0).Ok? && |Passes(t0).value| == |t0|
    ensures forall i :: 0 <= i < |t0| ==>
      var r := Passes(t0).value;
      r[i].index == t0[i].index && r[i].space == t0[i].space && r[i].loc == t0[i].loc
    ensures forall i :: 0 <= i < |HexEnvsFlat| && t0[i].space == Space.Hex ==> Passes(t0).value[i].env == HexEnvsFlat[i]
    ensures forall j :: 0 <= j < |SeaTargets| ==>
      SeaOk(SeaTargets, t0, j) &&
      Passes(t0).value[SeaTargets[j].0].connections == Pick(t0[SeaTargets[j].0].connections, SeaTargets[j].1)
    ensures forall i :: 0 <= i < |t0| && (forall j :: 0 <= j < |SeaTargets| ==> SeaTargets[j].0 != i) ==>
      Passes(t0).value[i].connections == t0[i].connections
  {
    SeaTargetsShape();
    EnvStagesSucceed(t0);
    var t1 := HexPass(t0, |HexEnvsFlat|);
    var t2 := IsecPass(t1, |t1|);
    var t3 := PathPass(t2, |t2|);
    forall j | 0 <= j < |SeaTargets|
      ensures SeaOk(SeaTargets, t3, j) && SeaOk(SeaTargets, t0, j)
    {
      assert t3[SeaTargets[j].0].connections == t0[SeaTargets[j].0].connections;
    }
    assert FirstBadSea(SeaTargets, t3) == |SeaTargets|;
    var r := SeaPass(SeaTargets, t3, |SeaTargets|);
    assert Passes(t0) == Ok(r);
    forall j | 0 <= j < |SeaTargets|
      ensures r[SeaTargets[j].0].connections == Pick(t0[SeaTargets[j].0].connections, SeaTargets[j].1)
    {
      SeaPassVisited(SeaTargets, t3, j);
    }
    forall i | 0 <= i < |t0| && (forall j :: 0 <= j < |SeaTargets| ==> SeaTargets[j].0 != i)
      ensures r[i].connections == t0[i].connections
    {
      SeaPassUnvisited(SeaTargets, t3, i);
    }
  }

  /** What the four passes leave in hex tile k, one of the first 49. */
  lemma PassedHex(t0: seq<ConvertedTile>, k: nat)
    requires |t0| >= |HexEnvsFlat| && AllInRange(t0) && SeaVisitsReady(t0)
    requires k < |HexEnvsFlat| && t0[k].space == Space.Hex
    ensures Passes(t0).Ok? && k < |Passes(t0).value|
    ensures var tile := Passes(t0).value[k];
      tile.index == t0[k].index && tile.space == Space.Hex && tile.loc == t0[k].loc && tile.env == HexEnvsFlat[k]
  {
    PassesSucceed(t0);
  }

  // ---------------------------------------------------------------------
  // The default board

  /** The HexBoard make_default_board builds: 7x7 hexes on a 1920x1080 screen. */
  function DefaultLayout(): Layout {
    LayoutOf((1920, 1080), 7, 7)
  }

  /** Its hexes are 192 pixels: 1080 // 44 = 24 eighths for the height, 1920 // 60 = 32 for the width. */
  lemma DefaultLayoutSize()
    ensures DefaultLayout().hexSize == 192 && DefaultLayout().nRows == 7 && DefaultLayout().nCols == 7
  {
    assert FloorDiv(1080, 44) == 24 && FloorDiv(1920, 60) == 32;
  }

  /** The trade hexes of update_sea_connections are all among the first 49 tiles. */
  lemma SeaTargetsAmongHexes()
    ensures forall j :: 0 <= j < |SeaTargets| ==> SeaTargets[j].0 < 49
  {
    SeaTargetsListed();
    ListingTiles(SeaListing());
  }

  lemma ListingTiles(listed: seq<(nat, seq<nat>)>)
    requires listed == SeaListing()
    ensures forall j :: 0 <= j < |listed| ==> listed[j].0 < 49
  {
  }

  /**
   * On a board whose hex size is positive, tile k, for k below the number of
   * hexes, is the k-th hex the loops place, and it has six sorted corner
   * indices.
   */
  lemma HexTileIsPlacedHex(tiles: seq<TileInfo>, resolution: (int, int), nHexesY: int, nHexesX: int, k: nat)
    requires BuiltFrom(tiles, resolution, nHexesY, nHexesX)
    requires LayoutOf(resolution, nHexesY, nHexesX).hexSize > 0
    requires k < |BoardPlacements(LayoutOf(resolution, nHexesY, nHexesX))|
    ensures k < |tiles| && tiles[k].tileType == TileType.Hex && tiles[k].index == k
    ensures tiles[k].loc == BoardPlacements(LayoutOf(resolution, nHexesY, nHexesX))[k].centre
    ensures |Convert(tiles[k]).connections| == 6
  {
    var g := LayoutOf(resolution, nHexesY, nHexesX);
    var t := BoardTables(resolution, nHexesY, nHexesX);
    var ps := BoardPlacements(g);
    BoardTablesFacts(resolution, nHexesY, nHexesX);
    SortedHexesInPlacementOrder(g);
    var hexes := SortedLocs(t.hexes.Keys);
    assert TileOrder(t)[k] == hexes[k] == ps[k].centre;
    HexKeysMeaning(ps);
    TileKinds(t, tiles, k);
    var _ := HexSlotsInReadingOrder(tiles, resolution, nHexesY, nHexesX, k);
  }

  /**
   * Tile 7 row + col of the result is the hex the loops place at (row, col),
   * with entry (row, col) of HEX_ENVS.
   */
  predicate HexTileAt(r: seq<ConvertedTile>, g: Layout, row: nat, col: nat)
    requires row < 7 && col < 7
  {
    var k := 7 * row + col;
    && k < |r|
    && r[k].index == k
    && r[k].space == Space.Hex
    && r[k].loc == PlacementAt(g, row, col).centre
    && r[k].env == HexEnvs[row][col]
  }

  /** The trade hex of visit j is a hex tile left with two connections. */
  predicate TradeHexAt(r: seq<ConvertedTile>, j: nat)
    requires j < |SeaTargets|
  {
    var i := SeaTargets[j].0;
    i < |r| && r[i].space == Space.Hex && |r[i].connections| == 2
  }

  /**
   * The board make_default_board returns: every hex of the 7x7 grid at its
   * place with its HEX_ENVS entry, and every trade hex with two connections.
   */
  predicate LaidOut(r: seq<ConvertedTile>, g: Layout) {
    && (forall row, col :: 0 <= row < 7 && 0 <= col < 7 ==> HexTileAt(r, g, row, col))
    && (forall j :: 0 <= j < |SeaTargets| ==> TradeHexAt(r, j))
  }

  /**
   * Visit j of update_sea_connections found a hex tile with its six corner
   * indices in reading order, and left it the two at its slots.
   */
  predicate SeaHexAt(t0: seq<ConvertedTile>, r: seq<ConvertedTile>, j: nat)
    requires j < |SeaTargets|
  {
    var i := SeaTargets[j].0;
    && i < |t0| && i < |r|
    && t0[i].space == Space.Hex && r[i].space == Space.Hex
    && |t0[i].connections| == 6
    && (forall m :: 0 <= m < |SeaTargets[j].1| ==> SeaTargets[j].1[m] < |t0[i].connections|)
    && r[i].connections == Pick(t0[i].connections, SeaTargets[j].1)
  }

  /**
   * make_default_board on its own HexBoard raises nothing: the four passes
   * succeed, tile 7 row + col is the hex at (row, col) with HEX_ENVS[row][col],
   * and every trade hex keeps the two corners at its slots.
   */
  lemma DefaultBoardBuilds(tiles: seq<TileInfo>, resolution: (int, int), nHexesY: int, nHexesX: int)
    requires BuiltFrom(tiles, resolution, nHexesY, nHexesX) && SevenBySeven(resolution, nHexesY, nHexesX)
    ensures Passes(ConvertAll(tiles)).Ok?
    ensures LaidOut(Passes(ConvertAll(tiles)).value, LayoutOf(resolution, nHexesY, nHexesX))
    ensures forall j :: 0 <= j < |SeaTargets| ==> SeaHexAt(ConvertAll(tiles), Passes(ConvertAll(tiles)).value, j)
  {
    var g := LayoutOf(resolution, nHexesY, nHexesX);
    DefaultTilesReady(tiles, resolution, nHexesY, nHexesX);
    PassesSucceed(ConvertAll(tiles));
    forall row, col | 0 <= row < 7 && 0 <= col < 7
      ensures HexTileAt(Passes(ConvertAll(tiles)).value, g, row, col)
    {
      DefaultHexAt(tiles, resolution, nHexesY, nHexesX, row, col);
    }
    SeaTargetsShape();
    forall j | 0 <= j < |SeaTargets|
      ensures SeaHexAt(ConvertAll(tiles), Passes(ConvertAll(tiles)).value, j)
      ensures TradeHexAt(Passes(ConvertAll(tiles)).value, j)
    {
      DefaultSeaAt(tiles, resolution, nHexesY, nHexesX, j);
    }
  }

  /** A 7x7 board, as tall and as wide as HEX_ENVS, whose hexes are not empty. */
  predicate SevenBySeven(resolution: (int, int), nHexesY: int, nHexesX: int) {
    nHexesY == 7 && nHexesX == 7 && LayoutOf(resolution, nHexesY, nHexesX).hexSize > 0
  }

  /** Such a board places 49 hexes, 7 per row. */
  lemma SevenBySevenSize(resolution: (int, int), nHexesY: int, nHexesX: int)
    requires SevenBySeven(resolution, nHexesY, nHexesX)
    ensures var g := LayoutOf(resolution, nHexesY, nHexesX);
      g.nRows == 7 && g.nCols == 7 && |BoardPlacements(g)| == 49
  {
  }

  /** The converted tiles of the default board meet what the four passes need. */
  lemma DefaultTilesReady(tiles: seq<TileInfo>, resolution: (int, int), nHexesY: int, nHexesX: int)
    requires BuiltFrom(tiles, resolution, nHexesY, nHexesX) && SevenBySeven(resolution, nHexesY, nHexesX)
    ensures |ConvertAll(tiles)| >= |HexEnvsFlat| && AllInRange(ConvertAll(tiles))
    ensures SeaVisitsReady(ConvertAll(tiles))
  {
    SevenBySevenSize(resolution, nHexesY, nHexesX);
    HexEnvsFlatShape(0, 0);
    HexTileIsPlacedHex(tiles, resolution, nHexesY, nHexesX, 48);
    ConvertedInRange(tiles, resolution, nHexesY, nHexesX);
    SeaVisitsFindHexes(tiles, resolution, nHexesY, nHexesX);
  }

  /** On a 7x7 board every tile update_sea_connections visits is a hex with six connections. */
  lemma SeaVisitsFindHexes(tiles: seq<TileInfo>, resolution: (int, int), nHexesY: int, nHexesX: int)
    requires BuiltFrom(tiles, resolution, nHexesY, nHexesX) && SevenBySeven(resolution, nHexesY, nHexesX)
    ensures SeaVisitsReady(ConvertAll(tiles))
  {
    var t0 := ConvertAll(tiles);
    SevenBySevenSize(resolution, nHexesY, nHexesX);
    SeaTargetsAmongHexes();
    forall j | 0 <= j < |SeaTargets|
      ensures SeaTargets[j].0 < |t0| && |t0[SeaTargets[j].0].connections| == 6
    {
      HexTileIsPlacedHex(tiles, resolution, nHexesY, nHexesX, SeaTargets[j].0);
    }
  }

  /** Hex (row, col) of the default board after the passes. */
  lemma DefaultHexAt(tiles: seq<TileInfo>, resolution: (int, int), nHexesY: int, nHexesX: int, row: nat, col: nat)
    requires BuiltFrom(tiles, resolution, nHexesY, nHexesX) && SevenBySeven(resolution, nHexesY, nHexesX)
    requires row < 7 && col < 7
    ensures Passes(ConvertAll(tiles)).Ok?
    ensures HexTileAt(Passes(ConvertAll(tiles)).value, LayoutOf(resolution, nHexesY, nHexesX), row, col)
  {
    var k := 7 * row + col;
    var g := LayoutOf(resolution, nHexesY, nHexesX);
    var t0 := ConvertAll(tiles);
    DefaultTilesReady(tiles, resolution, nHexesY, nHexesX);
    SevenBySevenSize(resolution, nHexesY, nHexesX);
    HexTileIsPlacedHex(tiles, resolution, nHexesY, nHexesX, k);
    HexEnvsFlatShape(row, col);
    assert t0[k] == Convert(tiles[k]) && t0[k].space == Space.Hex;
    PassedHex(t0, k);
    PlacementAtIndex(g, row, col);
    assert row * Count(g.nCols) + col == k;
  }

  /** Trade hex j of the default board after the passes. */
  lemma DefaultSeaAt(tiles: seq<TileInfo>, resolution: (int, int), nHexesY: int, nHexesX: int, j: nat)
    requires BuiltFrom(tiles, resolution, nHexesY, nHexesX) && SevenBySeven(resolution, nHexesY, nHexesX)
    requires j < |SeaTargets|
    ensures Passes(ConvertAll(tiles)).Ok? && SeaHexAt(ConvertAll(tiles), Passes(ConvertAll(tiles)).value, j)
  {
    DefaultTilesReady(tiles, resolution, nHexesY, nHexesX);
    PassesSucceed(ConvertAll(tiles));
    SevenBySevenSize(resolution, nHexesY, nHexesX);
    SeaTargetsAmongHexes();
    HexTileIsPlacedHex(tiles, resolution, nHexesY, nHexesX, SeaTargets[j].0);
  }

  /** The converted tiles of a built board have every connection in range. */
  lemma ConvertedInRange(tiles: seq<TileInfo>, resolution: (int, int), nHexesY: int, nHexesX: int)
    requires BuiltFrom(tiles, resolution, nHexesY, nHexesX)
    ensures AllInRange(ConvertAll(tiles))
  {
    var ts := ConvertAll(tiles);
    forall i | 0 <= i < |ts|
      ensures InRange(ts, ts[i])
    {
      forall c | c in ts[i].connections
        ensures c < |ts|
      {
        assert c in tiles[i].connections;
      }
    }
  }

  // ---------------------------------------------------------------------
  // DockOrientation

  /** ISEC_CONNS_READING_ORDER: the six corners of a hex in reading order. */
  const CornerN: nat := 0
  const CornerNW: nat := 1
  const CornerNE: nat := 2
  const CornerSW: nat := 3
  const CornerSE: nat := 4
  const CornerS: nat := 5

  /** The side of a hex a dock faces, by the two corners it joins. */
  datatype DockOrientation = NW | NE | W | E | SW | SE {
    function Connections(): (nat, nat) {
      match this
      case NW => (CornerN, CornerNW)
      case NE => (CornerN, CornerNE)
      case W => (CornerNW, CornerSW)
      case E => (CornerNE, CornerSE)
      case SW => (CornerS, CornerSW)
      case SE => (CornerS, CornerSE)
    }
  }

  /** `all(0 <= c < 6 for c in connections)`, one connection after another. */
  function AllSlots(connections: seq<int>): (b: bool)
    ensures b <==> forall k :: 0 <= k < |connections| ==> 0 <= connections[k] < 6
  {
    connections == [] || (0 <= connections[0] < 6 && AllSlots(connections[1..]))
  }

  /** validate_connections: ValueError unless every connection is a corner slot 0..5. */
  function ValidateConnections(connections: seq<int>): (r: Outcome)
    ensures r.Pass? <==> forall k :: 0 <= k < |connections| ==> 0 <= connections[k] < 6
    ensures r.Fail? ==> r.error == ValueError("Dock connections must be values between 0 and 5.")
  {
    if AllSlots(connections) then Pass
    else Fail(ValueError("Dock connections must be values between 0 and 5."))
  }

  /** Every member of DockOrientation passes its own __init__ check, and joins two different corners. */
  lemma DockOrientationsValid(d: DockOrientation)
    ensures ValidateConnections([d.Connections().0, d.Connections().1]).Pass?
    ensures d.Connections().0 != d.Connections().1
  {
  }
}

=== FILE: hex_geometry.dfy ===
/**
 * The pixel geometry of modeling/hex_board/board_maker.py: where the board
 * builder puts each hex's centre, its six corners (intersections) and the
 * midpoints of its six edges (paths), row by row and column by column.
 */
module HexGeometry {
  import opened Tiles
  import opened Calculations

  /** The quantities HexBoard.__post_init__ computes before its placement loops. */
  datatype Layout = Layout(hexSize: int, topBuffer: int, leftBuffer: int, nRows: int, nCols: int)

  /**
   * One pass of the column loop: the hex centre, the corners isecs[0..6)
   * clockwise from the top one, and the edge midpoints paths[0..6), where
   * paths[i] lies between isecs[i - 1] and isecs[i].
   */
  datatype HexPlacement = HexPlacement(centre: Loc, isecs: seq<Loc>, paths: seq<Loc>)

  type Placement = p: HexPlacement | |p.isecs| == 6 && |p.paths| == 6
    witness HexPlacement(Loc(0, 0), seq(6, _ => Loc(0, 0)), seq(6, _ => Loc(0, 0)))

  /** The number of passes of `range(n)`, which is empty for a negative n. */
  function Count(n: int): nat {
    if n < 0 then 0 else n
  }

  /** The nine candidate y coordinates of one row, an eighth of a hex apart. */
  function YLocs(hexY: int, hexSize: int): (ys: seq<int>)
    ensures |ys| == 9
  {
    seq(9, step => hexY - FloorDiv(hexSize, 2) + FloorDiv(step * hexSize, 8))
  }

  /** The five candidate x coordinates of one hex, a quarter of a hex apart. */
  function XLocs(hexX: int, hexSize: int): (xs: seq<int>)
    ensures |xs| == 5
  {
    seq(5, step => hexX + FloorDiv(-hexSize, 2) + FloorDiv(step * hexSize, 4))
  }

  /** The corner and edge-midpoint lists the loop body builds from the candidates. */
  function PlaceHex(ylocs: seq<int>, xlocs: seq<int>, centre: Loc): Placement
    requires |ylocs| == 9 && |xlocs| == 5
  {
    HexPlacement(centre,
      [Loc(ylocs[0], xlocs[2]), Loc(ylocs[2], xlocs[4]), Loc(ylocs[6], xlocs[4]),
       Loc(ylocs[8], xlocs[2]), Loc(ylocs[6], xlocs[0]), Loc(ylocs[2], xlocs[0])],
      [Loc(ylocs[1], xlocs[1]), Loc(ylocs[1], xlocs[3]), Loc(ylocs[4], xlocs[4]),
       Loc(ylocs[7], xlocs[3]), Loc(ylocs[7], xlocs[1]), Loc(ylocs[4], xlocs[0])])
  }

  /** hex_y in pass `row` of the row loop: it starts half a hex below the top buffer. */
  function RowY(g: Layout, row: nat): int {
    g.topBuffer + FloorDiv(g.hexSize, 2) + row * FloorDiv(g.hexSize * 3, 4)
  }

  /** hex_x at the start of a row, offset by half a hex when hex_y is odd. */
  function RowStartX(g: Layout, hexY: int): int {
    g.leftBuffer + FloorDiv(g.hexSize, 2) + FloorDiv((hexY % 2) * g.hexSize, 2)
  }

  /** The hex the builder places at (row, col). */
  function PlacementAt(g: Layout, row: nat, col: nat): Placement {
    var hexY := RowY(g, row);
    var hexX := RowStartX(g, hexY) + col * g.hexSize;
    PlaceHex(YLocs(hexY, g.hexSize), XLocs(hexX, g.hexSize), Loc(hexY, hexX))
  }

  /** The first n hexes of one row, in the order the column loop places them. */
  function RowPlacements(g: Layout, row: nat, n: nat): (ps: seq<Placement>)
    ensures |ps| == n
    ensures forall c :: 0 <= c < n ==> ps[c] == PlacementAt(g, row, c)
  {
    if n == 0 then [] else RowPlacements(g, row, n - 1) + [PlacementAt(g, row, n - 1)]
  }

  /** The hexes of the first n rows, in the order the two loops place them. */
  function Placements(g: Layout, n: nat): (ps: seq<Placement>)
    ensures |ps| == n * Count(g.nCols)
  {
    if n == 0 then [] else Placements(g, n - 1) + RowPlacements(g, n - 1, Count(g.nCols))
  }

  /** Every hex the builder places, in order. */
  function BoardPlacements(g: Layout): seq<Placement> {
    Placements(g, Count(g.nRows))
  }

  lemma MulDistributes(x: int, y: int, n: int)
    ensures (x + y) * n == x * n + y * n
  {
  }

  lemma MulAtLeast(x: int, n: int)
    requires x >= 1 && n >= 0
    ensures x * n >= n
  {
  }

  lemma MulMonotoneNat(a: nat, b: nat, n: nat)
    requires a <= b
    ensures a * n <= b * n
  {
    MulDistributes(b - a, a, n);
  }

  lemma DivModOfRowMajor(k: nat, row: nat, col: nat, n: nat)
    requires col < n && k == row * n + col
    ensures k / n == row && k % n == col
  {
    var q, m := k / n, k % n;
    assert k == q * n + m;
    MulDistributes(q - row, row, n);
    assert (q - row) * n == col - m;
    if q > row {
      MulAtLeast(q - row, n);
    } else if q < row {
      MulAtLeast(row - q, n);
      MulDistributes(row - q, q - row, n);
    }
  }

  /** Two row-major positions in rows of width n are the same position only when their rows and columns agree. */
  lemma RowMajorUnique(row: nat, col: nat, row': nat, col': nat, n: nat)
    requires col < n && col' < n && row * n + col == row' * n + col'
    ensures row == row' && col == col'
  {
    DivModOfRowMajor(row * n + col, row, col, n);
    DivModOfRowMajor(row' * n + col', row', col', n);
  }

  /** Hex k of the first n rows is the one the loops place in column col of row row, where k = row * nCols + col. */
  lemma {:induction false} PlacementIndex(g: Layout, n: nat, k: nat) returns (row: nat, col: nat)
    requires k < |Placements(g, n)|
    ensures row < n && col < Count(g.nCols) && k == row * Count(g.nCols) + col
    ensures Placements(g, n)[k] == PlacementAt(g, row, col)
  {
    var cols := Count(g.nCols);
    assert n > 0;
    var prev := Placements(g, n - 1);
    MulDistributes(n - 1, 1, cols);
    if k < |prev| {
      row, col := PlacementIndex(g, n - 1, k);
    } else {
      row, col := n - 1, k - |prev|;
    }
  }

  /*
   * The unit lattice. When the hex size is a multiple of 8 (it always is),
   * every coordinate the builder computes is a whole number of units
   * u = hexSize / 8 from the first hex's centre: Pt(g, a, b) is the point
   * a units below and 2b units right of it.
   */

  function Unit(g: Layout): int {
    g.hexSize / 8
  }

  /** The centre of the first hex placed. */
  function Origin(g: Layout): Loc {
    var y0 := RowY(g, 0);
    Loc(y0, RowStartX(g, y0))
  }

  function Pt(g: Layout, a: int, b: int): Loc {
    Loc(Origin(g).y + a * Unit(g), Origin(g).x + b * (2 * Unit(g)))
  }

  const CornerA: seq<int> := [-4, -2, 2, 4, 2, -2]
  const CornerB: seq<int> := [0, 2, 2, 0, -2, -2]
  const EdgeA: seq<int> := [-3, -3, 0, 3, 3, 0]
  const EdgeB: seq<int> := [-1, 1, 2, 1, -1, -2]

  /** A hex centred at lattice point (a, b), with its corners and edge midpoints. */
  function UnitHex(g: Layout, a: int, b: int): Placement {
    HexPlacement(Pt(g, a, b),
      seq(6, i requires 0 <= i < 6 => Pt(g, a + CornerA[i], b + CornerB[i])),
      seq(6, i requires 0 <= i < 6 => Pt(g, a + EdgeA[i], b + EdgeB[i])))
  }

  lemma FloorDivOfMultiple(q: int, d: int)
    requires d > 0
    ensures FloorDiv(q * d, d) == q
  {
    var r := FloorDiv(q * d, d);
    MulDistributes(r - q, q, d);
    NoMultipleBetween(r - q, d);
  }

  /** The only multiple of d in (-d, 0] is 0 * d. */
  lemma NoMultipleBetween(x: int, d: int)
    requires d > 0 && -d < x * d <= 0
    ensures x == 0
  {
    if x >= 1 {
      MulAtLeast(x, d);
    } else if x <= -1 {
      MulAtLeast(-x, d);
      MulDistributes(-x, x, d);
    }
  }

  lemma YLocsInUnits(hexY: int, h: int, y0: int, a0: int)
    requires h % 8 == 0 && hexY == y0 + a0 * (h / 8)
    ensures forall s :: 0 <= s < 9 ==> YLocs(hexY, h)[s] == y0 + (a0 + s - 4) * (h / 8)
  {
    var u := h / 8;
    FloorDivOfMultiple(4 * u, 2);
    assert h == (4 * u) * 2;
    forall s | 0 <= s < 9
      ensures YLocs(hexY, h)[s] == y0 + (a0 + s - 4) * u
    {
      FloorDivOfMultiple(s * u, 8);
      assert s * h == (s * u) * 8;
      MulDistributes(s, -4, u);
      MulDistributes(a0, s - 4, u);
    }
  }

  lemma XLocsInUnits(hexX: int, h: int, x0: int, b0: int)
    requires h % 8 == 0 && hexX == x0 + b0 * (2 * (h / 8))
    ensures forall s :: 0 <= s < 5 ==> XLocs(hexX, h)[s] == x0 + (b0 + s - 2) * (2 * (h / 8))
  {
    var w := 2 * (h / 8);
    FloorDivOfMultiple(-w, 2);
    assert -h == (-w) * 4;
    assert FloorDiv(-h, 2) == -2 * w by {
      FloorDivOfMultiple(-2 * w, 2);
      assert -h == (-2 * w) * 2;
    }
    forall s | 0 <= s < 5
      ensures XLocs(hexX, h)[s] == x0 + (b0 + s - 2) * w
    {
      FloorDivOfMultiple(s * w, 4);
      assert s * h == (s * w) * 4;
      MulDistributes(s, -2, w);
      MulDistributes(b0, s - 2, w);
    }
  }

  /** Row r is 6r units below the first row, and starts at the same x as the first row. */
  lemma RowInUnits(g: Layout, row: nat)
    requires g.hexSize % 8 == 0
    ensures RowY(g, row) == Origin(g).y + (6 * row) * Unit(g)
    ensures RowStartX(g, RowY(g, row)) == Origin(g).x
  {
    var u := Unit(g);
    FloorDivOfMultiple(6 * u, 4);
    assert g.hexSize * 3 == (6 * u) * 4;
    RowUnits(row, u);
    var m := row * (3 * u);
    assert RowY(g, row) == RowY(g, 0) + 2 * m;
  }

  lemma RowUnits(row: int, u: int)
    ensures row * (6 * u) == (6 * row) * u == 2 * (row * (3 * u))
  {
  }

  lemma ColumnInUnits(g: Layout, col: nat)
    requires g.hexSize % 8 == 0
    ensures col * g.hexSize == (4 * col) * (2 * Unit(g))
  {
  }

  /** The corners of a hex whose centre is at lattice point (a0, b0). */
  lemma CornersInUnits(g: Layout, hexY: int, hexX: int, a0: int, b0: int)
    requires g.hexSize % 8 == 0
    requires hexY == Origin(g).y + a0 * Unit(g) && hexX == Origin(g).x + b0 * (2 * Unit(g))
    ensures PlaceHex(YLocs(hexY, g.hexSize), XLocs(hexX, g.hexSize), Loc(hexY, hexX)).isecs == UnitHex(g, a0, b0).isecs
  {
    var h, u := g.hexSize, Unit(g);
    YLocsInUnits(hexY, h, Origin(g).y, a0);
    XLocsInUnits(hexX, h, Origin(g).x, b0);
    var p, q := PlaceHex(YLocs(hexY, h), XLocs(hexX, h), Loc(hexY, hexX)), UnitHex(g, a0, b0);
    forall i | 0 <= i < 6
      ensures p.isecs[i] == q.isecs[i]
    {
      MulDistributes(a0, CornerA[i], u);
      MulDistributes(b0, CornerB[i], 2 * u);
    }
  }

  /** The edge midpoints of a hex whose centre is at lattice point (a0, b0). */
  lemma EdgesInUnits(g: Layout, hexY: int, hexX: int, a0: int, b0: int)
    requires g.hexSize % 8 == 0
    requires hexY == Origin(g).y + a0 * Unit(g) && hexX == Origin(g).x + b0 * (2 * Unit(g))
    ensures PlaceHex(YLocs(hexY, g.hexSize), XLocs(hexX, g.hexSize), Loc(hexY, hexX)).paths == UnitHex(g, a0, b0).paths
  {
    var h, u := g.hexSize, Unit(g);
    YLocsInUnits(hexY, h, Origin(g).y, a0);
    XLocsInUnits(hexX, h, Origin(g).x, b0);
    var p, q := PlaceHex(YLocs(hexY, h), XLocs(hexX, h), Loc(hexY, hexX)), UnitHex(g, a0, b0);
    forall i | 0 <= i < 6
      ensures p.paths[i] == q.paths[i]
    {
      MulDistributes(a0, EdgeA[i], u);
      MulDistributes(b0, EdgeB[i], 2 * u);
    }
  }

  /** A hex the loop body places at a centre on the lattice is the lattice hex there. */
  lemma PlaceHexInUnits(g: Layout, hexY: int, hexX: int, a0: int, b0: int)
    requires g.hexSize % 8 == 0
    requires hexY == Origin(g).y + a0 * Unit(g) && hexX == Origin(g).x + b0 * (2 * Unit(g))
    ensures PlaceHex(YLocs(hexY, g.hexSize), XLocs(hexX, g.hexSize), Loc(hexY, hexX)) == UnitHex(g, a0, b0)
  {
    CornersInUnits(g, hexY, hexX, a0, b0);
    EdgesInUnits(g, hexY, hexX, a0, b0);
  }

  /** The hex at (row, col) is the lattice hex centred at (6 row, 4 col). */
  lemma PlacementInUnits(g: Layout, row: nat, col: nat)
    requires g.hexSize % 8 == 0
    ensures PlacementAt(g, row, col) == UnitHex(g, 6 * row, 4 * col)
  {
    RowInUnits(g, row);
    ColumnInUnits(g, col);
    var hexY := RowY(g, row);
    PlaceHexInUnits(g, hexY, RowStartX(g, hexY) + col * g.hexSize, 6 * row, 4 * col);
  }

  lemma MulCancel(a: int, a': int, u: int)
    requires u != 0 && a * u == a' * u
    ensures a == a'
  {
    MulDistributes(a, -a', u);
    if a > a' {
      if u > 0 { MulAtLeast(a - a', u); } else { MulAtLeast(a - a', -u); MulDistributes(a - a', 0, -u); }
    } else if a < a' {
      if u > 0 { MulAtLeast(a' - a, u); } else { MulAtLeast(a' - a, -u); }
    }
  }

  /** Distinct lattice points are distinct pixels once the hex size is not 0. */
  lemma PtInjective(g: Layout, a: int, b: int, a': int, b': int)
    requires Unit(g) != 0
    requires Pt(g, a, b) == Pt(g, a', b')
    ensures a == a' && b == b'
  {
    MulCancel(a, a', Unit(g));
    MulCancel(b, b', 2 * Unit(g));
  }
}

=== FILE: hex_stagger.dfy ===
/**
 * The row stagger of modeling/hex_board/board_maker.py.
 *
 * As written, a row starts half a hex further right when hex_y is odd; but
 * hex_y moves by 3/4 of a hex (a multiple of 6) per row, so every row has the
 * same start and hexes of neighbouring rows sit directly above each other
 * instead of interlocking. The lower edges of a hex in row r then have the
 * same midpoints as the upper edges of the hex below it, but the opposite
 * slope, and the later row's write to path_connections replaces the earlier
 * one: an intersection of row r lists an edge midpoint whose path entry does
 * not list it back.
 *
 * The evidently intended stagger shifts odd rows (by row number) by half a
 * hex. With it, an edge midpoint fixes its two ends, and intersection-path
 * adjacency is symmetric.
 */
module HexStagger {
  import opened Tiles
  import opened Calculations
  import opened HexGeometry
  import opened HexTables
  import opened BoardLayout

  /*
   * As written.
   */

  /**
   * On any board with at least two rows, one column and a hex size other
   * than 0: the intersection 2 units below the first hex's centre lists the
   * edge midpoint 3 units below it, and that path does not list it back.
   */
  lemma IsecPathAsymmetric(g: Layout)
    requires g.hexSize % 8 == 0 && g.hexSize != 0
    requires Count(g.nRows) >= 2 && Count(g.nCols) >= 1
    ensures var t := TablesOf(BoardPlacements(g));
      && Pt(g, 3, 1) in t.paths
      && Pt(g, 3, 1) in Lookup(t.isecs, Pt(g, 2, 2))
      && Pt(g, 2, 2) !in t.paths[Pt(g, 3, 1)]
  {
    var ps := BoardPlacements(g);
    var cols := Count(g.nCols);
    var m, v := Pt(g, 3, 1), Pt(g, 2, 2);
    FirstTwoRows(g);
    // The first hex has v as corner 2 and m as edge 3.
    assert ps[0].isecs[2] == v && m in Around(ps[0], 2);
    IsecEntry(ps, v, m);
    // The first hex of the second row has m as edge 1.
    assert ps[cols].paths[1] == m;
    PathKey(ps, m);
    PathEntry(ps, m);
    var k, i :| LastWriter(ps, k, i) && ps[k].paths[i] == m && TablesOf(ps).paths[m] == Ends(ps[k], i);
    assert k >= cols;
    var row, col := BoardHexInUnits(g, k);
    UnitEdgeAt(g, 6 * row, 4 * col, i, 3, 1);
    BelowFirstRow(k, row, col, cols);
    LastWriterOfSharedEdge(row, col, i);
    assert Ends(ps[k], i) == {Pt(g, 4, 2), Pt(g, 2, 0)};
    PtApart(g, 2, 2, 4, 2);
    PtApart(g, 2, 2, 2, 0);
  }

  /** The first hex of the first two rows, in lattice terms. */
  lemma FirstTwoRows(g: Layout)
    requires g.hexSize % 8 == 0 && Count(g.nRows) >= 2 && Count(g.nCols) >= 1
    ensures Count(g.nCols) < |BoardPlacements(g)|
    ensures BoardPlacements(g)[0] == UnitHex(g, 0, 0)
    ensures BoardPlacements(g)[Count(g.nCols)] == UnitHex(g, 6, 0)
  {
    var cols := Count(g.nCols);
    MulMonotoneNat(2, Count(g.nRows), cols);
    var r0, c0 := PlacementIndex(g, Count(g.nRows), 0);
    RowMajorUnique(r0, c0, 0, 0, cols);
    var r1, c1 := PlacementIndex(g, Count(g.nRows), cols);
    RowMajorUnique(r1, c1, 1, 0, cols);
    PlacementInUnits(g, 0, 0);
    PlacementInUnits(g, 1, 0);
  }

  /** An edge midpoint of a lattice hex, read back in lattice units. */
  lemma UnitEdgeAt(g: Layout, a: int, b: int, i: nat, a': int, b': int)
    requires Unit(g) != 0 && i < 6
    requires UnitHex(g, a, b).paths[i] == Pt(g, a', b')
    ensures a + EdgeA[i] == a' && b + EdgeB[i] == b'
  {
    PtInjective(g, a + EdgeA[i], b + EdgeB[i], a', b');
  }

  lemma BelowFirstRow(k: nat, row: nat, col: nat, cols: nat)
    requires k == row * cols + col && col < cols && k >= cols
    ensures row >= 1
  {
  }

  /** Below the first row, only edge 1 of the first hex of row 1 has its midpoint at (3, 1). */
  lemma LastWriterOfSharedEdge(row: nat, col: nat, i: nat)
    requires i < 6 && row >= 1
    requires 6 * row + EdgeA[i] == 3 && 4 * col + EdgeB[i] == 1
    ensures row == 1 && col == 0 && i == 1
  {
  }

  /*
   * As intended.
   */

  /** Row start with the stagger taken from the row number: odd rows start half a hex further right. */
  function StaggeredRowStartX(g: Layout, row: nat): int {
    g.leftBuffer + FloorDiv(g.hexSize, 2) + FloorDiv((row % 2) * g.hexSize, 2)
  }

  function StaggeredPlacementAt(g: Layout, row: nat, col: nat): Placement {
    var hexY := RowY(g, row);
    var hexX := StaggeredRowStartX(g, row) + col * g.hexSize;
    PlaceHex(YLocs(hexY, g.hexSize), XLocs(hexX, g.hexSize), Loc(hexY, hexX))
  }

  /** The hexes of the whole board, row by row, with the intended stagger. */
  function StaggeredPlacements(g: Layout): seq<Placement> {
    var cols := Count(g.nCols);
    if cols == 0 then []
    else seq(Count(g.nRows) * cols, k requires 0 <= k => StaggeredPlacementAt(g, k / cols, k % cols))
  }

  /** Column offset of a staggered row, in lattice units, relative to the first hex as written. */
  function Shift(g: Layout): int {
    -2 * (RowY(g, 0) % 2)
  }

  lemma HalfHexInUnits(g: Layout, bit: int)
    requires g.hexSize % 8 == 0 && (bit == 0 || bit == 1)
    ensures FloorDiv(bit * g.hexSize, 2) == (2 * bit) * (2 * Unit(g))
  {
    var u := Unit(g);
    assert bit * g.hexSize == ((2 * bit) * (2 * u)) * 2;
    FloorDivOfMultiple((2 * bit) * (2 * u), 2);
  }

  /** The staggered hex at (row, col) is the lattice hex centred at (6 row, 4 col + 2 (row % 2) + Shift). */
  lemma StaggeredInUnits(g: Layout, row: nat, col: nat)
    requires g.hexSize % 8 == 0
    ensures StaggeredPlacementAt(g, row, col) == UnitHex(g, 6 * row, 4 * col + 2 * (row % 2) + Shift(g))
  {
    var u := Unit(g);
    RowInUnits(g, row);
    ColumnInUnits(g, col);
    var p := RowY(g, 0) % 2;
    HalfHexInUnits(g, row % 2);
    HalfHexInUnits(g, p);
    var b0 := 4 * col + 2 * (row % 2) + Shift(g);
    MulDistributes(4 * col, 2 * (row % 2), 2 * u);
    MulDistributes(4 * col + 2 * (row % 2), -2 * p, 2 * u);
    assert StaggeredRowStartX(g, row) + col * g.hexSize == Origin(g).x + b0 * (2 * u);
    PlaceHexInUnits(g, RowY(g, row), StaggeredRowStartX(g, row) + col * g.hexSize, 6 * row, b0);
  }

  /** Hex k of the staggered board, in lattice terms. */
  lemma StaggeredHexInUnits(g: Layout, k: nat) returns (row: nat, col: nat)
    requires g.hexSize % 8 == 0 && k < |StaggeredPlacements(g)|
    ensures StaggeredPlacements(g)[k] == UnitHex(g, 6 * row, 4 * col + 2 * (row % 2) + Shift(g))
  {
    var cols := Count(g.nCols);
    row, col := k / cols, k % cols;
    StaggeredInUnits(g, row, col);
  }

  /** The two ends of an edge, from its midpoint (a, b) and its slope class. */
  function EdgeEnds(g: Layout, a: int, b: int, slope: nat): set<Loc>
    requires slope < 3
  {
    if slope == 0 then {Pt(g, a + 1, b - 1), Pt(g, a - 1, b + 1)}
    else if slope == 1 then {Pt(g, a + 1, b + 1), Pt(g, a - 1, b - 1)}
    else {Pt(g, a + 2, b), Pt(g, a - 2, b)}
  }

  /** Edge i of any lattice hex has slope class i % 3, and its ends follow from its midpoint. */
  lemma UnitEndsBySlope(g: Layout, a: int, b: int, i: nat)
    requires i < 6
    ensures Ends(UnitHex(g, a, b), i) == EdgeEnds(g, a + EdgeA[i], b + EdgeB[i], i % 3)
  {
    var p := UnitHex(g, a, b);
    assert p.isecs[i] == Pt(g, a + CornerA[i], b + CornerB[i]);
    assert p.isecs[(i + 5) % 6] == Pt(g, a + CornerA[(i + 5) % 6], b + CornerB[(i + 5) % 6]);
    if i == 0 {
    } else if i == 1 {
    } else if i == 2 {
    } else if i == 3 {
    } else if i == 4 {
    } else {
    }
  }

  /**
   * With the intended stagger, two hexes that share an edge midpoint see the
   * edge with the same slope class.
   */
  lemma SharedEdgeSameSlope(row: nat, col: nat, i: nat, row': nat, col': nat, i': nat, s: int)
    requires i < 6 && i' < 6
    requires 6 * row + EdgeA[i] == 6 * row' + EdgeA[i']
    requires 4 * col + 2 * (row % 2) + s + EdgeB[i] == 4 * col' + 2 * (row' % 2) + s + EdgeB[i']
    ensures i % 3 == i' % 3
  {
    if i == 0 || i == 1 {
      assert i' != 2 && i' != 5;
    } else if i == 3 || i == 4 {
      assert i' != 2 && i' != 5;
    } else {
      assert i' == 2 || i' == 5;
    }
  }

  /** With the intended stagger no hex centre is an edge midpoint. */
  lemma CentreNotMidpoint(row: nat, col: nat, row': nat, col': nat, j: nat, s: int)
    requires j < 6
    requires 6 * row == 6 * row' + EdgeA[j]
    ensures 4 * col + 2 * (row % 2) + s != 4 * col' + 2 * (row' % 2) + s + EdgeB[j]
  {
  }

  /** Two lattice hexes of the intended layout that share an edge midpoint give that edge the same ends. */
  lemma LatticeEndsAgree(g: Layout, row: nat, col: nat, i: nat, row': nat, col': nat, i': nat)
    requires Unit(g) != 0 && i < 6 && i' < 6
    requires UnitHex(g, 6 * row, 4 * col + 2 * (row % 2) + Shift(g)).paths[i] ==
             UnitHex(g, 6 * row', 4 * col' + 2 * (row' % 2) + Shift(g)).paths[i']
    ensures Ends(UnitHex(g, 6 * row, 4 * col + 2 * (row % 2) + Shift(g)), i) ==
            Ends(UnitHex(g, 6 * row', 4 * col' + 2 * (row' % 2) + Shift(g)), i')
  {
    var b, b' := 4 * col + 2 * (row % 2) + Shift(g), 4 * col' + 2 * (row' % 2) + Shift(g);
    UnitEdgeAt(g, 6 * row, b, i, 6 * row' + EdgeA[i'], b' + EdgeB[i']);
    SharedEdgeSameSlope(row, col, i, row', col', i', Shift(g));
    UnitEndsBySlope(g, 6 * row, b, i);
    UnitEndsBySlope(g, 6 * row', b', i');
  }

  /** No centre of a lattice hex of the intended layout is an edge midpoint of another. */
  lemma LatticeCentreOffEdges(g: Layout, row: nat, col: nat, row': nat, col': nat, j: nat)
    requires Unit(g) != 0 && j < 6
    ensures UnitHex(g, 6 * row, 4 * col + 2 * (row % 2) + Shift(g)).centre !=
            UnitHex(g, 6 * row', 4 * col' + 2 * (row' % 2) + Shift(g)).paths[j]
  {
    var b, b' := 4 * col + 2 * (row % 2) + Shift(g), 4 * col' + 2 * (row' % 2) + Shift(g);
    if UnitHex(g, 6 * row, b).centre == UnitHex(g, 6 * row', b').paths[j] {
      UnitEdgeAt(g, 6 * row', b', j, 6 * row, b);
      CentreNotMidpoint(row, col, row', col', j, Shift(g));
    }
  }

  /** Hexes that share an edge midpoint give it the same ends. */
  ghost predicate EdgesAgree(ps: seq<Placement>) {
    forall k, i, k', i' ::
      0 <= k < |ps| && 0 <= i < 6 && 0 <= k' < |ps| && 0 <= i' < 6 && ps[k].paths[i] == ps[k'].paths[i'] ==>
        Ends(ps[k], i) == Ends(ps[k'], i')
  }

  /** No hex centre is an edge midpoint. */
  ghost predicate CentresOffEdges(ps: seq<Placement>) {
    forall k, k', j :: 0 <= k < |ps| && 0 <= k' < |ps| && 0 <= j < 6 ==> ps[k].centre != ps[k'].paths[j]
  }

  lemma StaggeredEdgesAgree(g: Layout)
    requires g.hexSize % 8 == 0 && g.hexSize != 0
    ensures EdgesAgree(StaggeredPlacements(g)) && CentresOffEdges(StaggeredPlacements(g))
  {
    var ps := StaggeredPlacements(g);
    forall k, i, k', i' | 0 <= k < |ps| && 0 <= i < 6 && 0 <= k' < |ps| && 0 <= i' < 6 &&
      ps[k].paths[i] == ps[k'].paths[i']
      ensures Ends(ps[k], i) == Ends(ps[k'], i')
    {
      var row, col := StaggeredHexInUnits(g, k);
      var row', col' := StaggeredHexInUnits(g, k');
      LatticeEndsAgree(g, row, col, i, row', col', i');
    }
    forall k, k', j | 0 <= k < |ps| && 0 <= k' < |ps| && 0 <= j < 6
      ensures ps[k].centre != ps[k'].paths[j]
    {
      var row, col := StaggeredHexInUnits(g, k);
      var row', col' := StaggeredHexInUnits(g, k');
      LatticeCentreOffEdges(g, row, col, row', col', j);
    }
  }

  /** Corner i of a hex is an end of both edges at that corner. */
  lemma CornerEndsItsEdges(p: Placement, i: nat, m: Loc) returns (j: nat)
    requires i < 6 && m in Around(p, i) && m != p.centre
    ensures j < 6 && p.paths[j] == m && p.isecs[i] in Ends(p, j)
  {
    if m == p.paths[i] {
      j := i;
    } else {
      j := (i + 1) % 6;
      assert (j + 5) % 6 == i;
    }
  }

  /** An intersection's edge midpoint lists the intersection among its ends. */
  lemma IsecListedByPath(ps: seq<Placement>, v: Loc, m: Loc)
    requires EdgesAgree(ps) && CentresOffEdges(ps)
    requires m in TablesOf(ps).paths && m in Lookup(TablesOf(ps).isecs, v)
    ensures v in TablesOf(ps).paths[m]
  {
    var kw, iw := PathEndsWritten(ps, m);
    IsecEntry(ps, v, m);
    var k, i :| 0 <= k < |ps| && 0 <= i < 6 && ps[k].isecs[i] == v && m in Around(ps[k], i);
    assert ps[k].centre != ps[kw].paths[iw];
    var j := CornerEndsItsEdges(ps[k], i, m);
    assert Ends(ps[k], j) == Ends(ps[kw], iw);
  }

  /**
   * When every shared edge midpoint gets the same ends from each hex, and no
   * centre is an edge midpoint, intersection-path adjacency is symmetric.
   */
  lemma IsecPathSymmetricWhenEdgesAgree(ps: seq<Placement>)
    requires EdgesAgree(ps) && CentresOffEdges(ps)
    ensures var t := TablesOf(ps);
      forall v, m :: m in t.paths ==> (m in Lookup(t.isecs, v) <==> v in t.paths[m])
  {
    var t := TablesOf(ps);
    forall v, m | m in t.paths
      ensures m in Lookup(t.isecs, v) <==> v in t.paths[m]
    {
      if v in t.paths[m] {
        PathEndsListPath(ps);
        assert v in Lookup(t.paths, m);
      }
      if m in Lookup(t.isecs, v) {
        IsecListedByPath(ps, v, m);
      }
    }
  }

  /**
   * With the intended stagger, intersection-path adjacency is symmetric: an
   * intersection lists a path exactly when the path lists the intersection.
   */
  lemma StaggeredIsecPathSymmetric(g: Layout)
    requires g.hexSize % 8 == 0 && g.hexSize != 0
    ensures var t := TablesOf(StaggeredPlacements(g));
      forall v, m :: m in t.paths ==> (m in Lookup(t.isecs, v) <==> v in t.paths[m])
  {
    StaggeredEdgesAgree(g);
    IsecPathSymmetricWhenEdgesAgree(StaggeredPlacements(g));
  }
}

=== FILE: hex_tables.dfy ===
/**
 * The three adjacency tables HexBoard.__post_init__ fills while it places
 * hexes (modeling/hex_board/board_maker.py): hex -> its corners,
 * intersection -> the paths and hexes around it, path -> its two ends.
 * The first two tables only ever grow; the path table is overwritten, so a
 * path keeps the ends written by the last hex that placed it.
 */
module HexTables {
  import opened Tiles
  import opened Calculations
  import opened HexGeometry

  datatype Tables = Tables(hexes: map<Loc, set<Loc>>, isecs: map<Loc, set<Loc>>, paths: map<Loc, set<Loc>>)

  /** A defaultdict(set) read: a missing key reads as the empty set. */
  function Lookup(m: map<Loc, set<Loc>>, k: Loc): set<Loc> {
    if k in m then m[k] else {}
  }

  /** What step i of a hex adds to the set of its corner isecs[i]. */
  function Around(p: Placement, i: nat): set<Loc>
    requires i < 6
  {
    {p.paths[i], p.paths[(i + 1) % 6], p.centre}
  }

  /** What step i of a hex writes for the path paths[i]: the corners on either side. */
  function Ends(p: Placement, i: nat): set<Loc>
    requires i < 6
  {
    {p.isecs[i], p.isecs[(i + 5) % 6]}
  }

  /** Step i of the innermost loop. */
  function AddCorner(t: Tables, p: Placement, i: nat): Tables
    requires i < 6
  {
    Tables(t.hexes[p.centre := Lookup(t.hexes, p.centre) + {p.isecs[i]}],
           t.isecs[p.isecs[i] := Lookup(t.isecs, p.isecs[i]) + Around(p, i)],
           t.paths[p.paths[i] := Ends(p, i)])
  }

  /** The first k steps of the innermost loop for one hex. */
  function AddCorners(t: Tables, p: Placement, k: nat): Tables
    requires k <= 6
  {
    if k == 0 then t else AddCorner(AddCorners(t, p, k - 1), p, k - 1)
  }

  /** The tables after the given hexes were placed, in order, starting from empty tables. */
  function TablesOf(ps: seq<Placement>): Tables {
    if ps == [] then Tables(map[], map[], map[])
    else AddCorners(TablesOf(ps[..|ps| - 1]), ps[|ps| - 1], 6)
  }

  lemma TablesOfAppend(ps: seq<Placement>, p: Placement)
    ensures TablesOf(ps + [p]) == AddCorners(TablesOf(ps), p, 6)
  {
    assert (ps + [p])[..|ps|] == ps;
  }

  lemma PlacedHexIsPlacementAt(g: Layout, row: nat, column: nat, hexY: int, hexX: int)
    requires hexY == RowY(g, row) && hexX == RowStartX(g, hexY) + column * g.hexSize
    ensures PlaceHex(YLocs(hexY, g.hexSize), XLocs(hexX, g.hexSize), Loc(hexY, hexX)) == PlacementAt(g, row, column)
  {
  }

  lemma ColumnStep(g: Layout, row: nat, column: nat, placed: Placement, before: Tables, after: Tables)
    requires placed == PlacementAt(g, row, column)
    requires before == TablesOf(Placements(g, row) + RowPlacements(g, row, column))
    requires after == AddCorners(before, placed, 6)
    ensures after == TablesOf(Placements(g, row) + RowPlacements(g, row, column + 1))
  {
    var done := Placements(g, row) + RowPlacements(g, row, column);
    assert Placements(g, row) + RowPlacements(g, row, column + 1) == done + [placed];
    TablesOfAppend(done, placed);
  }

  /** The innermost loop of the placement: the six corner steps of one hex. */
  method PlaceCorners(hexConns: map<Loc, set<Loc>>, isecConns: map<Loc, set<Loc>>,
                      pathConns: map<Loc, set<Loc>>, placed: Placement)
    returns (hexConns': map<Loc, set<Loc>>, isecConns': map<Loc, set<Loc>>, pathConns': map<Loc, set<Loc>>)
    ensures Tables(hexConns', isecConns', pathConns')
         == AddCorners(Tables(hexConns, isecConns, pathConns), placed, 6)
  {
    var hexLoc, isecs, paths := placed.centre, placed.isecs, placed.paths;
    hexConns', isecConns', pathConns' := hexConns, isecConns, pathConns;
    for i := 0 to 6
      invariant Tables(hexConns', isecConns', pathConns')
             == AddCorners(Tables(hexConns, isecConns, pathConns), placed, i)
    {
      hexConns' := hexConns'[hexLoc := Lookup(hexConns', hexLoc) + {isecs[i]}];
      isecConns' := isecConns'[isecs[i] := Lookup(isecConns', isecs[i]) + {paths[i], paths[(i + 1) % 6], hexLoc}];
      pathConns' := pathConns'[paths[i] := {isecs[i], isecs[(i + 5) % 6]}];
    }
  }

  /** One pass of the row loop: place the hexes of row `row`, left to right. */
  method PlaceRow(g: Layout, row: nat, hexY: int, hexConns: map<Loc, set<Loc>>,
                  isecConns: map<Loc, set<Loc>>, pathConns: map<Loc, set<Loc>>)
    returns (hexConns': map<Loc, set<Loc>>, isecConns': map<Loc, set<Loc>>, pathConns': map<Loc, set<Loc>>)
    requires hexY == RowY(g, row)
    requires Tables(hexConns, isecConns, pathConns) == TablesOf(Placements(g, row))
    ensures Tables(hexConns', isecConns', pathConns') == TablesOf(Placements(g, row + 1))
  {
    var hexSize := g.hexSize;
    hexConns', isecConns', pathConns' := hexConns, isecConns, pathConns;
    var ylocs := YLocs(hexY, hexSize);
    var hexX := g.leftBuffer + FloorDiv(hexSize, 2) + FloorDiv((hexY % 2) * hexSize, 2);
    RowBounds(g, row);
    for column := 0 to Count(g.nCols)
      invariant hexX == RowStartX(g, hexY) + column * hexSize
      invariant Tables(hexConns', isecConns', pathConns')
             == TablesOf(Placements(g, row) + RowPlacements(g, row, column))
    {
      hexConns', isecConns', pathConns' := PlaceColumn(g, row, column, hexY, hexX, ylocs, hexConns', isecConns', pathConns');
      NextColumnX(g, hexY, column, hexX);
      hexX := hexX + hexSize;
    }
  }

  /** Before the column loop the row has no hexes; after it, the row is complete. */
  lemma RowBounds(g: Layout, row: nat)
    ensures Placements(g, row) + RowPlacements(g, row, 0) == Placements(g, row)
    ensures Placements(g, row) + RowPlacements(g, row, Count(g.nCols)) == Placements(g, row + 1)
  {
  }

  /** The next column's centre is one hex width to the right. */
  lemma NextColumnX(g: Layout, hexY: int, column: nat, hexX: int)
    requires hexX == RowStartX(g, hexY) + column * g.hexSize
    ensures hexX + g.hexSize == RowStartX(g, hexY) + (column + 1) * g.hexSize
  {
    MulDistributes(column, 1, g.hexSize);
  }

  /** One pass of the column loop: place the hex at (row, column) and update the tables. */
  method PlaceColumn(g: Layout, row: nat, column: nat, hexY: int, hexX: int, ylocs: seq<int>,
                     hexConns: map<Loc, set<Loc>>, isecConns: map<Loc, set<Loc>>, pathConns: map<Loc, set<Loc>>)
    returns (hexConns': map<Loc, set<Loc>>, isecConns': map<Loc, set<Loc>>, pathConns': map<Loc, set<Loc>>)
    requires hexY == RowY(g, row) && hexX == RowStartX(g, hexY) + column * g.hexSize
    requires ylocs == YLocs(hexY, g.hexSize)
    requires Tables(hexConns, isecConns, pathConns) == TablesOf(Placements(g, row) + RowPlacements(g, row, column))
    ensures Tables(hexConns', isecConns', pathConns') == TablesOf(Placements(g, row) + RowPlacements(g, row, column + 1))
  {
    var placed := PlaceHex(ylocs, XLocs(hexX, g.hexSize), Loc(hexY, hexX));
    PlacedHexIsPlacementAt(g, row, column, hexY, hexX);
    hexConns', isecConns', pathConns' := PlaceCorners(hexConns, isecConns, pathConns, placed);
    ColumnStep(g, row, column, placed, Tables(hexConns, isecConns, pathConns), Tables(hexConns', isecConns', pathConns'));
  }

  /**
   * The placement loops of HexBoard.__post_init__: for every row, for every
   * column, place the hex and update the three tables.
   */
  method BuildTables(g: Layout) returns (t: Tables)
    ensures t == TablesOf(BoardPlacements(g))
  {
    var hexSize := g.hexSize;
    var hexConns: map<Loc, set<Loc>> := map[];
    var isecConns: map<Loc, set<Loc>> := map[];
    var pathConns: map<Loc, set<Loc>> := map[];
    var hexY := g.topBuffer + FloorDiv(hexSize, 2);
    for row := 0 to Count(g.nRows)
      invariant hexY == RowY(g, row)
      invariant Tables(hexConns, isecConns, pathConns) == TablesOf(Placements(g, row))
    {
      hexConns, isecConns, pathConns := PlaceRow(g, row, hexY, hexConns, isecConns, pathConns);
      MulDistributes(row, 1, FloorDiv(hexSize * 3, 4));
      hexY := hexY + FloorDiv(hexSize * 3, 4);
    }
    t := Tables(hexConns, isecConns, pathConns);
  }

  /*
   * What the tables mean, for any sequence of placed hexes.
   */

  /** Some placed hex centred at h has v as a corner. */
  ghost predicate HexHas(ps: seq<Placement>, h: Loc, v: Loc) {
    exists k, i :: 0 <= k < |ps| && 0 <= i < 6 && ps[k].centre == h && ps[k].isecs[i] == v
  }

  /** Some placed hex has v as corner i, and x is one of the two edges or the hex at that corner. */
  ghost predicate IsecHas(ps: seq<Placement>, v: Loc, x: Loc) {
    exists k, i :: 0 <= k < |ps| && 0 <= i < 6 && ps[k].isecs[i] == v && x in Around(ps[k], i)
  }

  /** Step i of hex k is the last step of all that writes the path ps[k].paths[i]. */
  ghost predicate LastWriter(ps: seq<Placement>, k: int, i: int) {
    && 0 <= k < |ps| && 0 <= i < 6
    && (forall j :: i < j < 6 ==> ps[k].paths[j] != ps[k].paths[i])
    && (forall k', j :: k < k' < |ps| && 0 <= j < 6 ==> ps[k'].paths[j] != ps[k].paths[i])
  }

  lemma {:induction false} HexKeysAfter(t: Tables, p: Placement, k: nat)
    requires k <= 6
    ensures forall h :: h in AddCorners(t, p, k).hexes <==> h in t.hexes || (0 < k && h == p.centre)
  {
    if k > 0 {
      HexKeysAfter(t, p, k - 1);
    }
  }

  lemma {:induction false} HexValuesAfter(t: Tables, p: Placement, k: nat)
    requires k <= 6
    ensures forall h, v :: v in Lookup(AddCorners(t, p, k).hexes, h) <==>
      v in Lookup(t.hexes, h) || (h == p.centre && exists i :: 0 <= i < k && p.isecs[i] == v)
  {
    if k > 0 {
      HexValuesAfter(t, p, k - 1);
      var t0 := AddCorners(t, p, k - 1);
      assert AddCorners(t, p, k).hexes == t0.hexes[p.centre := Lookup(t0.hexes, p.centre) + {p.isecs[k - 1]}];
    }
  }

  lemma {:induction false} IsecKeysAfter(t: Tables, p: Placement, k: nat)
    requires k <= 6
    ensures forall v :: v in AddCorners(t, p, k).isecs <==>
      v in t.isecs || exists i :: 0 <= i < k && p.isecs[i] == v
  {
    if k > 0 {
      IsecKeysAfter(t, p, k - 1);
      var t0 := AddCorners(t, p, k - 1);
      assert AddCorners(t, p, k).isecs == t0.isecs[p.isecs[k - 1] := Lookup(t0.isecs, p.isecs[k - 1]) + Around(p, k - 1)];
    }
  }

  lemma {:induction false} IsecValuesAfter(t: Tables, p: Placement, k: nat)
    requires k <= 6
    ensures forall v, x :: x in Lookup(AddCorners(t, p, k).isecs, v) <==>
      x in Lookup(t.isecs, v) || exists i :: 0 <= i < k && p.isecs[i] == v && x in Around(p, i)
  {
    if k > 0 {
      IsecValuesAfter(t, p, k - 1);
      var t0 := AddCorners(t, p, k - 1);
      var t' := AddCorners(t, p, k);
      assert t'.isecs == t0.isecs[p.isecs[k - 1] := Lookup(t0.isecs, p.isecs[k - 1]) + Around(p, k - 1)];
      forall v, x
        ensures x in Lookup(t'.isecs, v) <==>
          x in Lookup(t.isecs, v) || exists i :: 0 <= i < k && p.isecs[i] == v && x in Around(p, i)
      {
        if exists i :: 0 <= i < k && p.isecs[i] == v && x in Around(p, i) {
          var i :| 0 <= i < k && p.isecs[i] == v && x in Around(p, i);
          if i < k - 1 {
            assert x in Lookup(t0.isecs, v);
          }
        }
      }
    }
  }

  lemma {:induction false} PathKeysAfter(t: Tables, p: Placement, k: nat)
    requires k <= 6
    ensures forall m :: m in AddCorners(t, p, k).paths <==>
      m in t.paths || exists i :: 0 <= i < k && p.paths[i] == m
  {
    if k > 0 {
      PathKeysAfter(t, p, k - 1);
    }
  }

  /** Either no step of this hex wrote m, or the last one that did decides its ends. */
  ghost predicate PathWrittenAs(t: Tables, t': Tables, p: Placement, k: nat, m: Loc)
    requires k <= 6 && m in t'.paths
  {
    || ((forall i :: 0 <= i < k ==> p.paths[i] != m) && m in t.paths && t'.paths[m] == t.paths[m])
    || (exists i :: && 0 <= i < k && p.paths[i] == m && (forall j :: i < j < k ==> p.paths[j] != m)
                    && t'.paths[m] == Ends(p, i))
  }

  lemma {:induction false} PathValuesAfter(t: Tables, p: Placement, k: nat)
    requires k <= 6
    ensures forall m :: m in AddCorners(t, p, k).paths ==> PathWrittenAs(t, AddCorners(t, p, k), p, k, m)
  {
    if k > 0 {
      PathValuesAfter(t, p, k - 1);
      PathKeysAfter(t, p, k - 1);
      var t0 := AddCorners(t, p, k - 1);
      var t' := AddCorners(t, p, k);
      assert t' == AddCorner(t0, p, k - 1);
      forall m | m in t'.paths
        ensures PathWrittenAs(t, t', p, k, m)
      {
        if m == p.paths[k - 1] {
          assert t'.paths[m] == Ends(p, k - 1);
        } else {
          assert m in t0.paths && t'.paths[m] == t0.paths[m];
          PathNotRewritten(t, t0, t', p, k, m);
        }
      }
    }
  }

  /** A path that step k - 1 does not write keeps what the earlier steps decided. */
  lemma PathNotRewritten(t: Tables, t0: Tables, t': Tables, p: Placement, k: nat, m: Loc)
    requires 0 < k <= 6 && m in t0.paths && m in t'.paths
    requires p.paths[k - 1] != m && t'.paths[m] == t0.paths[m]
    requires PathWrittenAs(t, t0, p, k - 1, m)
    ensures PathWrittenAs(t, t', p, k, m)
  {
    if exists i :: && 0 <= i < k - 1 && p.paths[i] == m && (forall j :: i < j < k - 1 ==> p.paths[j] != m)
                   && t0.paths[m] == Ends(p, i) {
      var i :| && 0 <= i < k - 1 && p.paths[i] == m && (forall j :: i < j < k - 1 ==> p.paths[j] != m)
               && t0.paths[m] == Ends(p, i);
      assert forall j :: i < j < k ==> p.paths[j] != m;
    }
  }

  /** The hex table lists, for every placed centre, the corners of the hexes placed there. */
  lemma HexTableMeaning(ps: seq<Placement>)
    ensures forall h :: h in TablesOf(ps).hexes <==> exists k :: 0 <= k < |ps| && ps[k].centre == h
    ensures forall h, v :: v in Lookup(TablesOf(ps).hexes, h) <==> HexHas(ps, h, v)
  {
    HexKeysMeaning(ps);
    HexValuesMeaning(ps);
  }

  /** The hex table has a key for every placed centre. */
  lemma {:induction false} HexKeysMeaning(ps: seq<Placement>)
    ensures forall h :: h in TablesOf(ps).hexes <==> exists k :: 0 <= k < |ps| && ps[k].centre == h
  {
    if ps != [] {
      var init, p := ps[..|ps| - 1], ps[|ps| - 1];
      HexKeysMeaning(init);
      HexKeysAfter(TablesOf(init), p, 6);
      var t := TablesOf(ps);
      forall h
        ensures h in t.hexes <==> exists k :: 0 <= k < |ps| && ps[k].centre == h
      {
        if exists k :: 0 <= k < |ps| && ps[k].centre == h {
          var k :| 0 <= k < |ps| && ps[k].centre == h;
          if k < |init| {
            assert init[k] == ps[k];
          }
        }
      }
    }
  }

  /** The hex table lists, under each centre, the corners of the hexes placed there. */
  lemma {:induction false} HexValuesMeaning(ps: seq<Placement>)
    ensures forall h, v :: v in Lookup(TablesOf(ps).hexes, h) <==> HexHas(ps, h, v)
  {
    if ps != [] {
      var init, p := ps[..|ps| - 1], ps[|ps| - 1];
      HexValuesMeaning(init);
      HexValuesAfter(TablesOf(init), p, 6);
      var t := TablesOf(ps);
      forall h, v
        ensures v in Lookup(t.hexes, h) <==> HexHas(ps, h, v)
      {
        if HexHas(ps, h, v) {
          var k, i :| 0 <= k < |ps| && 0 <= i < 6 && ps[k].centre == h && ps[k].isecs[i] == v;
          if k < |init| {
            assert init[k] == ps[k];
            assert HexHas(init, h, v);
          }
        }
        if HexHas(init, h, v) {
          var k, i :| 0 <= k < |init| && 0 <= i < 6 && init[k].centre == h && init[k].isecs[i] == v;
          assert ps[k] == init[k];
        }
      }
    }
  }

  /** The intersection table has a key for every corner of every placed hex. */
  lemma {:induction false} IsecKeysMeaning(ps: seq<Placement>)
    ensures forall v :: v in TablesOf(ps).isecs <==>
      exists k, i :: 0 <= k < |ps| && 0 <= i < 6 && ps[k].isecs[i] == v
  {
    if ps != [] {
      var init, p := ps[..|ps| - 1], ps[|ps| - 1];
      IsecKeysMeaning(init);
      IsecKeysAfter(TablesOf(init), p, 6);
      forall v
        ensures v in TablesOf(ps).isecs <==> exists k, i :: 0 <= k < |ps| && 0 <= i < 6 && ps[k].isecs[i] == v
      {
        if exists k, i :: 0 <= k < |ps| && 0 <= i < 6 && ps[k].isecs[i] == v {
          var k, i :| 0 <= k < |ps| && 0 <= i < 6 && ps[k].isecs[i] == v;
          if k < |init| {
            assert init[k] == ps[k];
          }
        }
        if exists k, i :: 0 <= k < |init| && 0 <= i < 6 && init[k].isecs[i] == v {
          var k, i :| 0 <= k < |init| && 0 <= i < 6 && init[k].isecs[i] == v;
          assert ps[k] == init[k];
        }
      }
    }
  }

  /** The intersection table lists, for every corner, the edges and hexes met at that corner. */
  lemma {:induction false} IsecTableMeaning(ps: seq<Placement>)
    ensures forall v, x :: x in Lookup(TablesOf(ps).isecs, v) <==> IsecHas(ps, v, x)
  {
    if ps != [] {
      var init, p := ps[..|ps| - 1], ps[|ps| - 1];
      IsecTableMeaning(init);
      IsecValuesAfter(TablesOf(init), p, 6);
      forall v, x | IsecHas(ps, v, x)
        ensures x in Lookup(TablesOf(ps).isecs, v)
      {
        var k, i :| 0 <= k < |ps| && 0 <= i < 6 && ps[k].isecs[i] == v && x in Around(ps[k], i);
        if k < |init| {
          assert init[k] == ps[k];
          assert IsecHas(init, v, x);
        }
      }
      forall v, x | x in Lookup(TablesOf(ps).isecs, v)
        ensures IsecHas(ps, v, x)
      {
        if IsecHas(init, v, x) {
          var k, i :| 0 <= k < |init| && 0 <= i < 6 && init[k].isecs[i] == v && x in Around(init[k], i);
          assert ps[k] == init[k];
        }
      }
    }
  }

  /** The path table has a key for every edge midpoint of every placed hex. */
  lemma {:induction false} PathKeysMeaning(ps: seq<Placement>)
    ensures forall m :: m in TablesOf(ps).paths <==>
      exists k, i :: 0 <= k < |ps| && 0 <= i < 6 && ps[k].paths[i] == m
  {
    if ps != [] {
      var init, p := ps[..|ps| - 1], ps[|ps| - 1];
      PathKeysMeaning(init);
      PathKeysAfter(TablesOf(init), p, 6);
      forall m
        ensures m in TablesOf(ps).paths <==> exists k, i :: 0 <= k < |ps| && 0 <= i < 6 && ps[k].paths[i] == m
      {
        if exists k, i :: 0 <= k < |ps| && 0 <= i < 6 && ps[k].paths[i] == m {
          var k, i :| 0 <= k < |ps| && 0 <= i < 6 && ps[k].paths[i] == m;
          if k < |init| {
            assert init[k] == ps[k];
          }
        }
        if exists k, i :: 0 <= k < |init| && 0 <= i < 6 && init[k].paths[i] == m {
          var k, i :| 0 <= k < |init| && 0 <= i < 6 && init[k].paths[i] == m;
          assert ps[k] == init[k];
        }
      }
    }
  }

  lemma LastWriterExtended(init: seq<Placement>, p: Placement, k: int, i: int)
    requires LastWriter(init, k, i)
    requires forall j :: 0 <= j < 6 ==> p.paths[j] != init[k].paths[i]
    ensures LastWriter(init + [p], k, i)
  {
    var ps := init + [p];
    forall k', j | k < k' < |ps| && 0 <= j < 6
      ensures ps[k'].paths[j] != ps[k].paths[i]
    {
      if k' < |init| {
        assert ps[k'] == init[k'];
      }
    }
  }

  /** Every path in the table has the ends its last writer gave it. */
  lemma {:induction false} PathTableMeaning(ps: seq<Placement>)
    ensures forall m :: m in TablesOf(ps).paths ==>
      exists k, i :: LastWriter(ps, k, i) && ps[k].paths[i] == m && TablesOf(ps).paths[m] == Ends(ps[k], i)
  {
    if ps != [] {
      var init, p := ps[..|ps| - 1], ps[|ps| - 1];
      assert ps == init + [p];
      PathTableMeaning(init);
      PathValuesAfter(TablesOf(init), p, 6);
      var t := TablesOf(ps);
      forall m | m in t.paths
        ensures exists k, i :: LastWriter(ps, k, i) && ps[k].paths[i] == m && t.paths[m] == Ends(ps[k], i)
      {
        assert PathWrittenAs(TablesOf(init), t, p, 6, m);
        if forall j :: 0 <= j < 6 ==> p.paths[j] != m {
          var k, i :| LastWriter(init, k, i) && init[k].paths[i] == m && TablesOf(init).paths[m] == Ends(init[k], i);
          LastWriterExtended(init, p, k, i);
          assert ps[k] == init[k];
        } else {
          var i :| && 0 <= i < 6 && p.paths[i] == m && (forall j :: i < j < 6 ==> p.paths[j] != m)
                   && t.paths[m] == Ends(p, i);
          assert LastWriter(ps, |ps| - 1, i);
        }
      }
    }
  }

  /*
   * Adjacency facts that hold for any sequence of placed hexes.
   */

  /** Every entry of a table is a key of the table of its kind. */
  ghost predicate Closed(t: Tables) {
    && (forall h, v :: v in Lookup(t.hexes, h) ==> v in t.isecs)
    && (forall v, x :: x in Lookup(t.isecs, v) ==> x in t.hexes || x in t.paths)
    && (forall m, v :: v in Lookup(t.paths, m) ==> v in t.isecs)
  }

  lemma TablesClosed(ps: seq<Placement>)
    ensures Closed(TablesOf(ps))
  {
    HexEntriesAreIsecs(ps);
    IsecEntriesAreKeys(ps);
    PathEntriesAreIsecs(ps);
  }

  lemma HexEntriesAreIsecs(ps: seq<Placement>)
    ensures forall h, v :: v in Lookup(TablesOf(ps).hexes, h) ==> v in TablesOf(ps).isecs
  {
    var t := TablesOf(ps);
    HexValuesMeaning(ps);
    IsecKeysMeaning(ps);
    forall h, v | v in Lookup(t.hexes, h)
      ensures v in t.isecs
    {
      var k, i :| 0 <= k < |ps| && 0 <= i < 6 && ps[k].centre == h && ps[k].isecs[i] == v;
    }
  }

  lemma IsecEntriesAreKeys(ps: seq<Placement>)
    ensures forall v, x :: x in Lookup(TablesOf(ps).isecs, v) ==> x in TablesOf(ps).hexes || x in TablesOf(ps).paths
  {
    var t := TablesOf(ps);
    HexKeysMeaning(ps);
    IsecTableMeaning(ps);
    PathKeysMeaning(ps);
    forall v, x | x in Lookup(t.isecs, v)
      ensures x in t.hexes || x in t.paths
    {
      var k, i :| 0 <= k < |ps| && 0 <= i < 6 && ps[k].isecs[i] == v && x in Around(ps[k], i);
      if x != ps[k].centre {
        assert x == ps[k].paths[i] || x == ps[k].paths[(i + 1) % 6];
      }
    }
  }

  lemma PathEntriesAreIsecs(ps: seq<Placement>)
    ensures forall m, v :: v in Lookup(TablesOf(ps).paths, m) ==> v in TablesOf(ps).isecs
  {
    var t := TablesOf(ps);
    IsecKeysMeaning(ps);
    PathTableMeaning(ps);
    forall m, v | v in Lookup(t.paths, m)
      ensures v in t.isecs
    {
      var k, i :| LastWriter(ps, k, i) && ps[k].paths[i] == m && t.paths[m] == Ends(ps[k], i);
      assert v == ps[k].isecs[i] || v == ps[k].isecs[(i + 5) % 6];
    }
  }

  /** A hex's corners list the hex (lines 41-42 of the builder add both directions). */
  lemma HexCornersListHex(ps: seq<Placement>)
    ensures forall h, v :: v in Lookup(TablesOf(ps).hexes, h) ==> h in Lookup(TablesOf(ps).isecs, v)
  {
    HexTableMeaning(ps);
    IsecTableMeaning(ps);
    forall h, v | v in Lookup(TablesOf(ps).hexes, h)
      ensures IsecHas(ps, v, h)
    {
      var k, i :| 0 <= k < |ps| && 0 <= i < 6 && ps[k].centre == h && ps[k].isecs[i] == v;
      assert h in Around(ps[k], i);
    }
  }

  lemma IsecEntry(ps: seq<Placement>, v: Loc, x: Loc)
    ensures x in Lookup(TablesOf(ps).isecs, v) <==> IsecHas(ps, v, x)
  {
    IsecTableMeaning(ps);
  }

  lemma HexEntry(ps: seq<Placement>, h: Loc, v: Loc)
    ensures v in Lookup(TablesOf(ps).hexes, h) <==> HexHas(ps, h, v)
  {
    HexTableMeaning(ps);
  }

  lemma PathKey(ps: seq<Placement>, m: Loc)
    ensures m in TablesOf(ps).paths <==> exists k, i :: 0 <= k < |ps| && 0 <= i < 6 && ps[k].paths[i] == m
  {
    PathKeysMeaning(ps);
  }

  lemma PathEntry(ps: seq<Placement>, m: Loc)
    requires m in TablesOf(ps).paths
    ensures exists k, i :: LastWriter(ps, k, i) && ps[k].paths[i] == m && TablesOf(ps).paths[m] == Ends(ps[k], i)
  {
    PathTableMeaning(ps);
  }

  /** A path's ends are the ends some step wrote for it. */
  lemma PathEndsWritten(ps: seq<Placement>, m: Loc) returns (k: nat, i: nat)
    requires m in TablesOf(ps).paths
    ensures k < |ps| && i < 6 && ps[k].paths[i] == m && TablesOf(ps).paths[m] == Ends(ps[k], i)
  {
    PathEntry(ps, m);
    var k', i' :| LastWriter(ps, k', i') && ps[k'].paths[i'] == m && TablesOf(ps).paths[m] == Ends(ps[k'], i');
    k, i := k', i';
  }

  /**
   * An intersection's entries that are not edge midpoints are hexes that list
   * the intersection back.
   */
  lemma IsecHexesListIsec(ps: seq<Placement>)
    ensures forall v, x :: x in Lookup(TablesOf(ps).isecs, v) && x !in TablesOf(ps).paths ==>
      v in Lookup(TablesOf(ps).hexes, x)
  {
    forall v, x | x in Lookup(TablesOf(ps).isecs, v) && x !in TablesOf(ps).paths
      ensures v in Lookup(TablesOf(ps).hexes, x)
    {
      IsecEntry(ps, v, x);
      PathKey(ps, x);
      HexEntry(ps, x, v);
      var k, i :| 0 <= k < |ps| && 0 <= i < 6 && ps[k].isecs[i] == v && x in Around(ps[k], i);
      assert x != ps[k].paths[i] && x != ps[k].paths[(i + 1) % 6];
    }
  }

  /** Every end of a path lists the path. */
  ghost predicate PathEndsListIt(t: Tables) {
    forall m, v :: v in Lookup(t.paths, m) ==> m in Lookup(t.isecs, v)
  }

  /** Both ends of a path list the path, whichever hex wrote it last. */
  lemma PathEndsListPath(ps: seq<Placement>)
    ensures PathEndsListIt(TablesOf(ps))
  {
    var t := TablesOf(ps);
    forall m, v | v in Lookup(t.paths, m)
      ensures m in Lookup(t.isecs, v)
    {
      var k, i := PathEndsWritten(ps, m);
      IsecEntry(ps, v, m);
      if v == ps[k].isecs[i] {
        assert m in Around(ps[k], i);
      } else {
        var j := (i + 5) % 6;
        assert v == ps[k].isecs[j] && (j + 1) % 6 == i;
        assert m in Around(ps[k], j);
      }
    }
  }

  /** No two neighbouring corners of the hex coincide. */
  predicate CornersApart(p: Placement) {
    && p.isecs[0] != p.isecs[5] && p.isecs[1] != p.isecs[0] && p.isecs[2] != p.isecs[1]
    && p.isecs[3] != p.isecs[2] && p.isecs[4] != p.isecs[3] && p.isecs[5] != p.isecs[4]
  }

  lemma EndsApart(p: Placement, i: nat)
    requires CornersApart(p) && i < 6
    ensures |Ends(p, i)| == 2
  {
    assert p.isecs[i] != p.isecs[(i + 5) % 6] by {
      if i == 0 {} else if i == 1 {} else if i == 2 {} else if i == 3 {} else if i == 4 {} else {}
    }
  }

  /** When no hex has two equal neighbouring corners, every path has exactly two ends. */
  lemma PathsHaveTwoEnds(ps: seq<Placement>)
    requires forall k :: 0 <= k < |ps| ==> CornersApart(ps[k])
    ensures forall m :: m in TablesOf(ps).paths ==> |TablesOf(ps).paths[m]| == 2
  {
    forall m | m in TablesOf(ps).paths
      ensures |TablesOf(ps).paths[m]| == 2
    {
      var k, i := PathEndsWritten(ps, m);
      EndsApart(ps[k], i);
    }
  }
}

=== FILE: tiles.dfy ===
/**
 * The declarations of modeling/hex_board/tiles.py that the board builder
 * uses: the tile kinds and the record of one built tile.
 */
module Tiles {

  /** A pixel coordinate, in the source's (y, x) tuple order. */
  datatype Loc = Loc(y: int, x: int)

  /** Python's ordering of (y, x) tuples. */
  predicate LocLt(a: Loc, b: Loc) {
    a.y < b.y || (a.y == b.y && a.x < b.x)
  }

  /** TileType: Hex = 0, Intersection = 1, PathVertical = 2, PathSlopedR = 3, PathSlopedL = 4. */
  datatype TileType = Hex | Intersection | PathVertical | PathSlopedR | PathSlopedL {
    predicate IsPath() {
      PathVertical? || PathSlopedR? || PathSlopedL?
    }
  }

  /**
   * TileInfo. The source builds `connections` by iterating a Python set, in
   * an order it does not fix, so the model keeps the set of indices.
   */
  datatype TileInfo = TileInfo(index: nat, tileType: TileType, loc: Loc, connections: set<nat>)
}

=== FILE: tools.dfy ===
/**
 * Helpers of modeling/catan/tools.py: the AutoNumber enum numbering, the
 * padding of ragged connection lists, and the index-range query.
 */
module Tools {
  import opened Wrappers

  /**
   * AutoNumber.__new__: a member's value is the number of members of its
   * class declared before it, i.e. its position in declaration order.
   */
  function AutoNumber<T(==)>(declared: seq<T>, m: T): (v: nat)
    requires m in declared
    ensures v < |declared| && declared[v] == m
    ensures m !in declared[..v]
  {
    if declared[0] == m then 0 else 1 + AutoNumber(declared[1..], m)
  }

  /** In a class whose members are distinct, member i gets value i. */
  lemma {:induction false} AutoNumberIsPosition<T>(declared: seq<T>, i: nat)
    requires i < |declared|
    requires forall j, k :: 0 <= j < k < |declared| ==> declared[j] != declared[k]
    ensures AutoNumber(declared, declared[i]) == i
  {
  }

  /** One row of a ragged list of lists, updated in place by the padding routines. */
  class Row {
    var items: seq<int>

    constructor (items: seq<int>)
      ensures this.items == items
    {
      this.items := items;
    }
  }

  /** The contents of the rows of an outer list, in order. */
  function ItemsOf(rows: seq<Row>): (ls: seq<seq<int>>)
    reads set x | x in rows
    ensures |ls| == |rows|
    ensures forall i :: 0 <= i < |rows| ==> ls[i] == rows[i].items
  {
    if rows == [] then [] else [rows[0].items] + ItemsOf(rows[1..])
  }

  /** `max(map(len, ls))`, defined only for a non-empty outer list. */
  function MaxLen(ls: seq<seq<int>>): (w: nat)
    requires |ls| > 0
    ensures forall i :: 0 <= i < |ls| ==> |ls[i]| <= w
    ensures exists i :: 0 <= i < |ls| && |ls[i]| == w
  {
    if |ls| == 1 then |ls[0]|
    else
      var w0 := MaxLen(ls[1..]);
      assert forall i :: 1 <= i < |ls| ==> ls[i] == ls[1..][i - 1];
      if |ls[0]| < w0 then w0 else |ls[0]|
  }

  /** The index of the first empty row, or |ls| when there is none. */
  function FirstEmpty(ls: seq<seq<int>>): (k: nat)
    ensures k <= |ls|
    ensures forall j :: 0 <= j < k ==> |ls[j]| > 0
    ensures k < |ls| ==> |ls[k]| == 0
  {
    if ls == [] then 0
    else if |ls[0]| == 0 then 0
    else 1 + FirstEmpty(ls[1..])
  }

  /**
   * A row extended to width w with copies of its last entry; a row that is
   * already at least w long is left as it is.
   */
  function Padded(s: seq<int>, w: nat): (r: seq<int>)
    requires w <= |s| || |s| > 0
    ensures |r| == if |s| < w then w else |s|
    ensures r[..|s|] == s
    ensures forall k :: |s| <= k < |r| ==> r[k] == s[|s| - 1]
  {
    if w <= |s| then s else s + seq(w - |s|, _ => s[|s| - 1])
  }

  /** Padding never introduces a value that the row did not already hold. */
  lemma PaddedValuesComeFromRow(s: seq<int>, w: nat, k: nat)
    requires w <= |s| || |s| > 0
    requires k < |Padded(s, w)|
    ensures Padded(s, w)[k] in s
  {
    if k >= |s| {
      assert Padded(s, w)[k] == s[|s| - 1];
    } else {
      assert Padded(s, w)[k] == Padded(s, w)[..|s|][k];
    }
  }

  /** Pads one row in place by repeated appends (the inner while loop of make_even_lengths). */
  method AppendUntil(row: Row, w: nat)
    requires w <= |row.items| || |row.items| > 0
    modifies row
    ensures row.items == Padded(old(row.items), w)
  {
    ghost var s := row.items;
    while |row.items| < w
      invariant |s| <= |row.items| <= (if |s| < w then w else |s|)
      invariant row.items[..|s|] == s
      invariant forall k :: |s| <= k < |row.items| ==> row.items[k] == s[|s| - 1]
      decreases w - |row.items|
    {
      row.items := row.items + [row.items[|row.items| - 1]];
    }
    assert |row.items| == |Padded(s, w)|;
    forall k | 0 <= k < |row.items|
      ensures row.items[k] == Padded(s, w)[k]
    {
      if k < |s| {
        assert row.items[k] == row.items[..|s|][k];
        assert Padded(s, w)[k] == Padded(s, w)[..|s|][k];
      }
    }
  }

  /** Rows that are the same object hold the same items. */
  ghost predicate Coherent(rows: seq<Row>, ls: seq<seq<int>>)
    requires |ls| == |rows|
  {
    forall j, k :: 0 <= j < |rows| && 0 <= k < |rows| && rows[j] == rows[k] ==> ls[j] == ls[k]
  }

  /**
   * The state after the first t entries of the outer list were padded to w:
   * every row object met so far holds its padded original items, every
   * other row still holds its original items (`before`).
   */
  ghost predicate PaddedThrough(rows: seq<Row>, now: seq<seq<int>>, before: seq<seq<int>>, w: nat, t: nat)
    requires |now| == |rows| && |before| == |rows| && t <= |rows|
  {
    forall j :: 0 <= j < |rows| ==>
      if rows[j] in rows[..t] then (w <= |before[j]| || |before[j]| > 0) && now[j] == Padded(before[j], w)
      else now[j] == before[j]
  }

  lemma PaddedThroughStep(rows: seq<Row>, now: seq<seq<int>>, next: seq<seq<int>>,
                          before: seq<seq<int>>, w: nat, t: nat)
    requires |now| == |rows| && |next| == |rows| && |before| == |rows| && t < |rows|
    requires Coherent(rows, before)
    requires PaddedThrough(rows, now, before, w, t)
    requires w <= |before[t]| || |before[t]| > 0
    requires w <= |now[t]| || |now[t]| > 0
    requires forall j :: 0 <= j < |rows| ==>
      next[j] == if rows[j] == rows[t] then Padded(now[t], w) else now[j]
    ensures PaddedThrough(rows, next, before, w, t + 1)
  {
    assert rows[..t + 1] == rows[..t] + [rows[t]];
    if rows[t] in rows[..t] {
      var k :| 0 <= k < t && rows[k] == rows[t];
      assert now[t] == Padded(before[t], w);
    }
  }

  lemma PaddedThroughNone(rows: seq<Row>, before: seq<seq<int>>, w: nat)
    requires |before| == |rows|
    ensures PaddedThrough(rows, before, before, w, 0)
  {
  }

  /**
   * Once every row is padded to the widest row's width w, every row has
   * width w, keeps its original entries as a prefix, and is filled with
   * copies of its last original entry.
   */
  lemma PaddedAllRows(rows: seq<Row>, now: seq<seq<int>>, before: seq<seq<int>>, w: nat)
    requires |now| == |rows| && |before| == |rows|
    requires PaddedThrough(rows, now, before, w, |rows|)
    requires forall j :: 0 <= j < |rows| ==> |before[j]| <= w
    ensures forall j :: 0 <= j < |rows| ==> |now[j]| == w && now[j][..|before[j]|] == before[j]
    ensures forall j, k :: 0 <= j < |rows| && |before[j]| <= k < w ==> now[j][k] == before[j][|before[j]| - 1]
  {
    assert rows[..|rows|] == rows;
    forall j | 0 <= j < |rows|
      ensures now[j] == Padded(before[j], w)
    {
      assert rows[j] in rows[..|rows|];
    }
  }

  /**
   * make_even_lengths: copies the outer list only, so the rows it pads are
   * the caller's own rows. Fails with ValueError on an empty outer list, and
   * with IndexError at the first empty row when some row is non-empty; the
   * rows before that one have already been padded.
   */
  method MakeEvenLengths(boardConns: seq<Row>) returns (r: Result<seq<Row>>)
    modifies set x | x in boardConns
    ensures boardConns == [] ==> r.Err? && r.error.ValueError?
    ensures boardConns != [] ==>
      var w := MaxLen(old(ItemsOf(boardConns)));
      var stop := if w == 0 then |boardConns| else FirstEmpty(old(ItemsOf(boardConns)));
      && (r.Ok? <==> stop == |boardConns|)
      && (r.Ok? ==> r.value == boardConns)
      && (r.Err? ==> r.error == IndexError)
      && PaddedThrough(boardConns, ItemsOf(boardConns), old(ItemsOf(boardConns)), w, stop)
  {
    if boardConns == [] {
      return Err(ValueError("max() arg is an empty sequence"));
    }
    var connLists := boardConns;
    ghost var before := ItemsOf(boardConns);
    var maxConns := MaxLen(ItemsOf(connLists));
    ghost var stop := if maxConns == 0 then |boardConns| else FirstEmpty(before);
    PaddedThroughNone(boardConns, before, maxConns);
    for t := 0 to |connLists|
      invariant t <= stop
      invariant PaddedThrough(boardConns, ItemsOf(boardConns), before, maxConns, t)
    {
      var row := connLists[t];
      ghost var now := ItemsOf(boardConns);
      if |row.items| < maxConns && |row.items| == 0 {
        return Err(IndexError);
      }
      assert t < stop;
      AppendUntil(row, maxConns);
      PaddedThroughStep(boardConns, now, ItemsOf(boardConns), before, maxConns, t);
    }
    return Ok(connLists);
  }

  /** Row-major concatenation: itertools.chain over rows, or ravel of a matrix. */
  function Flatten<T>(rows: seq<seq<T>>): seq<T> {
    if rows == [] then [] else rows[0] + Flatten(rows[1..])
  }

  /** Row-major flattening of rows of width w: entry w*r + c is row r, column c. */
  lemma {:induction false} FlattenRowMajor<T>(rows: seq<seq<T>>, w: nat, r: nat, c: nat)
    requires forall k :: 0 <= k < |rows| ==> |rows[k]| == w
    requires r < |rows| && c < w
    ensures w * r + c < |Flatten(rows)| && Flatten(rows)[w * r + c] == rows[r][c]
  {
    var rest := rows[1..];
    assert forall k :: 0 <= k < |rest| ==> rest[k] == rows[k + 1];
    FlattenLength(rest, w);
    assert Flatten(rows) == rows[0] + Flatten(rest);
    if r > 0 {
      FlattenRowMajor(rest, w, r - 1, c);
      assert rest[r - 1] == rows[r];
      assert w * r + c == w + (w * (r - 1) + c);
    }
  }

  lemma {:induction false} FlattenLength<T>(rows: seq<seq<T>>, w: nat)
    requires forall k :: 0 <= k < |rows| ==> |rows[k]| == w
    ensures |Flatten(rows)| == w * |rows|
  {
    if rows != [] {
      FlattenLength(rows[1..], w);
    }
  }

  /**
   * np.where(low <= a < high) on a one-dimensional array: the indices whose
   * element lies in [low, high), in ascending order.
   */
  function ElementsWithinRange(a: seq<int>, low: int, high: int): (r: seq<nat>)
    ensures forall i: nat :: i in r <==> i < |a| && low <= a[i] < high
    ensures forall j, k :: 0 <= j < k < |r| ==> r[j] < r[k]
    ensures forall j :: 0 <= j < |r| ==> r[j] < |a|
  {
    if a == [] then []
    else
      var r0 := ElementsWithinRange(a[..|a| - 1], low, high);
      if low <= a[|a| - 1] < high then r0 + [|a| - 1] else r0
  }
}

=== FILE: wrappers.dfy ===
/** Failure-carrying results shared by the board modules. */
module Wrappers {

  datatype Option<+T> = None | Some(value: T)

  /** The error a Python call would raise, by kind. */
  datatype Error =
    | ValueError(msg: string)
    | IndexError
    | KeyError
    /** A value numpy cannot convert, known by the name of its class. */
    | TypeError(className: string)

  datatype Result<+T> = Ok(value: T) | Err(error: Error)

  datatype Outcome = Pass | Fail(error: Error)
}
